=== FILE: README.md ===
# jir core in Dafny

jir is a command-line JIRA client written in Ruby. This project models
its core in Dafny and proves properties of the model:

- **ADF to Markdown.** The walker visits an Atlassian Document Format
  tree depth-first and calls builder hooks. The Markdown builder turns
  those hook calls into text.
- **Text to ADF.** A line-based parser turns a plain-text description
  into an ADF document: paragraphs, `ℹ️`/`✅` panels, nested `*` lists
  and fenced code blocks.
- **JQL templates.** `%N` placeholders can be rendered, shifted and
  AND-joined.
- **Search building.** A query is decoded into named searches, the
  searches are merged, and an output is applied.
- **Ticket keys.** Numbers, aliases, `git` refs and full keys resolve to
  ticket keys.
- **Field values.** Command-line strings are converted to field JSON.
- **Configuration.** Several configuration files are merged in layers.

One Dafny module stands for each Ruby file:

| module | Ruby file |
|---|---|
| `Walker` | `lib/jir/adf/walker.rb` |
| `MarkdownBuilder` | `lib/jir/adf/markdown_builder.rb` |
| `Renderer` | `lib/jir/adf/renderer.rb` |
| `TextToAdf` | node classes of `lib/jir/adf/text_to_adf.rb` |
| `DocumentParser` | `DocumentParser#parse` of the same file |
| `ParserProperties` | what the parser promises |
| `Jql` | `lib/jir/jql.rb` |
| `SearchBuilder` | `lib/jir/search_builder.rb` |
| `TicketKeyResolver` | `lib/jir/ticket_key_resolver.rb` |
| `FieldTypes` | `lib/jir/field_types.rb` |
| `Config` | `lib/jir/config.rb` |

Four support modules back them:

- `Wrappers`: `Option` and `Result`.
- `Values`: parsed JSON/YAML values. A Ruby `Hash` is an ordered list of
  entries with Hash semantics: `[]`, `[]=`, `delete`, `merge` and `dig`.
- `RubyText`: the `String` methods the code relies on. These are
  `strip`, `chomp`, `lines`, `split` and `to_i`/`to_s` on decimals.
- `SeqFacts`: generic sequence lemmas.

Mutable objects become values:

- The Markdown builder is a record, with one function per hook.
- The walk is a fold of a hook function over the list of hook calls the
  walk makes.
- The text parser is a fold over the lines.
- `raise`, `exit 1` and `$stderr` warnings become `Err` values, or a
  list of warnings kept in the builder.

## Model

| member | source | states |
|---|---|---|
| Walker.Translate | lib/jir/adf/walker.rb:11-15 | a fresh builder fed every hook call of the walk, in walk order, is what `translate` returns |
| Walker.WalkIsRun | lib/jir/adf/walker.rb:17-33 | the recursive walk makes exactly the hook calls listed for the node: open_node, the marks' opens, the children's calls (or one `inline`), the marks' closes, close_node |
| Walker.EachMarkIsRun | lib/jir/adf/walker.rb:21 | `marks&.each` calls the mark hook once per mark, in listed order |
| Walker.InlinesAreLeaves | lib/jir/adf/walker.rb:18-29 | every node without `content` reaches `inline` exactly once, in document order, and no other node does |
| Walker.NodesBalanced | lib/jir/adf/walker.rb:20-32 | open_node and close_node calls nest properly: every container is closed, innermost first, and the stack of open nodes is left as it was found |
| Walker.MarksCloseInListedOrder | lib/jir/adf/walker.rb:31 | a leaf with marks strong, em closes strong before em, in the same order as it opened them |
| Walker.RoutingFollowsShape | lib/jir/adf/walker.rb:17-33 | two trees of the same shape (`content` present in the same places, as many children and as many marks on every node) get the same hooks in the same order, whatever their types, attributes and text at any depth |
| Walker.RoutingIgnoresType | lib/jir/adf/walker.rb:18 | retyping a node and replacing its attributes and text leaves the hook sequence of its whole walk unchanged |
| Walker.LeafHooks | lib/jir/adf/walker.rb:20-31 | a leaf gets its mark opens, one `inline` call and its mark closes, with no open_node or close_node |
| Walker.ContainerHooks | lib/jir/adf/walker.rb:20-32 | a container is bracketed by one open_node and one close_node around its marks and children |
| MarkdownBuilder.Init | lib/jir/adf/markdown_builder.rb:28-31 | a new builder has empty output, no open lists, no pending prefix and no warnings |
| MarkdownBuilder.Concat | lib/jir/adf/markdown_builder.rb:33-35 | `nil` leaves the builder unchanged; a string is appended to the output and nothing else changes |
| MarkdownBuilder.WarnUnknown | lib/jir/adf/markdown_builder.rb:37-39 | a warning naming the kind and type is added and the output is untouched |
| MarkdownBuilder.AddTextPrefix | lib/jir/adf/markdown_builder.rb:41-44 | prefixes accumulate, in order, into the pending prefix; the output is untouched |
| MarkdownBuilder.ConcatTextPrefixes | lib/jir/adf/markdown_builder.rb:46-50 | the pending prefix is emitted once, possibly as nothing, and then forgotten |
| MarkdownBuilder.OpenMark | lib/jir/adf/markdown_builder.rb:52-67 | only appends; an unknown mark type warns instead of writing, and a known one writes without warning; lists and pending prefix are kept |
| MarkdownBuilder.CloseMark | lib/jir/adf/markdown_builder.rb:69-84 | only appends; an unknown mark type warns instead of writing, and a known one writes without warning; lists and pending prefix are kept |
| MarkdownBuilder.ItemMarker | lib/jir/adf/markdown_builder.rb:99-101 | a list item marker is one tab per open list, then `1. ` inside an ordered list and `* ` otherwise |
| MarkdownBuilder.OpenNode | lib/jir/adf/markdown_builder.rb:86-114 | only appends; exactly the unknown node types warn; ordered and bullet lists push their kind; only a panel touches the pending prefix; doc, paragraph and lists write nothing; a heading writes `# `, a code block opens its fence, a blockquote writes `> `, a list item writes its marker, and a panel writes `---` and queues its panel type's icon |
| MarkdownBuilder.CloseNode | lib/jir/adf/markdown_builder.rb:116-135 | only appends; exactly the unknown node types warn; a list pops the stack of lists, and only when it is non-empty; doc, listItem and lists write nothing; a heading and a blockquote end their line, a code block closes its fence, a panel writes `---`, and a paragraph ends with a blank line outside lists and a single newline inside one |
| MarkdownBuilder.PopList | lib/jir/adf/markdown_builder.rb:124-125 | the last open list is dropped, and an empty stack stays empty |
| MarkdownBuilder.InlineExtension | lib/jir/adf/markdown_builder.rb:137-154 | an extension writes output exactly when it is a paste-code macro with a body, and then writes that body fenced with its language; every other extension writes nothing and adds one inline_extension warning |
| MarkdownBuilder.Inline | lib/jir/adf/markdown_builder.rb:156-180 | only appends; a text leaf writes the pending prefix then its text, and clears the prefix; an emoji writes its text, a hard break a blank line, an inline card the pin and its url, a mention its text in bold; exactly the unhandled leaf types warn, and they write nothing |
| MarkdownBuilder.Step | lib/jir/adf/markdown_builder.rb:28-180 | every hook call only extends the output and the warnings |
| MarkdownBuilder.RunExtends | lib/jir/adf/markdown_builder.rb:33-35 | any sequence of hook calls leaves a prefix of its output and warnings unchanged |
| MarkdownBuilder.ListsBalanced | lib/jir/adf/markdown_builder.rb:95-98 | walking any subtree leaves the stack of open lists as it found it, because each push on open is popped on close |
| MarkdownBuilder.NodeKeepsLists | lib/jir/adf/markdown_builder.rb:124-125 | closing a node undoes exactly what opening it did to the stack of lists |
| MarkdownBuilder.TextFlushesPrefix | lib/jir/adf/markdown_builder.rb:163-167 | a text leaf writes the pending prefix and then its text, while an emoji writes its text and keeps the prefix pending |
| MarkdownBuilder.MarkWrapsText | lib/jir/adf/markdown_builder.rb:52-84 | a text leaf with one mark comes out between that mark's opening and closing delimiters, and a link as `[text](href)` |
| MarkdownBuilder.InlinePlainText | lib/jir/adf/markdown_builder.rb:165-167 | with no prefix pending, a text leaf appends exactly its text |
| Renderer.Translate | lib/jir/adf/renderer.rb:9-11 | rendering is the walk of the document with the Markdown builder, and it ends with no list left open |
| Renderer.EmptyContainers | lib/jir/adf/markdown_builder.rb:126-131 | an empty document renders to nothing, and an empty paragraph still ends with a blank line |
| Renderer.CloseParagraph | lib/jir/adf/markdown_builder.rb:130-131 | a paragraph ends with a blank line outside lists and with one newline inside a list |
| Renderer.TextsRun | lib/jir/adf/markdown_builder.rb:46-50 | a run of text leaves writes the pending prefix once, before the first text, and then the texts in order |
| Renderer.ParagraphRun | lib/jir/adf/renderer.rb:9-11 | a paragraph of plain text renders as the prefix, its texts, then a blank line outside lists or one newline inside |
| Renderer.PanelRun | lib/jir/adf/markdown_builder.rb:102-109 | a panel is fenced by two `---` rules, and its type's icon is placed in front of the first text inside it |
| Renderer.OpenPanel | lib/jir/adf/markdown_builder.rb:102-109 | opening a panel writes one rule and leaves the lists and the warnings alone |
| Renderer.ItemRun | lib/jir/adf/markdown_builder.rb:99-101 | a one-line list item is its marker, its text and a newline |
| Renderer.ItemsRun | lib/jir/adf/markdown_builder.rb:99-101 | the items of a list each come out on their own line, all led by the same marker |
| Renderer.ListRun | lib/jir/adf/markdown_builder.rb:95-101 | a list is indented by one tab per enclosing list plus one, and marked `1. ` when ordered or `* ` otherwise; the stack of lists is restored afterwards |
| Renderer.NestedMarker | lib/jir/adf/markdown_builder.rb:99-101 | inside a newly opened list, the marker has one more tab than there were lists before it |
| Renderer.StrongEmDoNotNest | lib/jir/adf/walker.rb:21-31 | because marks close in listed order, strong and em on one text render as ` ** _styled**_`, which is not well nested |
| AdfNode.MarkOf | lib/jir/adf/markdown_builder.rb:52-84 | reading a mark keeps its type; exactly the types the builder does not handle become `Other`; a link keeps its `href` |
| TextToAdf.NewPara | lib/jir/adf/text_to_adf.rb:38-43 | a paragraph keeps its text stripped, has no text exactly when given none, and starts childless |
| TextToAdf.NewPanel | lib/jir/adf/text_to_adf.rb:51-55 | a panel starts with one child, its title as a bold paragraph |
| TextToAdf.TextJson | lib/jir/adf/text_to_adf.rb:45-47 | a text node has type text, a `text` key only when there is text (the `compact`), and `marks` only when bold |
| TextToAdf.AsJson | lib/jir/adf/text_to_adf.rb:32-89 | every node's JSON object starts with its type name |
| TextToAdf.AsJsonKeys | lib/jir/adf/text_to_adf.rb:32-89 | the keys of each node's JSON, in order: the root adds `version`, a panel adds `attrs`, and a code block adds `attrs` only when it has a language |
| TextToAdf.ChildrenJson | lib/jir/adf/text_to_adf.rb:34 | `content` holds each child's JSON, in order |
| TextToAdf.AppendAtSpine | lib/jir/adf/text_to_adf.rb:28 | adding a child at some depth keeps the node kinds above it, and the new node becomes the next node down the rightmost path |
| TextToAdf.AppendAtGrows | lib/jir/adf/text_to_adf.rb:28 | the node at the chosen depth gains the new node as its last child, and its other children are kept |
| DocumentParser.FenceLang | lib/jir/adf/text_to_adf.rb:119-122 | a stripped line opens a fence exactly when it is three backticks and then no whitespace; the rest is the language |
| DocumentParser.PanelMatch | lib/jir/adf/text_to_adf.rb:92 | a line is a panel line exactly when it starts with `ℹ️` or `✅`; it is a success panel exactly for `✅`; the title follows the icon and any spaces |
| DocumentParser.BulletMatch | lib/jir/adf/text_to_adf.rb:93 | a line is a bullet exactly when `*` is its first character after leading whitespace; the indent is the length of that whitespace |
| DocumentParser.FirstNonSpace | lib/jir/adf/text_to_adf.rb:184 | the index of the first character that is not a space, or none when there is no such character |
| DocumentParser.PopDeeper | lib/jir/adf/text_to_adf.rb:151-153 | the lists deeper than the level are dropped, and the remaining top (if any) is no deeper |
| DocumentParser.ItemIffStack | lib/jir/adf/text_to_adf.rb:179-184 | the current container is a list item exactly when the stack of bullet lists is non-empty |
| DocumentParser.Classify | lib/jir/adf/text_to_adf.rb:106-195 | outside code, a line is read in the parser's order: fence, blank, panel, bullet, otherwise text |
| DocumentParser.CodeLine | lib/jir/adf/text_to_adf.rb:107-118 | a line inside a code block keeps the parser's invariant |
| DocumentParser.OpenFence | lib/jir/adf/text_to_adf.rb:119-126 | an opening fence keeps the parser's invariant |
| DocumentParser.PanelLine | lib/jir/adf/text_to_adf.rb:131-144 | a panel line keeps the parser's invariant |
| DocumentParser.BulletLine | lib/jir/adf/text_to_adf.rb:145-167 | a bullet line keeps the parser's invariant |
| DocumentParser.NewList | lib/jir/adf/text_to_adf.rb:157-167 | opening a new list keeps the parser's invariant: lists on the stack lie on the rightmost path, below the panel, with strictly increasing depth and level |
| DocumentParser.SameList | lib/jir/adf/text_to_adf.rb:163-167 | adding an item to an open list keeps the parser's invariant |
| DocumentParser.AddToContainer | lib/jir/adf/text_to_adf.rb:183-187 | adding a paragraph to the current container keeps the parser's invariant |
| DocumentParser.AddToPanel | lib/jir/adf/text_to_adf.rb:188-195 | adding to the panel or the root, and leaving every list, keeps the parser's invariant |
| DocumentParser.ParagraphLine | lib/jir/adf/text_to_adf.rb:168-195 | a text line keeps the parser's invariant |
| DocumentParser.Step | lib/jir/adf/text_to_adf.rb:105-197 | every line keeps the parser's invariant |
| DocumentParser.Parse | lib/jir/adf/text_to_adf.rb:96-199 | the final parser state satisfies the invariant, so the document is well formed |
| DocumentParser.ToAdf | lib/jir/adf/text_to_adf.rb:22-24 | the converted text is a JSON object of type `doc` |
| ParserProperties.BlankLineIgnored | lib/jir/adf/text_to_adf.rb:128-129 | outside a code block, a blank line changes nothing: it neither ends a list nor adds a node |
| ParserProperties.BlankLinesIgnored | lib/jir/adf/text_to_adf.rb:128-129 | any run of blank lines outside a code block changes nothing |
| ParserProperties.WhitespaceOnly | lib/jir/adf/text_to_adf.rb:22-35 | a text of only whitespace converts to the empty document `{type: doc, version: 1, content: []}` |
| ParserProperties.TextLineEndsList | lib/jir/adf/text_to_adf.rb:188-195 | a text line that does not continue an item becomes a new stripped paragraph of the panel (or root) and ends every list |
| ParserProperties.TextLineContinuesItem | lib/jir/adf/text_to_adf.rb:179-187 | a line indented past the bullet, or starting at the bullet's column, becomes another paragraph of the same item, and the lists stay open |
| ParserProperties.PanelLineAppends | lib/jir/adf/text_to_adf.rb:131-144 | a panel line appends a panel to the root (success for `✅`, info otherwise) with a bold title; it becomes the container and every list ends |
| ParserProperties.HasPanelKept | lib/jir/adf/text_to_adf.rb:142 | once a panel has been opened there is always a current panel |
| ParserProperties.RootGrowsOnlyByPanels | lib/jir/adf/text_to_adf.rb:105-197 | once a panel exists, no line touches the root's earlier children, and everything the root gains is a panel |
| ParserProperties.PanelsOnlyAfterPanel | lib/jir/adf/text_to_adf.rb:105-197 | over any sequence of lines after the first panel, the root's earlier children are kept and every later one is a panel |
| ParserProperties.BulletNests | lib/jir/adf/text_to_adf.rb:148-167 | a bullet's level is its indent divided by two; lists that deep or deeper are left; a new list opens exactly when no open list has that level; the new item becomes the container |
| ParserProperties.BulletLineNests | lib/jir/adf/text_to_adf.rb:145-167 | a bullet line adds an item holding its stripped content, placed as `BulletNests` states |
| ParserProperties.FenceOpens | lib/jir/adf/text_to_adf.rb:119-126 | an opening fence starts an empty code buffer, ends the lists and records the language, or none when it is empty |
| ParserProperties.CodeLinesBuffered | lib/jir/adf/text_to_adf.rb:107-118 | inside a code block every line but the closing fence is buffered verbatim and never read as markup; an unclosed block adds nothing to the document |
| ParserProperties.FenceCloses | lib/jir/adf/text_to_adf.rb:108-114 | the closing fence adds one code block to the panel (or root), holding the buffered lines joined with one trailing newline chomped |
| ParserProperties.ParagraphJson | lib/jir/adf/text_to_adf.rb:45-47 | a plain paragraph's JSON is one text node holding the stripped text |
| ParserProperties.CodeBlockJson | lib/jir/adf/text_to_adf.rb:81-88 | a code block's JSON holds its text, and has `attrs` exactly when a language was given |
| Jql.LexShape | lib/jir/jql.rb:12 | a placeholder token is read exactly where `%` is followed by a `[1-9]` digit; it takes the longest digit run and then one optional `s` or `r` |
| Jql.TokenizeRoundTrip | lib/jir/jql.rb:12 | splitting a query into literal characters and regex matches loses nothing: joining the pieces gives back the query |
| Jql.ShiftToken | lib/jir/jql.rb:33-37 | shifting changes a placeholder's number by exactly the shift and keeps its suffix; literal text is untouched |
| Jql.ShiftQueryArgs | lib/jir/jql.rb:33-37 | `shift_query_args`; a shift by zero gives the query back unchanged |
| Jql.ShiftTokens | lib/jir/jql.rb:33-37 | every token is shifted on its own, and the token count is kept |
| Jql.ShiftByZero | lib/jir/jql.rb:33-37 | shifting a query by zero gives it back unchanged |
| Jql.MaxArg | lib/jir/jql.rb:39-41 | `n_args_in_query`: no placeholder of the query has a larger number |
| Jql.MaxArgIsMax | lib/jir/jql.rb:39-41 | `n_args_in_query` is the largest placeholder number, or 0 exactly when there is none |
| Jql.ShiftRaisesMax | lib/jir/jql.rb:33-41 | after a shift by k, a query's largest placeholder is its old largest plus k, and 0 stays 0 |
| Jql.ShiftedRange | lib/jir/jql.rb:19-37 | after a shift by k, every placeholder lies between k + 1 and k plus the query's own count, so the joined queries' placeholders do not collide |
| Jql.Compact | lib/jir/jql.rb:22 | a string is in the result exactly when some entry holds it, and nothing is added |
| Jql.CompactAppend | lib/jir/jql.rb:22 | `compact` distributes over concatenation, drops `nil` and keeps a string, so it yields the non-nil queries in their order, repeats included |
| Jql.ShiftAmounts | lib/jir/jql.rb:23-26 | each query's shift is the sum of the placeholder counts of all the queries before it |
| Jql.JoinQueries | lib/jir/jql.rb:21-31 | `join_queries_and_shift_args` as a definition: no non-nil query gives "", one query is only parenthesised, and with two or more the first, unshifted and parenthesised, is followed by ` AND ` |
| Jql.JoinQueriesAndShiftArgs | lib/jir/jql.rb:21-31 | the loop computes the join definition: every non-nil query, shifted by its offset and parenthesised, joined with ` AND ` |
| Jql.JoinSmall | lib/jir/jql.rb:21-31 | no queries join to the empty string, and a single query (nils ignored) is only parenthesised |
| Jql.JoinTwo | lib/jir/jql.rb:21-31 | for two queries, the second is shifted past every placeholder of the first |
| Jql.Quote | lib/jir/jql.rb:52 | a JSON-quoted argument is delimited by double quotes |
| Jql.QuoteRoundTrip | lib/jir/jql.rb:52 | a JSON-quoted argument reads back to exactly the argument |
| Jql.Restore | lib/jir/jql.rb:54 | every sentinel character becomes `%` and every other character is kept |
| Jql.SentinelizeRoundTrip | lib/jir/jql.rb:58-60 | on a query without the sentinel character, replacing `%%` loses nothing: the escapes can be written back |
| Jql.SentinelizeNoPair | lib/jir/jql.rb:58-60 | after `%%` is replaced, no two adjacent `%` are left |
| Jql.FirstDigitMax | lib/jir/jql.rb:62-64 | `n_args` is a single digit |
| Jql.ArgText | lib/jir/jql.rb:48-53 | a present argument is substituted raw for `%Nr` and as JSON that reads back to it otherwise |
| Jql.Render | lib/jir/jql.rb:43-55 | rendering fails, with the required and given counts, exactly when the argument count differs from `n_args` |
| Jql.RenderOne | lib/jir/jql.rb:43-55 | a query with one placeholder `%d`, `%ds` or `%dr` between texts without `%` needs exactly `d` arguments; it then renders to the text before, the `d`-th argument (raw for `r`, JSON-quoted otherwise), and the text after, with only the final `\uFFFF`-to-`%` replacement applied to the argument; with another count it is the `WrongNumberOfArgs` error for `d` |
| Jql.RenderOneClean | lib/jir/jql.rb:43-55 | the same, for an argument without the sentinel character: the argument is inserted unchanged, or quoted |
| Jql.RenderPlain | lib/jir/jql.rb:43-55 | a query without `%` needs no arguments and renders to itself |
| Jql.EscapedArg | lib/jir/jql.rb:54-59 | `%%1` renders as the literal text `%1` and needs no argument |
| Jql.EscapeBeforeArg | lib/jir/jql.rb:48-59 | in `%%%1` the escaped `%` stays a `%` in front of the quoted argument |
| Jql.NArgsAtMostMax | lib/jir/jql.rb:39-64 | `n_args` reads only the first digit of each placeholder, so it never exceeds `n_args_in_query` |
| Jql.NArgsSingleDigits | lib/jir/jql.rb:39-64 | when every placeholder number has one digit, the two counts agree |
| Jql.TwoCounters | lib/jir/jql.rb:39-64 | the two counts disagree on `%12`: `n_args` asks for 1 argument and `n_args_in_query` counts 12 |
| Jql.TenReadsAsOne | lib/jir/jql.rb:8-12 | `%10` is placeholder 1 followed by a literal `0`, since the digit class has no `0` |
| Jql.ShiftPastNine | lib/jir/jql.rb:33-41 | shifting `%5` by 5 writes `%10`, which then reads back as placeholder 1 |
| SearchBuilder.MakeHash | lib/jir/search_builder.rb:64-71 | nil stays nil, a Hash is used as it is, and any other value becomes a one-entry Hash under the default key |
| SearchBuilder.NamedSearch | lib/jir/search_builder.rb:54-56 | a search name is known exactly when it is configured non-nil, and a bare value becomes its `jql` |
| SearchBuilder.Decode | lib/jir/search_builder.rb:36-47 | a query decodes to no searches exactly when it has no comma-separated parts |
| SearchBuilder.DecodeAllKnown | lib/jir/search_builder.rb:40-41 | when every part names a search, the query is those searches in order |
| SearchBuilder.DecodeTrailingJql | lib/jir/search_builder.rb:42-43 | known names followed by one unknown last part: the searches, then that part as JQL |
| SearchBuilder.DecodeWholeQuery | lib/jir/search_builder.rb:44-45 | an unknown part that is not the last, or a single unknown part, makes the whole query one JQL |
| SearchBuilder.JqlOf | lib/jir/search_builder.rb:50 | a search's `jql` is absent or nil, a string, or else an error that carries the offending value |
| SearchBuilder.JqlsOf | lib/jir/search_builder.rb:50 | the JQLs of all searches, in order, succeed exactly when every search's JQL is nil or a string |
| SearchBuilder.JqlsOfFirstError | lib/jir/search_builder.rb:50 | the error reported is the first search's whose JQL is not a string |
| SearchBuilder.MergeAllLaterWins | lib/jir/search_builder.rb:51 | the merged searches read every key from the last search that has it, and have exactly the keys of all of them |
| SearchBuilder.MergeSearches | lib/jir/search_builder.rb:49-52 | merging fails on no searches and on a non-string JQL; otherwise `jql` is the AND-join of the searches' JQLs |
| SearchBuilder.MergeSearchesLaterWins | lib/jir/search_builder.rb:49-52 | every key but `jql` comes from the last search that sets it, and no keys are invented |
| SearchBuilder.ChosenOutput | lib/jir/search_builder.rb:21-22 | an empty output name counts as none, and then the search's own `output` is used |
| SearchBuilder.NamedOutput | lib/jir/search_builder.rb:58-62 | an output name not configured to a truthy value is an error; a Hash is used as it is and a bare value becomes its `jq` |
| SearchBuilder.UnknownKeys | lib/jir/search_builder.rb:26 | a key is reported exactly when it is in the search and is not a member of `Search` |
| SearchBuilder.UnknownKeysAppend | lib/jir/search_builder.rb:26 | the unknown keys of `a + b` are those of `a` followed by those of `b`, and a single key is kept exactly when it is not a member: the unknown keys in order, repeats included |
| SearchBuilder.WithOutput | lib/jir/search_builder.rb:19-23 | applying the output keeps `jql` and fails only on a missing output |
| SearchBuilder.ToSearch | lib/jir/search_builder.rb:6-26 | `Search.new` accepts the search exactly when all its keys are members, and otherwise reports exactly the foreign keys |
| SearchBuilder.Build | lib/jir/search_builder.rb:16-27 | a built search has only `Search` members as keys and always has `jql` |
| SearchBuilder.NoPartsFails | lib/jir/search_builder.rb:37-51 | a query with no parts (empty, or only commas) fails in the merge |
| SearchBuilder.DefaultOutputAsIfNamed | lib/jir/search_builder.rb:19-22 | an empty output name is no output name, and a search's own `output` acts as if it had been named |
| SearchBuilder.MissingOutputFails | lib/jir/search_builder.rb:58-60 | an explicit output name that is not configured is an error |
| SearchBuilder.OutputWins | lib/jir/search_builder.rb:19-23 | the output's entries override the search's; every other key but `output` is kept |
| SearchBuilder.NoOutput | lib/jir/search_builder.rb:19-23 | with no output name and no default, only `output` is dropped |
| SearchBuilder.OneJqlSearch | lib/jir/search_builder.rb:16-27 | a single search holding only JQL `q` builds to `(q)` |
| SearchBuilder.PlainJql | lib/jir/search_builder.rb:36-47 | a query without commas that names no search is plain JQL, parenthesised |
| SearchBuilder.NamedJql | lib/jir/search_builder.rb:54-56 | a search name bound to a JQL string builds to that JQL, parenthesised |
| TicketKeyResolver.FirstGitLine | lib/jir/ticket_key_resolver.rb:28 | the first line on which the `git` pattern matches, or none if no line matches |
| TicketKeyResolver.GitRef | lib/jir/ticket_key_resolver.rb:29-30 | one leading `/`, `:` or `.` is removed from the ref, and an empty ref means `HEAD` |
| TicketKeyResolver.KeyEndComplete | lib/jir/ticket_key_resolver.rb:41 | a commit-message match at a position has exactly one end: up to 8 digits, greedy, then a non-word character or the end |
| TicketKeyResolver.Scan | lib/jir/ticket_key_resolver.rb:41-42 | every key scanned from a commit message is the project, a dash and 1 to 8 digits |
| TicketKeyResolver.ScanFirst | lib/jir/ticket_key_resolver.rb:42 | the scan reports the leftmost match first and resumes after the character that ended it |
| TicketKeyResolver.ScanEmpty | lib/jir/ticket_key_resolver.rb:42-43 | the scan finds nothing exactly when no key of the project occurs in the message |
| TicketKeyResolver.FromGitRef | lib/jir/ticket_key_resolver.rb:39-48 | a failing `git log` is an error; otherwise the keys are found exactly when the message contains one, and all belong to the default project |
| TicketKeyResolver.Classify | lib/jir/ticket_key_resolver.rb:19-36 | the empty key is an error; a key with a digit line is a ticket number; the format is unknown exactly when no number, alias, git or ticket pattern applies |
| TicketKeyResolver.Flatten | lib/jir/ticket_key_resolver.rb:16 | flattening succeeds exactly when every part does, and otherwise reports the first failing part |
| TicketKeyResolver.KeysOfParts | lib/jir/ticket_key_resolver.rb:16 | a comma-separated key succeeds exactly when every part does |
| TicketKeyResolver.FlattenAppend | lib/jir/ticket_key_resolver.rb:16 | flattening `a + b` gives the keys of `a` followed by those of `b`, with an error in `a` before one in `b`, and a single part flattens to its own result: the keys of the parts concatenated in order |
| TicketKeyResolver.KeysOfPartsAppend | lib/jir/ticket_key_resolver.rb:16 | the parts of `a + b` resolve to the keys of `a` followed by those of `b`, the first failing part's error winning, and a single part resolves as `ticket_keys` does on it |
| TicketKeyResolver.CommaJoin | lib/jir/ticket_key_resolver.rb:15-17 | a key made of two or more comma-free parts, the last not empty, resolves as those parts resolve one by one, in order |
| TicketKeyResolver.TicketKeys | lib/jir/ticket_key_resolver.rb:14-37 | a key without a comma is classified directly |
| TicketKeyResolver.Uniq | lib/jir/ticket_key_resolver.rb:6 | `uniq` keeps exactly the elements of the list, without repeats, and the first one first |
| TicketKeyResolver.UniqSingle | lib/jir/ticket_key_resolver.rb:6-7 | there is one distinct ticket exactly when the list is non-empty and all its elements are equal |
| TicketKeyResolver.TicketKey | lib/jir/ticket_key_resolver.rb:5-12 | the key resolves when all tickets found are one ticket; otherwise it is an error listing the distinct tickets |
| TicketKeyResolver.DigitsBeforeAliases | lib/jir/ticket_key_resolver.rb:24-25 | an all-digit key is a ticket of the default project, even when an alias of that name exists |
| TicketKeyResolver.DigitLineAnywhere | lib/jir/ticket_key_resolver.rb:24 | the anchors match at line boundaries, so a key with any all-digit line counts as a number |
| TicketKeyResolver.AliasResolves | lib/jir/ticket_key_resolver.rb:26-27 | a one-line key that is not a number and is a configured alias resolves to the alias's ticket |
| TicketKeyResolver.GitLine | lib/jir/ticket_key_resolver.rb:28-31 | a `git` key that is not an alias reads the tickets from its ref's commit message |
| TicketKeyResolver.GitAlone | lib/jir/ticket_key_resolver.rb:28-31 | `git` alone reads the tickets from the `HEAD` commit |
| TicketKeyResolver.GitWithRef | lib/jir/ticket_key_resolver.rb:28-31 | `git/ref`, `git:ref` and `git.ref` read the tickets from `ref` |
| TicketKeyResolver.GitAtKeepsAt | lib/jir/ticket_key_resolver.rb:29 | `git@ref` keeps the `@`, since only `/`, `:` and `.` are stripped |
| TicketKeyResolver.CommaParts | lib/jir/ticket_key_resolver.rb:15-17 | a key with a comma resolves part by part in order, and the first failing part's error is reported |
| TicketKeyResolver.LoneComma | lib/jir/ticket_key_resolver.rb:15-17 | a lone comma has no parts: no keys and no error, so `ticket_key` fails because it found none |
| TicketKeyResolver.CommitWithoutTicket | lib/jir/ticket_key_resolver.rb:43-46 | a commit whose message holds no key of the project is an error |
| TicketKeyResolver.KeyOfDigits | lib/jir/ticket_key_resolver.rb:24-41 | the project, a dash and one to eight digits form a key of the project |
| TicketKeyResolver.PatternOrUnknown | lib/jir/ticket_key_resolver.rb:32-35 | a one-line key that is no number, alias or `git` form is kept if it contains `[A-Z]+-[0-9]+` somewhere, and is an unknown format otherwise |
| TicketKeyResolver.ExampleNumbers | lib/jir/ticket_key_resolver.rb:15-25 | `123,456` resolves to two tickets of the default project |
| TicketKeyResolver.ExampleAliases | lib/jir/ticket_key_resolver.rb:26-27 | configured aliases resolve to their tickets |
| TicketKeyResolver.ExampleUnknown | lib/jir/ticket_key_resolver.rb:32-35 | `invalid-format` is an unknown ticket key format |
| FieldTypes.ResolveAlias | lib/jir/field_types.rb:28-31 | without an aliases type the value is kept; otherwise the configured alias is used when it is truthy, and the value itself when it is not |
| FieldTypes.ResolveAll | lib/jir/field_types.rb:37 | every value is resolved on its own, in order, and count and order are kept |
| FieldTypes.AccountOf | lib/jir/field_types.rb:24 | a string name becomes `{accountId: user(name)}`, and is an error exactly when the user lookup fails; any other name is an error |
| FieldTypes.Accounts | lib/jir/field_types.rb:24 | the user list converts every name in order, and fails exactly when one lookup does |
| FieldTypes.FieldValuesArray | lib/jir/field_types.rb:33-40 | nil exactly for types without a list converter; `['']` means the empty list; `string_list` keeps the resolved values and `user_list` makes accounts |
| FieldTypes.FieldValuesJson | lib/jir/field_types.rb:42-55 | a failing list conversion is the error; success needs a list converter, or one value and a single-value converter; other than one value, a list type gives the list and any other type the "no type converter" error with the value count |
| FieldTypes.ConvertSingle | lib/jir/field_types.rb:9-19 | the single-value converters: raw verbatim, string as JSON, objects keyed by name or key, and a ticket by resolving its key |
| FieldTypes.SingleStep | lib/jir/field_types.rb:45-49 | a list result takes precedence over a single-value converter, and a failing alias lookup is reported |
| FieldTypes.ListConverterFirst | lib/jir/field_types.rb:42-49 | a list converter is used whatever the number of values |
| FieldTypes.SingleConverterForOne | lib/jir/field_types.rb:45-49 | otherwise a single-value converter applies to exactly one resolved value |
| FieldTypes.NoConverterIff | lib/jir/field_types.rb:51-53 | "no type converter" is raised exactly when the type has no list converter and there is not exactly one value with a single-value converter |
| FieldTypes.StringListKeepsValues | lib/jir/field_types.rb:25-38 | without an aliases type, `string_list` passes the strings through in order |
| FieldTypes.UserListAccounts | lib/jir/field_types.rb:24-38 | `user_list` keeps the number and order of the names, each becoming that user's account id |
| FieldTypes.ExampleResolveUser | lib/jir/field_types.rb:28-31 | a configured user alias resolves to the user |
| FieldTypes.ExampleUnknownType | lib/jir/field_types.rb:51-53 | an unknown type has no converter |
| Config.MergeEntry | lib/jir/config.rb:116-128 | an unset or nil key takes the new value; a Hash merges with a Hash and an Array extends with an Array, while any other incoming kind is an error; scalars are replaced; no other key changes; a new key goes last |
| Config.MergeIntoFrame | lib/jir/config.rb:116 | keys a file does not set keep their merged values |
| Config.InnerMergeConfigs | lib/jir/config.rb:114-131 | `inner_merge_configs`; all-nil input merges to the empty Hash |
| Config.InnerMergeKeys | lib/jir/config.rb:114-131 | the merged keys are exactly those that some file sets |
| Config.MergeIntoKeys | lib/jir/config.rb:114-131 | the merged keys are the earlier ones plus the file's, and no key is lost |
| Config.NilConfigsSkipped | lib/jir/config.rb:116 | a nil file contributes nothing, wherever it appears |
| Config.MergeIntoEmpty | lib/jir/config.rb:114-131 | a file with distinct new keys merges to the concatenation of the entries |
| Config.SingleConfig | lib/jir/config.rb:114-131 | a single file with distinct keys merges to itself |
| Config.LaterFileWins | lib/jir/config.rb:118-127 | of two files, the later one's scalar wins, and a key only the later file sets is taken from it |
| Config.AliasSections | lib/jir/config.rb:107 | each file contributes its own `aliases` section, in order |
| Config.WithoutAliases | lib/jir/config.rb:108 | each file without its `aliases` section, in order |
| Config.MergeConfigs | lib/jir/config.rb:106-112 | the merged `aliases` value is exactly the Hash that merging the files' `aliases` sections by the same rules gives; a failure merging the rest is the one reported, and otherwise a failing `aliases` section or `aliases` merge is |
| Config.MergeConfigsOutsideAliases | lib/jir/config.rb:106-111 | outside `aliases`, the merged configuration is the merge of the files with their `aliases` sections removed |
| Config.FirstUnknownKey | lib/jir/config.rb:8-46 | a key that is not a member of `Field` and comes after member keys only (the first unknown one), or none when all keys are members |
| Config.FieldNamed | lib/jir/config.rb:45-47 | an unconfigured field name gives a field whose key is the name |
| Config.User | lib/jir/config.rb:58-61 | a nil name means `default`, and an unknown user is an error |
| Config.DefaultProject | lib/jir/config.rb:20-22 | the default project is found exactly when it is configured to a truthy value |
| Values.Merge | lib/jir/search_builder.rb:51 | `merge` reads every key from the right-hand Hash when it has it and from the left otherwise, and has the keys of both |
| RubyText.Strip | lib/jir/adf/text_to_adf.rb:41 | `strip` gives an empty string exactly on all-whitespace input, and otherwise starts and ends with non-whitespace |
| RubyText.StripIdempotent | lib/jir/adf/text_to_adf.rb:41 | stripping twice is stripping once |
| RubyText.LinesConcat | lib/jir/adf/text_to_adf.rb:105 | joining `text.lines` gives back the text |
| RubyText.LinesShape | lib/jir/adf/text_to_adf.rb:105 | every line is non-empty and holds a newline only as its last character, and every line but the last ends with one |
| RubyText.SplitJoin | lib/jir/search_builder.rb:37 | joining the parts of a split gives back the input without its trailing separators |
| RubyText.NatToStringRoundTrip | lib/jir/jql.rb:35 | an integer printed in decimal reads back as the same integer |
| RubyText.DecimalRoundTrip | lib/jir/jql.rb:35 | a digit string without a leading zero is printed back unchanged |

## Left out

- Walker: the marks of a node are closed in the same order they were
  opened (lib/jir/adf/walker.rb:31). The walker's own tests expect the
  reverse order. The model follows the code, and
  `Walker.MarksCloseInListedOrder` and `Renderer.StrongEmDoNotNest` state
  the resulting output.
- Jql: the comment at lib/jir/jql.rb:8 promises `%10`, `%11`, … as
  placeholders. The regex at line 12 has no `0` in its digit class. The
  model follows the regex (`Jql.TenReadsAsOne`, `Jql.ShiftPastNine`).
- `Walker.initialize`: parsing a JSON string is not modelled. The walk
  starts from an already parsed `AdfNode.Node`.
- `node['content']`: it is modelled as "absent or a list of children".
  A non-list value is not modelled.
- `dig('attrs', …)`: a value found there that is not a string reads as
  absent. Ruby would concatenate or interpolate it. An intermediate
  value on the path that is neither a Hash nor `nil` (a string, say)
  also reads as absent, where Ruby's `dig` raises a `TypeError`.
- `$stderr.puts` warnings are recorded in the builder as a list of
  warnings. The I/O is not modelled.
- Renderer: `puts_extra`, `puts_tickets_to_markdown` and the other
  output helpers of lib/jir/adf/renderer.rb are I/O around
  `render_adf_to_markdown` and are not modelled.
- `DocumentParser.ParagraphLine`: the blank-line branch at
  lib/jir/adf/text_to_adf.rb:170-177 is kept, but it is unreachable,
  because line 129 already skips blank lines;
  `ParserProperties.BlankLineIgnored` shows that `Step` never reaches it.
- DocumentParser: a new list is built holding its first item, then
  appended in one step. The code appends the empty list first and then
  its item. The resulting tree is the same.
- `TextToAdf.NewPara`: a paragraph without text (`Para.new(nil)`) is
  modelled but never produced by the parser.
- `Jql.Quote`: `to_json` is modelled for the characters it escapes. It
  writes other control characters as `\u00XX` with lower-case hex. This
  is not checked against a JSON library.
- `Jql.new` wrapping in `SearchBuilder.build`: the built search holds
  the JQL string. Wrapping it in a `Jql` object is not modelled.
- SearchBuilder and Config sections: `searches`, `outputs`, `aliases`,
  `users` and `ticket_aliases` are passed as parameters. A missing
  `searches` or `outputs` section (a `NoMethodError` on `nil`) is not
  modelled. An output name that is not a string is never found.
- Config.MergeConfigs: an `aliases` section that is neither a Hash nor
  `nil` is a `NotAHash` error. Ruby would call `each` on it: an Array
  would be iterated as key-value pairs, and any other value raises a
  `NoMethodError`.
- `Config.MergeEntry`: the type check at lib/jir/config.rb:120 compares a
  value's class with itself, so it never fires, and the model leaves it
  out. A non-Hash merged into a Hash, or a non-Array into an Array, is
  the error that `merge!` or `concat` would raise.
- Config: file loading (`Dir`, `YAML.load_file`) and the accessors that
  only read a key (`base_url`, `auth_*`, `sprints`, `state_names`,
  `render_extra_jq`, …) are not modelled.
- `TicketKeyResolver.FromGitRef`: `git log` is a parameter, a map from
  ref to commit message. A ref missing from the map is a failing command.
- `TicketKeyResolver.TicketKeys`: `Config.default_project` is assumed to
  be set. A missing default project, which makes number and `git` keys
  raise, is not modelled.
- FieldTypes.AccountOf: configuration keys are strings here, so a user
  name that is not a string is never found. It is reported as
  `NotAString`. Ruby passes it to `Config.user`, which raises "Unknown
  user", or a `TypeError` when `users` is not a Hash. A `users` map with
  non-string keys, where such a name could be found, is not modelled.
- Config.FieldNamed: Ruby's `Field.new(**h)` raises one `ArgumentError`
  that names every unknown keyword. The model reports the first one
  only. A `fields` section that is a String goes through Ruby's
  `String#[]`: a name that is not a substring gives `nil` and so a field
  whose key is the name, and one that is a substring raises. The model
  returns `NotAHash` for any `fields` section that is not a Hash.
- `TicketKeyResolver.Classify`: `Config.ticket_aliases` is a map from
  string to string. Alias targets that are not strings are not modelled.
- `FieldTypes.ConvertSingle`: the JSON text that `to_json` produces is
  not modelled. The result is the value to be serialised.

=== FILE: adf_node.dfy ===
/** The ADF document tree as the encoder receives it (already parsed
    from JSON). A node is a leaf exactly when its `content` key is
    absent; `content: []` is a container with no children. */
module AdfNode {
  import opened Wrappers
  import opened Values

  /** An inline mark; `Other` stands for any `type` the encoder does not know. */
  datatype Mark = Link(href: Option<string>) | Em | Underline | Strong | Strike | Code | Other(markType: string)

  /** `node['content']`: absent, or a (possibly empty) list of children. */
  datatype Content = Absent | Children(nodes: seq<Node>)

  datatype Node = Node(
    nodeType: string,           // node['type'] (a missing type reads as "")
    attrs: Value,               // node['attrs'], Null when absent
    content: Content,           // node['content']
    marks: seq<Mark>,           // node['marks'], [] when absent
    text: Option<string>)       // node['text']

  const KnownMarkTypes: set<string> := {"link", "em", "underline", "strong", "strike", "code"}

  /** `mark['type']`. */
  function MarkType(m: Mark): string {
    match m
    case Link(_) => "link"
    case Em => "em"
    case Underline => "underline"
    case Strong => "strong"
    case Strike => "strike"
    case Code => "code"
    case Other(t) => t
  }

  /** Reads a JSON mark (its `type` and `attrs.href`) into a `Mark`. */
  function MarkOf(t: string, href: Option<string>): (m: Mark)
    ensures MarkType(m) == t
    ensures m.Other? <==> t !in KnownMarkTypes
    ensures m.Link? ==> m.href == href
  {
    if t == "link" then Link(href)
    else if t == "em" then Em
    else if t == "underline" then Underline
    else if t == "strong" then Strong
    else if t == "strike" then Strike
    else if t == "code" then Code
    else Other(t)
  }

  /** `node.dig('attrs', ...)` when the value found there is a string. */
  function Attr(n: Node, path: seq<string>): Option<string> {
    DigStr(n.attrs, path)
  }

  /** A leaf node of the given type with no attributes and no marks. */
  function Leaf(t: string, text: Option<string>): (n: Node)
    ensures n.content.Absent? && n.nodeType == t && n.marks == []
  {
    Node(t, Null, Absent, [], text)
  }
}

=== FILE: config.dfy ===
/** `Jir::Config` of lib/jir/config.rb: the layered merge of the loaded
    YAML files and the `field`, `user` and `default_project` lookups.
    Loading the files is not modelled: the parsed files (and the merged
    configuration for the lookups) are parameters. */
module Config {
  import opened Wrappers
  import opened Values
  import opened SeqFacts

  datatype ConfigError =
    | NotMergeable(key: string, existing: Value, incoming: Value)  // `merge!`/`concat` of a non-Hash/non-Array
    | NotAHash(section: Value)                                      // `each`/`except`/`[]` on a non-Hash
    | UnknownFieldKey(field: string, key: string)                  // `Field.new` with an unknown keyword
    | UnknownUser(name: string)
    | NoDefaultProject
    | NotDiggable(found: Value)

  /** Every key occurs once, as in a Hash loaded from YAML. */
  predicate UniqueKeys(m: Entries) {
    forall i, j :: 0 <= i < j < |m| ==> m[i].0 != m[j].0
  }

  /** One `key, val` step of `inner_merge_configs`: an unset or `nil`
      key takes the incoming value, a Hash is merged shallowly with the
      incoming entries winning, an Array is extended, anything else is
      replaced. The incompatible-types guard compares a value with
      itself and is left out. */
  function MergeEntry(result: Entries, key: string, val: Value): (r: Result<Entries, ConfigError>)
    ensures r.Ok? ==> forall k :: k != key ==> Get(r.value, k) == Get(result, k)
    ensures r.Ok? ==> Keys(r.value) == if key in Keys(result) then Keys(result) else Keys(result) + [key]
    ensures Get(result, key).GetOr(Null).Null? ==> r == Ok(Put(result, key, val))
    ensures Get(result, key).GetOr(Null).Dict? ==>
      if val.Dict? then r == Ok(Put(result, key, Dict(Merge(Get(result, key).value.entries, val.entries))))
      else r == Err(NotMergeable(key, Get(result, key).value, val))
    ensures Get(result, key).GetOr(Null).List? ==>
      if val.List? then r == Ok(Put(result, key, List(Get(result, key).value.items + val.items)))
      else r == Err(NotMergeable(key, Get(result, key).value, val))
    ensures !(Get(result, key).GetOr(Null).Null? || Get(result, key).GetOr(Null).Dict? || Get(result, key).GetOr(Null).List?) ==>
      r == Ok(Put(result, key, val))
  {
    var existing := Get(result, key).GetOr(Null);
    match existing
    case Null => Ok(Put(result, key, val))
    case Dict(es) =>
      if val.Dict? then Ok(Put(result, key, Dict(Merge(es, val.entries))))
      else Err(NotMergeable(key, existing, val))
    case List(xs) =>
      if val.List? then Ok(Put(result, key, List(xs + val.items)))
      else Err(NotMergeable(key, existing, val))
    case _ => Ok(Put(result, key, val))
  }

  /** `subconfig.each { |key, val| ... }` into `result`. */
  function MergeInto(result: Entries, sub: Entries): Result<Entries, ConfigError>
    decreases |sub|
  {
    if |sub| == 0 then Ok(result)
    else
      var next :- MergeEntry(result, sub[0].0, sub[0].1);
      MergeInto(next, sub[1..])
  }

  /** `inner_merge_configs` from an accumulated `result`; `nil` sub-configs
      are skipped. */
  function InnerMergeFrom(result: Entries, configs: seq<Option<Entries>>): (r: Result<Entries, ConfigError>)
    ensures (forall i :: 0 <= i < |configs| ==> configs[i].None?) ==> r == Ok(result)
    decreases |configs|
  {
    if |configs| == 0 then Ok(result)
    else
      assert forall i :: 1 <= i < |configs| ==> configs[1..][i - 1] == configs[i];
      match configs[0]
      case None => InnerMergeFrom(result, configs[1..])
      case Some(sub) =>
        var next :- MergeInto(result, sub);
        InnerMergeFrom(next, configs[1..])
  }

  /** The keys after merging the files into `result`: those of `result`
      and those some file sets. */
  lemma {:induction false} InnerMergeFromKeys(result: Entries, configs: seq<Option<Entries>>)
    requires InnerMergeFrom(result, configs).Ok?
    ensures forall k :: k in Keys(InnerMergeFrom(result, configs).value) <==>
      k in Keys(result) || exists i :: 0 <= i < |configs| && configs[i].Some? && k in Keys(configs[i].value)
    decreases |configs|
  {
    if |configs| > 0 {
      assert forall i :: 1 <= i < |configs| ==> configs[1..][i - 1] == configs[i];
      match configs[0]
      case None => InnerMergeFromKeys(result, configs[1..]);
      case Some(sub) =>
        MergeIntoKeys(result, sub);
        InnerMergeFromKeys(MergeInto(result, sub).value, configs[1..]);
    }
  }

  /** `inner_merge_configs`: the files merged in order into an empty Hash;
      all-`nil` input merges to the empty Hash. */
  function InnerMergeConfigs(configs: seq<Option<Entries>>): (r: Result<Entries, ConfigError>)
    ensures (forall i :: 0 <= i < |configs| ==> configs[i].None?) ==> r == Ok([])
  {
    InnerMergeFrom([], configs)
  }

  /** The merged keys are exactly those some file sets. */
  lemma InnerMergeKeys(configs: seq<Option<Entries>>)
    requires InnerMergeConfigs(configs).Ok?
    ensures forall k :: k in Keys(InnerMergeConfigs(configs).value) <==>
      exists i :: 0 <= i < |configs| && configs[i].Some? && k in Keys(configs[i].value)
  {
    InnerMergeFromKeys([], configs);
  }

  /** A file's `aliases` section as `inner_merge_configs` receives it:
      missing or `nil` is skipped, a Hash is merged, anything else has no
      `each`. */
  function AliasesOf(c: Entries): Result<Option<Entries>, ConfigError> {
    match Get(c, "aliases").GetOr(Null)
    case Null => Ok(None)
    case Dict(es) => Ok(Some(es))
    case other => Err(NotAHash(other))
  }

  function AliasSections(configs: seq<Entries>): (r: Result<seq<Option<Entries>>, ConfigError>)
    ensures r.Ok? ==> |r.value| == |configs|
    ensures r.Ok? ==> forall i :: 0 <= i < |configs| ==> AliasesOf(configs[i]) == Ok(r.value[i])
    decreases |configs|
  {
    if |configs| == 0 then Ok([])
    else
      var first :- AliasesOf(configs[0]);
      var rest :- AliasSections(configs[1..]);
      Ok([first] + rest)
  }

  function WithoutAliases(configs: seq<Entries>): (r: seq<Option<Entries>>)
    ensures |r| == |configs|
    ensures forall i :: 0 <= i < |configs| ==> r[i] == Some(Delete(configs[i], "aliases"))
  {
    seq(|configs|, i requires 0 <= i < |configs| => Some(Delete(configs[i], "aliases")))
  }

  /** The `inner_merge_configs(aliases)` half of `merge_configs`: each
      file's `aliases` section, merged by the same rules as the files. */
  function MergedAliases(configs: seq<Entries>): (r: Result<Entries, ConfigError>)
    ensures AliasSections(configs).Err? ==> r == Err(AliasSections(configs).error)
    ensures AliasSections(configs).Ok? ==> r == InnerMergeConfigs(AliasSections(configs).value)
  {
    var aliases :- AliasSections(configs);
    InnerMergeConfigs(aliases)
  }

  /** `merge_configs`: everything but `aliases` merged file by file, then
      the `aliases` sections merged by the same rules under `aliases`. A
      failure of the first merge is the one reported, whatever the
      `aliases` sections hold. */
  function MergeConfigs(configs: seq<Entries>): (r: Result<Entries, ConfigError>)
    ensures r.Ok? ==> Get(r.value, "aliases").Some? && Get(r.value, "aliases").value.Dict?
    ensures InnerMergeConfigs(WithoutAliases(configs)).Err? ==>
      r == Err(InnerMergeConfigs(WithoutAliases(configs)).error)
    ensures r.Ok? ==> MergedAliases(configs).Ok? && Get(r.value, "aliases") == Some(Dict(MergedAliases(configs).value))
    ensures InnerMergeConfigs(WithoutAliases(configs)).Ok? && MergedAliases(configs).Err? ==>
      r == Err(MergedAliases(configs).error)
  {
    var rest := InnerMergeConfigs(WithoutAliases(configs));
    if rest.Err? then Err(rest.error)
    else
      var merged :- MergedAliases(configs);
      Ok(Put(rest.value, "aliases", Dict(merged)))
  }

  // ---- Merge properties ----

  /** Outside `aliases`, the merged configuration is the merge of the files
      with their `aliases` sections removed. */
  lemma MergeConfigsOutsideAliases(configs: seq<Entries>, k: string)
    requires k != "aliases"
    ensures MergeConfigs(configs).Ok? ==>
      InnerMergeConfigs(WithoutAliases(configs)).Ok?
      && Get(MergeConfigs(configs).value, k) == Get(InnerMergeConfigs(WithoutAliases(configs)).value, k)
  {
  }

  /** Keys untouched by a sub-config keep their values. */
  lemma {:induction false} MergeIntoFrame(result: Entries, sub: Entries, k: string)
    requires k !in Keys(sub)
    requires MergeInto(result, sub).Ok?
    ensures Get(MergeInto(result, sub).value, k) == Get(result, k)
    decreases |sub|
  {
    if |sub| > 0 {
      assert Keys(sub)[0] == sub[0].0;
      var next := MergeEntry(result, sub[0].0, sub[0].1).value;
      assert k !in Keys(sub[1..]) by {
        assert forall i :: 0 <= i < |sub| - 1 ==> Keys(sub[1..])[i] == Keys(sub)[i + 1];
      }
      MergeIntoFrame(next, sub[1..], k);
    }
  }

  /** The merged keys are those already present plus those of the
      sub-config, in first-seen order. */
  lemma {:induction false} MergeIntoKeys(result: Entries, sub: Entries)
    requires MergeInto(result, sub).Ok?
    ensures forall k :: k in Keys(MergeInto(result, sub).value) <==> k in Keys(result) || k in Keys(sub)
    ensures Keys(result) <= Keys(MergeInto(result, sub).value)
    decreases |sub|
  {
    if |sub| > 0 {
      var next := MergeEntry(result, sub[0].0, sub[0].1).value;
      MergeIntoKeys(next, sub[1..]);
      KeysTail(sub);
    }
  }

  lemma {:induction false} KeysTail(m: Entries)
    requires |m| > 0
    ensures Keys(m) == [m[0].0] + Keys(m[1..])
  {
    assert forall i :: 1 <= i < |m| ==> Keys(m)[i] == Keys(m[1..])[i - 1];
  }

  lemma {:induction false} UniqueTail(m: Entries)
    requires |m| > 0 && UniqueKeys(m)
    ensures UniqueKeys(m[1..]) && m[0].0 !in Keys(m[1..])
  {
    forall i, j | 0 <= i < j < |m| - 1
      ensures m[1..][i].0 != m[1..][j].0
    {
      assert m[1..][i] == m[i + 1] && m[1..][j] == m[j + 1];
    }
    assert forall j :: 0 <= j < |m| - 1 ==> Keys(m[1..])[j] == m[j + 1].0 != m[0].0;
  }

  /** `nil` sub-configs contribute nothing. */
  lemma {:induction false} NilConfigsSkipped(result: Entries, configs: seq<Option<Entries>>)
    ensures InnerMergeFrom(result, configs + [None]) == InnerMergeFrom(result, configs)
    ensures InnerMergeFrom(result, [None] + configs) == InnerMergeFrom(result, configs)
    decreases |configs|
  {
    assert ([None] + configs)[1..] == configs;
    if |configs| == 0 {
      assert configs + [None] == [None];
    } else {
      assert (configs + [None])[1..] == configs[1..] + [None];
      match configs[0]
      case None => NilConfigsSkipped(result, configs[1..]);
      case Some(sub) =>
        if MergeInto(result, sub).Ok? {
          NilConfigsSkipped(MergeInto(result, sub).value, configs[1..]);
        }
    }
  }

  /** A single file with distinct keys merges to itself. */
  lemma {:induction false} MergeIntoEmpty(result: Entries, sub: Entries)
    requires UniqueKeys(sub)
    requires forall k :: k in Keys(sub) ==> k !in Keys(result)
    ensures MergeInto(result, sub) == Ok(result + sub)
    decreases |sub|
  {
    if |sub| > 0 {
      var next := result + [sub[0]];
      KeysTail(sub);
      UniqueTail(sub);
      MergeEntryAbsent(result, sub[0].0, sub[0].1);
      KeysAppend(result, sub[0].0, sub[0].1);
      MergeIntoStep(result, sub);
      MergeIntoEmpty(next, sub[1..]);
      AppendStep(result, sub);
    } else {
      AppendNothing(result, sub);
    }
  }

  lemma MergeEntryAbsent(result: Entries, k: string, v: Value)
    requires k !in Keys(result)
    ensures MergeEntry(result, k, v) == Ok(result + [(k, v)])
  {
  }

  lemma KeysAppend(m: Entries, k: string, v: Value)
    ensures Keys(m + [(k, v)]) == Keys(m) + [k]
  {
    assert (m + [(k, v)])[..|m|] == m;
  }

  lemma MergeIntoStep(result: Entries, sub: Entries)
    requires |sub| > 0
    requires MergeEntry(result, sub[0].0, sub[0].1) == Ok(result + [sub[0]])
    ensures MergeInto(result, sub) == MergeInto(result + [sub[0]], sub[1..])
  {
  }

  lemma {:induction false} SingleConfig(c: Entries)
    requires UniqueKeys(c)
    ensures InnerMergeConfigs([Some(c)]) == Ok(c)
  {
    MergeIntoEmpty([], c);
    AppendNothing(c, []);
    assert MergeInto([], c) == Ok(c);
    assert [Some(c)][1..] == [];
    assert InnerMergeFrom(c, []) == Ok(c);
    assert InnerMergeFrom([], [Some(c)]) == InnerMergeFrom(c, []);
  }

  /** Two files: a key only the later file sets, or that the earlier file
      left `nil`, takes the later value; a scalar set in both takes the
      later value; two Hashes are merged and two Arrays concatenated. */
  lemma {:induction false} LaterFileWins(a: Entries, k: string, v: Value, w: Value)
    requires k !in Keys(a)
    ensures var first := a + [(k, v)];
      var r := MergeEntry(first, k, w);
      && (v.Null? || !(v.Dict? || v.List?) ==> r == Ok(Put(first, k, w)) && Get(r.value, k) == Some(w))
      && (v.Dict? && w.Dict? ==> r.Ok? && Get(r.value, k) == Some(Dict(Merge(v.entries, w.entries))))
      && (v.List? && w.List? ==> r.Ok? && Get(r.value, k) == Some(List(v.items + w.items)))
      && (v.Dict? && !w.Dict? ==> r.Err?)
      && (v.List? && !w.List? ==> r.Err?)
  {
    var first := a + [(k, v)];
    assert Get(first, k) == Some(v);
  }

  // ---- Lookups ----

  datatype Field = Field(key: Value, fieldType: Value, aliases: Value)

  const FieldKeywords: seq<string> := ["key", "type", "aliases"]

  function FirstUnknownKey(es: Entries): (r: Option<string>)
    ensures r.Some? ==> r.value in Keys(es) && r.value !in FieldKeywords
    ensures r.None? ==> forall k :: k in Keys(es) ==> k in FieldKeywords
    ensures r.Some? ==> exists i :: (0 <= i < |es| && es[i].0 == r.value
      && forall j :: 0 <= j < i ==> es[j].0 in FieldKeywords)
    decreases |es|
  {
    if |es| == 0 then None
    else if es[0].0 !in FieldKeywords then Some(es[0].0)
    else
      var r := FirstUnknownKey(es[1..]);
      assert forall i :: 1 <= i < |es| ==> Keys(es)[i] == Keys(es[1..])[i - 1];
      if r.Some? then
        var i :| 0 <= i < |es| - 1 && es[1..][i].0 == r.value
          && forall j :: 0 <= j < i ==> es[1..][j].0 in FieldKeywords;
        assert es[i + 1].0 == r.value;
        assert forall j :: 1 <= j < i + 1 ==> es[j] == es[1..][j - 1];
        r
      else r
  }

  /** `Config.field(name)`: the configured field, or one whose key is
      `name` when there is none. */
  function FieldNamed(config: Entries, name: string): (r: Result<Field, ConfigError>)
    ensures Get(config, "fields").GetOr(Null).Dict? && !Truthy(Get(Get(config, "fields").value.entries, name).GetOr(Null))
      ==> r == Ok(Field(Str(name), Null, Null))
    ensures r.Ok? ==> Get(config, "fields").GetOr(Null).Dict?
  {
    match Get(config, "fields").GetOr(Null)
    case Dict(fields) =>
      var entry := Get(fields, name).GetOr(Null);
      if !Truthy(entry) then Ok(Field(Str(name), Null, Null))
      else if !entry.Dict? then Err(NotAHash(entry))
      else
        var es := entry.entries;
        var unknown := FirstUnknownKey(es);
        if unknown.Some? then Err(UnknownFieldKey(name, unknown.value))
        else Ok(Field(Get(es, "key").GetOr(Null), Get(es, "type").GetOr(Null), Get(es, "aliases").GetOr(Null)))
    case other => Err(NotAHash(other))
  }

  /** `Config.user(name)`: the account id under `users`, `default` when
      no name is given; an unknown user is an error. */
  function User(config: Entries, name: Option<string>): (r: Result<Value, ConfigError>)
    ensures var n := name.GetOr("default");
      && (r.Ok? ==> Truthy(r.value))
      && (Get(config, "users").GetOr(Null).Dict? ==>
            (r.Ok? <==> Truthy(Get(Get(config, "users").value.entries, n).GetOr(Null)))
            && (r.Ok? ==> Get(Get(config, "users").value.entries, n) == Some(r.value)))
      && (Get(config, "users").GetOr(Null).Null? ==> r == Err(UnknownUser(n)))
  {
    var n := name.GetOr("default");
    match Dig(config, ["users", n])
    case Err(NoDigMethod(v)) => Err(NotDiggable(v))
    case Ok(v) => if Truthy(v) then Ok(v) else Err(UnknownUser(n))
  }

  /** `Config.default_project`. */
  function DefaultProject(config: Entries): (r: Result<Value, ConfigError>)
    ensures r.Ok? <==> Truthy(Get(config, "default_project").GetOr(Null))
    ensures r.Ok? ==> Get(config, "default_project") == Some(r.value)
  {
    var v := Get(config, "default_project").GetOr(Null);
    if Truthy(v) then Ok(v) else Err(NoDefaultProject)
  }
}

=== FILE: document_parser.dfy ===
/** `DocumentParser#parse` of lib/jir/adf/text_to_adf.rb: a fold over the
    lines of the text. The parser's object references are depths on the
    rightmost spine of the tree being built: the current container, the
    current panel (always the root's last child, so depth 1), and the
    bullet lists on the stack. */
module DocumentParser {
  import opened Wrappers
  import opened Values
  import opened RubyText
  import opened TextToAdf

  /** A `bullet_stack` entry: the list's depth on the spine and its indent level. */
  datatype Entry = Entry(depth: nat, level: nat)

  /** Code-block mode: the buffered raw lines and the fence's language. */
  datatype CodeBuffer = CodeBuffer(lines: seq<string>, language: Option<string>)

  datatype State = State(
    root: Block,
    container: nat,          // depth of `current_container`
    hasPanel: bool,          // `current_panel` is non-nil (it sits at depth 1)
    stack: seq<Entry>,       // `bullet_stack`
    code: Option<CodeBuffer>) // `in_code_block` with its lines and language

  const InfoIcon: string := "\U{2139}\U{FE0F}"
  const SuccessIcon: string := "\U{2705}"
  const Fence: string := "```"
  const IndentSpaces: nat := 2

  function Init(): (s: State)
    ensures s.root == Block(RootK, [])
  {
    State(Block(RootK, []), 0, false, [], None)
  }

  /** Depth of `current_panel || root`. */
  function PanelDepth(s: State): nat {
    if s.hasPanel then 1 else 0
  }

  function Top(s: State): Entry
    requires |s.stack| > 0
  {
    s.stack[|s.stack| - 1]
  }

  /** Every list on the stack is a bullet list on the spine, below the panel. */
  predicate ListsOnSpine(root: Block, panelDepth: nat, stack: seq<Entry>) {
    forall i :: 0 <= i < |stack| ==>
      panelDepth < stack[i].depth < SpineLen(root) && At(root, stack[i].depth).kind == BulletListK
  }

  /** Deeper lists on the stack have strictly greater levels. */
  predicate Ordered(stack: seq<Entry>) {
    forall i, j :: 0 <= i < j < |stack| ==> stack[i].depth < stack[j].depth && stack[i].level < stack[j].level
  }

  /** What the parser keeps true between lines. */
  predicate Valid(s: State) {
    && s.root.kind == RootK
    && s.container < SpineLen(s.root)
    && (s.hasPanel ==> 1 < SpineLen(s.root) && At(s.root, 1).kind.PanelK?)
    && ListsOnSpine(s.root, PanelDepth(s), s.stack)
    && Ordered(s.stack)
    && (|s.stack| == 0 ==> s.container == PanelDepth(s))
    && (|s.stack| > 0 ==> s.container == Top(s).depth + 1 && At(s.root, s.container).kind == ListItemK)
    && (s.code.Some? ==> |s.stack| == 0)
  }

  /** `current_container.is_a?(ListItem)`. */
  predicate InItem(s: State)
    requires s.container < SpineLen(s.root)
  {
    At(s.root, s.container).kind == ListItemK
  }

  /** The container is a list item exactly when the bullet stack is
      non-empty, so `bullet_stack.last[:level]` is always defined where
      it is read. */
  lemma ItemIffStack(s: State)
    requires Valid(s)
    ensures InItem(s) <==> |s.stack| > 0
  {
  }

  // ---- The regular expressions, on strings without inner newlines ----

  /** Length of the longest prefix matched by `\s*`. */
  function SpaceRun(s: string): (n: nat)
    ensures n <= |s|
    ensures forall i :: 0 <= i < n ==> IsSpace(s[i])
    ensures n < |s| ==> !IsSpace(s[n])
  {
    if |s| == 0 || !IsSpace(s[0]) then 0 else 1 + SpaceRun(s[1..])
  }

  /** `/^```(\S*)$/` on a stripped line: the language, possibly empty. */
  function FenceLang(stripped: string): (lang: Option<string>)
    ensures lang.Some? <==> Fence <= stripped && forall i :: 3 <= i < |stripped| ==> !IsSpace(stripped[i])
    ensures lang.Some? ==> stripped == Fence + lang.value
  {
    if Fence <= stripped && forall i :: 3 <= i < |stripped| ==> !IsSpace(stripped[i]) then Some(stripped[3..])
    else None
  }

  /** `PANEL_REGEX`: the icon at the very start, then the title after any
      whitespace. The flag says whether the icon was the success one. */
  function PanelMatch(l: string): (m: Option<(bool, string)>)
    ensures m.Some? <==> InfoIcon <= l || SuccessIcon <= l
    ensures m.Some? ==> (m.value.0 <==> SuccessIcon <= l)
    ensures m.Some? ==>
      var icon := if m.value.0 then SuccessIcon else InfoIcon;
      var title := m.value.1;
      && |icon| + |title| <= |l| && l[|l| - |title|..] == title
      && (forall i :: |icon| <= i < |l| - |title| ==> IsSpace(l[i]))
      && (|title| > 0 ==> !IsSpace(title[0]))
  {
    assert SuccessIcon <= l ==> !(InfoIcon <= l) by {
      if SuccessIcon <= l { assert l[0] == SuccessIcon[0] != InfoIcon[0]; }
    }
    var success := !(InfoIcon <= l);
    var icon := if success then SuccessIcon else InfoIcon;
    if icon <= l then
      var rest := l[|icon|..];
      assert rest[SpaceRun(rest)..] == l[|icon| + SpaceRun(rest)..];
      Some((success, rest[SpaceRun(rest)..]))
    else None
  }

  /** `BULLET_REGEX`: leading whitespace, `*`, whitespace, content. */
  function BulletMatch(l: string): (m: Option<(nat, string)>)
    ensures m.Some? <==> SpaceRun(l) < |l| && l[SpaceRun(l)] == '*'
    ensures m.Some? ==> m.value.0 == SpaceRun(l)
  {
    var n := SpaceRun(l);
    if n < |l| && l[n] == '*' then
      var rest := l[n + 1..];
      Some((n, rest[SpaceRun(rest)..]))
    else None
  }

  /** `line.index(/[^ ]/)`. */
  function FirstNonSpace(l: string): (r: Option<nat>)
    ensures r.Some? ==> r.value < |l| && l[r.value] != ' ' && forall i :: 0 <= i < r.value ==> l[i] == ' '
    ensures r.None? ==> forall i :: 0 <= i < |l| ==> l[i] == ' '
  {
    if |l| == 0 then None
    else if l[0] != ' ' then Some(0)
    else match FirstNonSpace(l[1..])
      case None => None
      case Some(i) => Some(i + 1)
  }

  // ---- One line ----

  /** Pops entries deeper than `level` (`while bullet_stack.last[:level] > level`). */
  function PopDeeper(stack: seq<Entry>, level: nat): (r: seq<Entry>)
    ensures r <= stack
    ensures |r| > 0 ==> r[|r| - 1].level <= level
    ensures forall i :: |r| <= i < |stack| ==> stack[i].level > level
  {
    if |stack| > 0 && stack[|stack| - 1].level > level then PopDeeper(stack[..|stack| - 1], level)
    else stack
  }

  /** A line inside a code block: the closing fence, or a raw line to keep. */
  function CodeLine(s: State, line: string): (r: State)
    requires Valid(s) && s.code.Some?
    ensures Valid(r)
  {
    var buf := s.code.value;
    if Strip(line) == Fence then
      AddToPanel(s, Block(CodeBlockK(Chomp(Concat(buf.lines)), buf.language), [])).(code := None)
    else
      s.(code := Some(buf.(lines := buf.lines + [line])))
  }

  /** An opening fence: enter code mode, leave any list. */
  function OpenFence(s: State, lang: string): (r: State)
    requires Valid(s) && s.code.None?
    ensures Valid(r)
  {
    s.(code := Some(CodeBuffer([], if |lang| == 0 then None else Some(lang))), stack := [], container := PanelDepth(s))
  }

  /** A panel line: a new panel at the end of the root becomes the panel
      and the container. */
  function PanelLine(s: State, success: bool, title: string): (r: State)
    requires Valid(s)
    ensures Valid(r)
  {
    var panel := NewPanel(if success then "success" else "info", title);
    AppendAtSpine(s.root, 0, panel);
    State(AppendAt(s.root, 0, panel), 1, true, [], None)
  }

  /** A bullet line of the given indent and content: pop the lists deeper
      than its level, open a new list in the container unless the top
      list has exactly this level, and add an item holding the content. */
  function BulletLine(s: State, indent: nat, content: string): (r: State)
    requires Valid(s) && s.code.None?
    ensures Valid(r)
  {
    var level := indent / IndentSpaces;
    var st := PopDeeper(s.stack, level);
    var item := Block(ListItemK, [NewPara(Some(content), false)]);
    if |st| == 0 || st[|st| - 1].level < level then NewList(s, st, level, item)
    else SameList(s, st, item)
  }

  /** The item goes into a new list opened in the current container. The
      list is added to the container and the item to the list; the tree
      that results is the container gaining the list with the item in it. */
  function NewList(s: State, st: seq<Entry>, level: nat, item: Block): (r: State)
    requires Valid(s) && st <= s.stack && item.kind == ListItemK
    requires |st| == 0 || st[|st| - 1].level < level
    ensures Valid(r)
  {
    var list := Block(BulletListK, [item]);
    AppendAtSpine(s.root, s.container, list);
    var r := State(AppendAt(s.root, s.container, list), s.container + 2, s.hasPanel, st + [Entry(s.container + 1, level)], None);
    NewListValid(s, st, level, item, r);
    r
  }

  lemma {:induction false} NewListValid(s: State, st: seq<Entry>, level: nat, item: Block, r: State)
    requires Valid(s) && st <= s.stack && item.kind == ListItemK
    requires |st| == 0 || st[|st| - 1].level < level
    requires r == State(AppendAt(s.root, s.container, Block(BulletListK, [item])), s.container + 2, s.hasPanel, st + [Entry(s.container + 1, level)], None)
    ensures Valid(r)
  {
    EntriesBelow(s, st);
    ListsOnSpinePrefix(s.root, PanelDepth(s), s.stack, st);
    OrderedPrefix(s.stack, st);
    assert PanelDepth(s) <= s.container;
    NewListKeepsValid(s.root, s.container, s.hasPanel, st, level, item, r);
  }

  /** `NewListValid` over the facts of `Valid` that it needs. */
  lemma {:induction false} NewListKeepsValid(root: Block, c: nat, hasPanel: bool, st: seq<Entry>, level: nat, item: Block, r: State)
    requires root.kind == RootK && c < SpineLen(root) && item.kind == ListItemK
    requires hasPanel ==> 1 < SpineLen(root) && At(root, 1).kind.PanelK?
    requires (if hasPanel then 1 else 0) <= c
    requires ListsOnSpine(root, if hasPanel then 1 else 0, st) && Ordered(st)
    requires forall i :: 0 <= i < |st| ==> st[i].depth < c
    requires |st| == 0 || st[|st| - 1].level < level
    requires r == State(AppendAt(root, c, Block(BulletListK, [item])), c + 2, hasPanel, st + [Entry(c + 1, level)], None)
    ensures Valid(r)
  {
    var list := Block(BulletListK, [item]);
    NewListOnSpine(root, c, PanelDepth(r), st, level, item);
    NewListOrdered(st, level, c + 1);
    AtBelowAppended(root, c, list, 1);
    if hasPanel {
      KindKept(root, c, list, 1);
    }
    assert r.stack[|r.stack| - 1] == Entry(c + 1, level);
  }

  /** Opening a list below every list of the stack keeps the stack, with
      the new list pushed, on the spine. */
  lemma {:induction false} NewListOnSpine(root: Block, c: nat, pd: nat, st: seq<Entry>, level: nat, item: Block)
    requires c < SpineLen(root) && pd <= c && ListsOnSpine(root, pd, st)
    requires forall i :: 0 <= i < |st| ==> st[i].depth < c
    ensures ListsOnSpine(AppendAt(root, c, Block(BulletListK, [item])), pd, st + [Entry(c + 1, level)])
  {
    var list := Block(BulletListK, [item]);
    ListsOnSpineAppendBelow(root, c, list, pd, st);
    NewOnSpine(root, c, list);
    ListsOnSpinePush(AppendAt(root, c, list), pd, st, Entry(c + 1, level));
  }

  lemma {:induction false} OrderedPrefix(stack: seq<Entry>, st: seq<Entry>)
    requires Ordered(stack) && st <= stack
    ensures Ordered(st)
  {
    forall i, j | 0 <= i < j < |st|
      ensures st[i].depth < st[j].depth && st[i].level < st[j].level
    {
      assert st[i] == stack[i] && st[j] == stack[j];
    }
  }

  lemma {:induction false} ListsOnSpinePrefix(root: Block, pd: nat, stack: seq<Entry>, st: seq<Entry>)
    requires ListsOnSpine(root, pd, stack) && st <= stack
    ensures ListsOnSpine(root, pd, st)
  {
    forall i | 0 <= i < |st|
      ensures pd < st[i].depth < SpineLen(root) && At(root, st[i].depth).kind == BulletListK
    {
      assert st[i] == stack[i];
    }
  }

  /** Appending below every list of the stack keeps them all on the spine. */
  lemma {:induction false} ListsOnSpineAppendBelow(t: Block, d: nat, x: Block, pd: nat, st: seq<Entry>)
    requires d < SpineLen(t) && ListsOnSpine(t, pd, st)
    requires forall i :: 0 <= i < |st| ==> st[i].depth <= d
    ensures ListsOnSpine(AppendAt(t, d, x), pd, st)
  {
    forall i | 0 <= i < |st|
      ensures pd < st[i].depth < SpineLen(AppendAt(t, d, x)) && At(AppendAt(t, d, x), st[i].depth).kind == BulletListK
    {
      KindKept(t, d, x, st[i].depth);
    }
  }

  lemma {:induction false} ListsOnSpinePush(t: Block, pd: nat, st: seq<Entry>, e: Entry)
    requires ListsOnSpine(t, pd, st)
    requires pd < e.depth < SpineLen(t) && At(t, e.depth).kind == BulletListK
    ensures ListsOnSpine(t, pd, st + [e])
  {
    var r := st + [e];
    forall i | 0 <= i < |r|
      ensures pd < r[i].depth < SpineLen(t) && At(t, r[i].depth).kind == BulletListK
    {
      if i < |st| {
        assert r[i] == st[i];
      }
    }
  }

  /** Appending at depth `d` keeps the kinds on the spine down to `d`. */
  lemma KindKept(t: Block, d: nat, x: Block, e: nat)
    requires e <= d < SpineLen(t)
    ensures e < SpineLen(AppendAt(t, d, x)) && At(AppendAt(t, d, x), e).kind == At(t, e).kind
  {
    AppendAtSpine(t, d, x);
  }

  /** The appended node sits on the spine right below depth `d`. */
  lemma NewOnSpine(t: Block, d: nat, x: Block)
    requires d < SpineLen(t)
    ensures d + 1 < SpineLen(AppendAt(t, d, x)) && At(AppendAt(t, d, x), d + 1) == x
  {
    AppendAtSpine(t, d, x);
  }

  lemma {:induction false} NewListOrdered(st: seq<Entry>, level: nat, depth: nat)
    requires Ordered(st)
    requires |st| == 0 || (st[|st| - 1].level < level && st[|st| - 1].depth < depth)
    ensures Ordered(st + [Entry(depth, level)])
  {
    var r := st + [Entry(depth, level)];
    forall i, j | 0 <= i < j < |r|
      ensures r[i].depth < r[j].depth && r[i].level < r[j].level
    {
      if j == |st| && i < |st| - 1 {
        assert r[i] == st[i] && r[|st| - 1] == st[|st| - 1];
      }
    }
  }

  /** Every entry of a prefix of the stack lies strictly above the
      container, and its levels grow. */
  lemma {:induction false} EntriesBelow(s: State, st: seq<Entry>)
    requires Valid(s) && st <= s.stack
    ensures forall i :: 0 <= i < |st| ==> st[i] == s.stack[i] && st[i].depth < s.container
    ensures |st| > 0 ==> forall i :: 0 <= i < |st| ==> st[i].depth <= st[|st| - 1].depth && st[i].level <= st[|st| - 1].level
  {
    forall i | 0 <= i < |st|
      ensures st[i] == s.stack[i] && st[i].depth < s.container
    {
      assert st[i] == s.stack[i];
      if i < |s.stack| - 1 {
        assert s.stack[i].depth < s.stack[|s.stack| - 1].depth;
      }
    }
    if |st| > 0 {
      forall i | 0 <= i < |st|
        ensures st[i].depth <= st[|st| - 1].depth && st[i].level <= st[|st| - 1].level
      {
        assert st[i] == s.stack[i] && st[|st| - 1] == s.stack[|st| - 1];
      }
    }
  }

  /** The top list has exactly this level: the item joins it. */
  function SameList(s: State, st: seq<Entry>, item: Block): (r: State)
    requires Valid(s) && st <= s.stack && |st| > 0 && item.kind == ListItemK
    ensures Valid(r)
  {
    var listDepth := st[|st| - 1].depth;
    EntriesBelow(s, st);
    var r := State(AppendAt(s.root, listDepth, item), listDepth + 1, s.hasPanel, st, None);
    SameListValid(s, st, item, r);
    r
  }

  lemma {:induction false} SameListValid(s: State, st: seq<Entry>, item: Block, r: State)
    requires Valid(s) && st <= s.stack && |st| > 0 && item.kind == ListItemK
    requires st[|st| - 1].depth < SpineLen(s.root)
    requires r == State(AppendAt(s.root, st[|st| - 1].depth, item), st[|st| - 1].depth + 1, s.hasPanel, st, None)
    ensures Valid(r)
  {
    var d := st[|st| - 1].depth;
    AppendAtSpine(s.root, d, item);
    EntriesBelow(s, st);
    forall i | 0 <= i < |r.stack|
      ensures PanelDepth(r) < r.stack[i].depth < SpineLen(r.root) && At(r.root, r.stack[i].depth).kind == BulletListK
    {
      assert r.stack[i] == s.stack[i];
    }
    forall i, j | 0 <= i < j < |r.stack|
      ensures r.stack[i].depth < r.stack[j].depth && r.stack[i].level < r.stack[j].level
    {
      assert r.stack[i] == s.stack[i] && r.stack[j] == s.stack[j];
    }
  }

  /** `current_container.add_child(x)`, everything else kept. */
  function AddToContainer(s: State, x: Block): (r: State)
    requires Valid(s)
    ensures Valid(r)
  {
    var r := s.(root := AppendAt(s.root, s.container, x));
    AddToContainerValid(s, x);
    r
  }

  lemma {:induction false} AddToContainerValid(s: State, x: Block)
    requires Valid(s)
    ensures Valid(s.(root := AppendAt(s.root, s.container, x)))
  {
    EntriesBelow(s, s.stack);
    ListsOnSpineAppendBelow(s.root, s.container, x, PanelDepth(s), s.stack);
    KindKept(s.root, s.container, x, s.container);
    if s.hasPanel {
      KindKept(s.root, s.container, x, 1);
    }
  }

  /** `(current_panel || root).add_child(x)`, leaving any list: `x`'s
      parent becomes the container. */
  function AddToPanel(s: State, x: Block): (r: State)
    requires Valid(s)
    ensures Valid(r)
  {
    AppendAtSpine(s.root, PanelDepth(s), x);
    State(AppendAt(s.root, PanelDepth(s), x), PanelDepth(s), s.hasPanel, [], None)
  }

  /** Any other line: another paragraph of the current list item, or a
      paragraph of the panel (or root) that ends the list. The blank-line
      branch cannot be reached from `Step`, which skips blank lines first. */
  function ParagraphLine(s: State, l: string): (r: State)
    requires Valid(s) && s.code.None?
    ensures Valid(r)
  {
    ItemIffStack(s);
    var para := NewPara(Some(l), false);
    if Strip(l) == "" then s.(container := PanelDepth(s), stack := [])
    else if InItem(s) && Continues(l, Top(s).level) then AddToContainer(s, para)
    else AddToPanel(s, para)
  }

  /** The two ways a line continues a list item of the given level: it is
      indented past the bullet, or it starts exactly at the bullet's column. */
  predicate Continues(l: string, level: nat) {
    || Repeat(' ', level * IndentSpaces + IndentSpaces) <= l
    || FirstNonSpace(l) == Some(level * IndentSpaces)
  }

  /** How a line outside a code block is read, in the order the parser
      tries the cases. */
  datatype LineKind =
    | Fenced(lang: string)
    | Blank
    | PanelOpen(success: bool, title: string)
    | Bullet(indent: nat, content: string)
    | Text(l: string)

  function Classify(line: string): (k: LineKind)
    ensures k.Fenced? <==> FenceLang(Strip(line)).Some?
    ensures k.Blank? <==> !k.Fenced? && AllSpace(Chomp(line))
    ensures k.PanelOpen? ==> PanelMatch(Chomp(line)) == Some((k.success, k.title))
    ensures k.Bullet? ==> PanelMatch(Chomp(line)).None? && BulletMatch(Chomp(line)) == Some((k.indent, k.content))
    ensures k.Text? ==> k.l == Chomp(line) && !AllSpace(k.l) && PanelMatch(k.l).None? && BulletMatch(k.l).None?
  {
    match FenceLang(Strip(line))
    case Some(lang) => Fenced(lang)
    case None =>
      var l := Chomp(line);
      if Strip(l) == "" then Blank
      else match PanelMatch(l)
        case Some((success, title)) => PanelOpen(success, title)
        case None =>
          match BulletMatch(l)
          case Some((indent, content)) => Bullet(indent, content)
          case None => Text(l)
  }

  /** The body of `text.lines.each`. */
  function Step(s: State, line: string): (r: State)
    requires Valid(s)
    ensures Valid(r)
  {
    if s.code.Some? then CodeLine(s, line)
    else match Classify(line)
      case Fenced(lang) => OpenFence(s, lang)
      case Blank => s
      case PanelOpen(success, title) => PanelLine(s, success, title)
      case Bullet(indent, content) => BulletLine(s, indent, content)
      case Text(l) => ParagraphLine(s, l)
  }

  function ParseLines(s: State, ls: seq<string>): (r: State)
    requires Valid(s)
    ensures Valid(r)
    decreases |ls|
  {
    if |ls| == 0 then s else ParseLines(Step(s, ls[0]), ls[1..])
  }

  /** `DocumentParser.new.parse(text)`: the final state; its `root` is the document. */
  function Parse(text: string): (r: State)
    ensures Valid(r)
  {
    ParseLines(Init(), Lines(text))
  }

  /** `TextToAdf.text_to_adf(text)`. */
  function ToAdf(text: string): (v: Value)
    ensures v.Dict? && |v.entries| > 0 && v.entries[0] == ("type", Str("doc"))
  {
    AsJson(Parse(text).root)
  }
}

=== FILE: field_types.dfy ===
/** `Jir::FieldTypes` of lib/jir/field_types.rb: turning the strings given
    for a Jira field into the JSON the API takes, by the field's type.
    Serialisation is left abstract: a converter's result is the value it
    would call `to_json` on (`Json`), or, for `raw`, the value it returns
    untouched (`Verbatim`). */
module FieldTypes {
  import opened Wrappers
  import opened Values
  import Config
  import TicketKeyResolver

  datatype FieldJson = Json(value: Value) | Verbatim(raw: Value)

  datatype FieldError =
    | NotDiggable(found: Value)                   // `dig` through something that is not a Hash
    | UserLookup(userError: Config.ConfigError)   // `Config.user` raised
    | TicketLookup(ticketError: TicketKeyResolver.KeyError)
    | NotAString(found: Value)                    // an alias target used where a string is needed
    | NoConverter(fieldType: string, count: nat)  // "No type converter available for type ..."

  /** The keys of `FIELD_TYPE_STRING_ARRAY_TO_OBJECT_ARRAY_FUNCTIONS`. */
  predicate IsListType(t: string) {
    t == "user_list" || t == "string_list"
  }

  /** The keys of `FIELD_TYPE_STRING_TO_JSON_FUNCTIONS`. */
  predicate IsSingleType(t: string) {
    t in ["raw", "string", "object_keyed_by_name", "object_keyed_by_key", "ticket"]
  }

  /** `resolve_aliases`: `Config.aliases&.dig(aliases_type, value) || value`. */
  function ResolveAlias(config: Entries, aliasesType: Option<string>, value: string): (r: Result<Value, FieldError>)
    ensures aliasesType.None? ==> r == Ok(Str(value))
    ensures r.Ok? ==> Truthy(r.value)
    ensures r.Err? ==> r.error.NotDiggable?
    ensures aliasesType.Some? && Get(config, "aliases").GetOr(Null).Dict? ==>
      var section := Get(Get(config, "aliases").value.entries, aliasesType.value).GetOr(Null);
      (section.Null? ==> r == Ok(Str(value)))
      && (section.Dict? ==>
            r == Ok(if Truthy(Get(section.entries, value).GetOr(Null)) then Get(section.entries, value).value else Str(value)))
      && (!section.Null? && !section.Dict? ==> r == Err(NotDiggable(section)))
  {
    match aliasesType
    case None => Ok(Str(value))
    case Some(t) =>
      match Get(config, "aliases").GetOr(Null)
      case Null => Ok(Str(value))
      case Dict(aliases) =>
        (match Dig(aliases, [t, value])
         case Err(NoDigMethod(v)) => Err(NotDiggable(v))
         case Ok(v) => Ok(if Truthy(v) then v else Str(value)))
      case other => Err(NotDiggable(other))
  }

  /** `values.map { |v| resolve_aliases(aliases_type, v) }`. */
  function ResolveAll(config: Entries, aliasesType: Option<string>, values: seq<string>): (r: Result<seq<Value>, FieldError>)
    ensures r.Ok? <==> forall i :: 0 <= i < |values| ==> ResolveAlias(config, aliasesType, values[i]).Ok?
    ensures r.Err? ==> r.error.NotDiggable?
    ensures r.Ok? ==> |r.value| == |values|
    ensures r.Ok? ==> forall i :: 0 <= i < |values| ==> r.value[i] == ResolveAlias(config, aliasesType, values[i]).value
    decreases |values|
  {
    if |values| == 0 then Ok([])
    else
      var first :- ResolveAlias(config, aliasesType, values[0]);
      var rest :- ResolveAll(config, aliasesType, values[1..]);
      assert forall i :: 1 <= i < |values| ==> values[i] == values[1..][i - 1];
      Ok([first] + rest)
  }

  /** `{accountId: Config.user(name)}`. */
  function AccountOf(config: Entries, name: Value): (r: Result<Value, FieldError>)
    ensures name.Str? && Config.User(config, Some(name.s)).Ok? ==>
      r == Ok(Dict([("accountId", Config.User(config, Some(name.s)).value)]))
    ensures r.Err? <==> !name.Str? || Config.User(config, Some(name.s)).Err?
  {
    match name
    case Str(s) =>
      (match Config.User(config, Some(s))
       case Err(e) => Err(UserLookup(e))
       case Ok(id) => Ok(Dict([("accountId", id)])))
    case _ => Err(NotAString(name))
  }

  /** The `user_list` converter over the resolved names. */
  function Accounts(config: Entries, names: seq<Value>): (r: Result<seq<Value>, FieldError>)
    ensures r.Ok? <==> forall i :: 0 <= i < |names| ==> AccountOf(config, names[i]).Ok?
    ensures r.Err? ==> r.error.UserLookup? || r.error.NotAString?
    ensures r.Ok? ==> |r.value| == |names|
    ensures r.Ok? ==> forall i :: 0 <= i < |names| ==> r.value[i] == AccountOf(config, names[i]).value
    decreases |names|
  {
    if |names| == 0 then Ok([])
    else
      var first :- AccountOf(config, names[0]);
      var rest :- Accounts(config, names[1..]);
      assert forall i :: 1 <= i < |names| ==> names[i] == names[1..][i - 1];
      Ok([first] + rest)
  }

  /** `field_values_array`: `nil` (here `None`) for a type without a list
      converter; `['']` stands for the empty list. */
  function FieldValuesArray(config: Entries, fieldType: string, aliasesType: Option<string>, values: seq<string>)
    : (r: Result<Option<seq<Value>>, FieldError>)
    ensures !IsListType(fieldType) <==> r == Ok(None)
    ensures r.Err? ==> !r.error.NoConverter?
    ensures IsListType(fieldType) && values == [""] ==> r == Ok(Some([]))
    ensures fieldType == "string_list" && values != [""] ==>
      match ResolveAll(config, aliasesType, values)
      case Ok(vs) => r == Ok(Some(vs))
      case Err(e) => r == Err(e)
    ensures fieldType == "user_list" && values != [""] ==>
      match ResolveAll(config, aliasesType, values)
      case Ok(names) => r == (match Accounts(config, names) case Ok(a) => Ok(Some(a)) case Err(e) => Err(e))
      case Err(e) => r == Err(e)
  {
    if !IsListType(fieldType) then Ok(None)
    else
      var given := if values == [""] then [] else values;
      var resolved :- ResolveAll(config, aliasesType, given);
      if fieldType == "user_list" then
        var accounts :- Accounts(config, resolved);
        Ok(Some(accounts))
      else Ok(Some(resolved))
  }

  /** A single-value converter of `FIELD_TYPE_STRING_TO_JSON_FUNCTIONS`. */
  function ConvertSingle(tickets: TicketKeyResolver.Env, fieldType: string, value: Value): (r: Result<FieldJson, FieldError>)
    requires IsSingleType(fieldType)
    ensures r.Err? ==> r.error.NotAString? || r.error.TicketLookup?
    ensures fieldType == "raw" ==> r == Ok(Verbatim(value))
    ensures fieldType == "string" ==> r == Ok(Json(value))
    ensures fieldType == "object_keyed_by_name" ==> r == Ok(Json(Dict([("name", value)])))
    ensures fieldType == "object_keyed_by_key" ==> r == Ok(Json(Dict([("key", value)])))
    ensures fieldType == "ticket" && value.Str? ==>
      match TicketKeyResolver.TicketKey(tickets, value.s)
      case Ok(key) => r == Ok(Json(Dict([("key", Str(key))])))
      case Err(e) => r == Err(TicketLookup(e))
  {
    match fieldType
    case "raw" => Ok(Verbatim(value))
    case "string" => Ok(Json(value))
    case "object_keyed_by_name" => Ok(Json(Dict([("name", value)])))
    case "object_keyed_by_key" => Ok(Json(Dict([("key", value)])))
    case _ =>
      if !value.Str? then Err(NotAString(value))
      else match TicketKeyResolver.TicketKey(tickets, value.s)
        case Ok(key) => Ok(Json(Dict([("key", Str(key))])))
        case Err(e) => Err(TicketLookup(e))
  }

  /** The `if values.length == 1` step of `field_values_json`: the value
      is resolved in any case, and converted only when no list converter
      answered and the type has a single-value converter. */
  function SingleStep(config: Entries, tickets: TicketKeyResolver.Env, fieldType: string,
                      aliasesType: Option<string>, first: string, json: Option<FieldJson>): (r: Result<Option<FieldJson>, FieldError>)
    ensures ResolveAlias(config, aliasesType, first).Err? ==> r == Err(ResolveAlias(config, aliasesType, first).error)
    ensures ResolveAlias(config, aliasesType, first).Ok? && json.Some? ==> r == Ok(json)
    ensures ResolveAlias(config, aliasesType, first).Ok? && json.None? && !IsSingleType(fieldType) ==> r == Ok(None)
    ensures r.Ok? && r.value.None? ==> json.None? && !IsSingleType(fieldType)
    ensures r.Err? ==> !r.error.NoConverter?
  {
    var value :- ResolveAlias(config, aliasesType, first);
    if json.None? && IsSingleType(fieldType) then
      var converted :- ConvertSingle(tickets, fieldType, value);
      Ok(Some(converted))
    else Ok(json)
  }

  /** `field_values_json`: the list converter when the type has one;
      otherwise, for exactly one value, the single-value converter on the
      alias-resolved value. */
  function FieldValuesJson(config: Entries, tickets: TicketKeyResolver.Env, fieldType: string,
                           aliasesType: Option<string>, values: seq<string>): (r: Result<FieldJson, FieldError>)
    ensures FieldValuesArray(config, fieldType, aliasesType, values).Err? ==>
      r == Err(FieldValuesArray(config, fieldType, aliasesType, values).error)
    ensures r.Ok? ==> IsListType(fieldType) || (|values| == 1 && IsSingleType(fieldType))
    ensures r.Err? && r.error.NoConverter? ==> r.error == NoConverter(fieldType, |values|)
    ensures |values| != 1 && FieldValuesArray(config, fieldType, aliasesType, values).Ok? ==>
      r == (if IsListType(fieldType)
            then Ok(Json(List(FieldValuesArray(config, fieldType, aliasesType, values).value.value)))
            else Err(NoConverter(fieldType, |values|)))
  {
    var arr :- FieldValuesArray(config, fieldType, aliasesType, values);
    var json: Option<FieldJson> := if arr.Some? then Some(Json(List(arr.value))) else None;
    var json' :- if |values| == 1 then SingleStep(config, tickets, fieldType, aliasesType, values[0], json) else Ok(json);
    if json'.None? then Err(NoConverter(fieldType, |values|)) else Ok(json'.value)
  }

  /** A list converter takes precedence, whatever the number of values. */
  lemma {:induction false} ListConverterFirst(config: Entries, tickets: TicketKeyResolver.Env, fieldType: string,
                           aliasesType: Option<string>, values: seq<string>)
    requires IsListType(fieldType) && FieldValuesArray(config, fieldType, aliasesType, values).Ok?
    requires |values| != 1 || ResolveAlias(config, aliasesType, values[0]).Ok?
    ensures FieldValuesJson(config, tickets, fieldType, aliasesType, values)
      == Ok(Json(List(FieldValuesArray(config, fieldType, aliasesType, values).value.value)))
  {
  }

  /** Otherwise a single-value converter applies to exactly one value,
      after alias resolution. */
  lemma {:induction false} SingleConverterForOne(config: Entries, tickets: TicketKeyResolver.Env, fieldType: string,
                              aliasesType: Option<string>, value: string)
    requires !IsListType(fieldType) && IsSingleType(fieldType)
    ensures FieldValuesJson(config, tickets, fieldType, aliasesType, [value]) ==
      match ResolveAlias(config, aliasesType, value)
      case Ok(v) => ConvertSingle(tickets, fieldType, v)
      case Err(e) => Err(e)
  {
  }

  /** "No type converter available" exactly when the type has no list
      converter and either not one value is given or the type has no
      single-value converter either. */
  lemma {:induction false} NoConverterIff(config: Entries, tickets: TicketKeyResolver.Env, fieldType: string,
                       aliasesType: Option<string>, values: seq<string>)
    ensures FieldValuesJson(config, tickets, fieldType, aliasesType, values) == Err(NoConverter(fieldType, |values|)) <==>
      !IsListType(fieldType) && (|values| != 1 || (!IsSingleType(fieldType) && ResolveAlias(config, aliasesType, values[0]).Ok?))
  {
    var arr := FieldValuesArray(config, fieldType, aliasesType, values);
    if arr.Ok? {
      var json: Option<FieldJson> := if arr.value.Some? then Some(Json(List(arr.value.value))) else None;
      assert json.None? <==> !IsListType(fieldType);
      if |values| == 1 {
        var step := SingleStep(config, tickets, fieldType, aliasesType, values[0], json);
        assert FieldValuesJson(config, tickets, fieldType, aliasesType, values) ==
          if step.Err? then Err(step.error)
          else if step.value.None? then Err(NoConverter(fieldType, |values|)) else Ok(step.value.value);
      }
    }
  }

  /** Without an aliases type, `string_list` passes the strings through. */
  lemma {:induction false} StringListKeepsValues(config: Entries, values: seq<string>)
    requires values != [""]
    ensures FieldValuesArray(config, "string_list", None, values).Ok?
    ensures var vs := FieldValuesArray(config, "string_list", None, values).value.value;
      |vs| == |values| && forall i :: 0 <= i < |values| ==> vs[i] == Str(values[i])
  {
  }

  /** `user_list` keeps the order and number of the names, each becoming
      the account id configured for it. */
  lemma {:induction false} UserListAccounts(config: Entries, values: seq<string>)
    requires values != [""]
    requires forall i :: 0 <= i < |values| ==> Config.User(config, Some(values[i])).Ok?
    ensures FieldValuesArray(config, "user_list", None, values).Ok?
    ensures var vs := FieldValuesArray(config, "user_list", None, values).value.value;
      |vs| == |values|
      && forall i :: 0 <= i < |values| ==> vs[i] == Dict([("accountId", Config.User(config, Some(values[i])).value)])
  {
    var names := ResolveAll(config, None, values).value;
    forall i | 0 <= i < |names|
      ensures AccountOf(config, names[i]) == Ok(Dict([("accountId", Config.User(config, Some(values[i])).value)]))
    {
      assert names[i] == Str(values[i]);
    }
    var accounts := Accounts(config, names);
    assert accounts.Ok?;
    assert FieldValuesArray(config, "user_list", None, values) == Ok(Some(accounts.value));
  }

  // ---- The examples of the test suite ----

  function ExampleUserAliases(): Entries {
    [("me", Str("john.doe@example.com")), ("boss", Str("jane.smith@example.com"))]
  }

  function ExampleAliasSections(): Entries {
    [("users", Dict(ExampleUserAliases())), ("priorities", Dict([("high", Str("Critical")), ("low", Str("Minor"))]))]
  }

  function ExampleAliases(): Entries {
    [("aliases", Dict(ExampleAliasSections()))]
  }

  lemma {:induction false} ExampleAliasLookups()
    ensures Get(ExampleAliases(), "aliases") == Some(Dict(ExampleAliasSections()))
    ensures Get(ExampleAliasSections(), "users") == Some(Dict(ExampleUserAliases()))
    ensures Get(ExampleAliasSections(), "priorities") == Some(Dict([("high", Str("Critical")), ("low", Str("Minor"))]))
  {
  }

  lemma {:induction false} ExampleResolveNoType()
    ensures ResolveAlias(ExampleAliases(), None, "me") == Ok(Str("me"))
  {
  }

  lemma {:induction false} ExampleResolveUnknown()
    ensures ResolveAlias(ExampleAliases(), Some("users"), "unknown") == Ok(Str("unknown"))
  {
    ExampleAliasLookups();
    assert Get(ExampleUserAliases(), "unknown") == None;
  }

  lemma {:induction false} ExampleResolveUser()
    ensures ResolveAlias(ExampleAliases(), Some("users"), "me") == Ok(Str("john.doe@example.com"))
  {
    ExampleAliasLookups();
    assert Get(ExampleUserAliases(), "me") == Some(Str("john.doe@example.com"));
  }

  lemma {:induction false} ExampleResolvePriority()
    ensures ResolveAlias(ExampleAliases(), Some("priorities"), "high") == Ok(Str("Critical"))
  {
    ExampleAliasLookups();
    assert Get([("high", Str("Critical")), ("low", Str("Minor"))], "high") == Some(Str("Critical"));
  }

  lemma {:induction false} ExampleRawAndString(tickets: TicketKeyResolver.Env)
    ensures FieldValuesJson([], tickets, "raw", None, ["unquoted"]) == Ok(Verbatim(Str("unquoted")))
    ensures FieldValuesJson([], tickets, "string", None, ["hello world"]) == Ok(Json(Str("hello world")))
  {
    SingleConverterForOne([], tickets, "raw", None, "unquoted");
    SingleConverterForOne([], tickets, "string", None, "hello world");
  }

  lemma {:induction false} ExampleObjects(tickets: TicketKeyResolver.Env)
    ensures FieldValuesJson([], tickets, "object_keyed_by_name", None, ["username"]) == Ok(Json(Dict([("name", Str("username"))])))
    ensures FieldValuesJson([], tickets, "object_keyed_by_key", None, ["some-key"]) == Ok(Json(Dict([("key", Str("some-key"))])))
  {
    SingleConverterForOne([], tickets, "object_keyed_by_name", None, "username");
    SingleConverterForOne([], tickets, "object_keyed_by_key", None, "some-key");
  }

  lemma {:induction false} ExampleUnknownType(tickets: TicketKeyResolver.Env)
    ensures FieldValuesJson([], tickets, "unknown_type", None, ["foo"]) == Err(NoConverter("unknown_type", 1))
  {
    NoConverterIff([], tickets, "unknown_type", None, ["foo"]);
  }

  lemma {:induction false} ExampleTicket()
    ensures FieldValuesJson([], TicketKeyResolver.ExampleEnv(), "ticket", None, ["PROJ-123"]) == Ok(Json(Dict([("key", Str("PROJ-123"))])))
  {
    SingleConverterForOne([], TicketKeyResolver.ExampleEnv(), "ticket", None, "PROJ-123");
    TicketKeyResolver.ExampleTicketKey();
  }
}

=== FILE: jql.dfy ===
/** `Jir::Jql` of lib/jir/jql.rb: JQL templates with `%N` placeholders
    (`%Nr` inserts the argument raw, `%Ns` separates it from a following
    letter), `%%` escapes, argument shifting and AND-joining.

    Every `gsub`/`scan` over `QUERY_ARG_REGEX` (`/%([1-9]+)[sr]?/`) is
    modelled by one left-to-right tokenisation of the string into
    literal characters and placeholder matches. */
module Jql {
  import opened Wrappers
  import opened RubyText
  import SeqFacts

  // ---- Placeholders ----

  /** A character of the class `[1-9]`: the placeholder regex has no `0`. */
  predicate IsArgDigit(c: char) {
    '1' <= c <= '9'
  }

  predicate IsSuffix(c: char) {
    c == 's' || c == 'r'
  }

  /** One regex match (`%`, the digit run, the optional suffix) or one
      character outside any match. */
  datatype Token = Lit(c: char) | Arg(digits: string, suffix: Option<char>)

  /** A placeholder number as it may be written back: decimal digits
      without a leading zero. */
  predicate NumberDigits(d: string) {
    |d| > 0 && AllDigits(d) && d[0] != '0'
  }

  /** What the regex can match: `%`, a `[1-9]+` run, an optional suffix. */
  predicate Matchable(t: Token) {
    t.Arg? ==>
      && NumberDigits(t.digits)
      && (forall j :: 0 <= j < |t.digits| ==> IsArgDigit(t.digits[j]))
      && (t.suffix.Some? ==> IsSuffix(t.suffix.value))
  }

  predicate ArgsWellFormed(ts: seq<Token>) {
    forall i :: 0 <= i < |ts| ==> ts[i].Arg? ==> NumberDigits(ts[i].digits)
  }

  function TokenText(t: Token): string {
    match t
    case Lit(c) => [c]
    case Arg(d, suffix) => "%" + d + (if suffix.Some? then [suffix.value] else "")
  }

  function Untokenize(ts: seq<Token>): string
    decreases |ts|
  {
    if |ts| == 0 then "" else TokenText(ts[0]) + Untokenize(ts[1..])
  }

  /** Length of the `[1-9]+` run at the start of `s`. */
  function ArgRun(s: string): (n: nat)
    ensures n <= |s|
    ensures forall i :: 0 <= i < n ==> IsArgDigit(s[i])
    ensures n < |s| ==> !IsArgDigit(s[n])
  {
    if |s| == 0 || !IsArgDigit(s[0]) then 0 else 1 + ArgRun(s[1..])
  }

  /** Does a match of the regex start at the head of `s`? */
  predicate MatchStarts(s: string) {
    |s| > 1 && s[0] == '%' && IsArgDigit(s[1])
  }

  /** The token at the head of `s` and the number of characters it spans:
      a match (the digit run and suffix taken greedily) or one character. */
  function Lex(s: string): (r: (Token, nat))
    requires |s| > 0
    ensures 0 < r.1 <= |s| && (r.0.Arg? ==> NumberDigits(r.0.digits))
  {
    if MatchStarts(s) then
      var e := 1 + ArgRun(s[1..]);
      var d := s[1..e];
      assert forall j :: 0 <= j < |d| ==> IsDigit(d[j]) by {
        assert forall j :: 0 <= j < |d| ==> IsArgDigit(d[j]);
      }
      if e < |s| && IsSuffix(s[e]) then (Arg(d, Some(s[e])), e + 1) else (Arg(d, None), e)
    else
      (Lit(s[0]), 1)
  }

  /** The token spans exactly its own text. */
  lemma LexText(s: string)
    requires |s| > 0
    ensures TokenText(Lex(s).0) == s[..Lex(s).1]
  {
    if MatchStarts(s) {
      var e := 1 + ArgRun(s[1..]);
      var d := s[1..e];
      if e < |s| && IsSuffix(s[e]) {
        assert s[..e + 1] == "%" + d + [s[e]];
      } else {
        assert s[..e] == "%" + d + "";
      }
    }
  }

  /** The token is a match exactly when one starts at the head; a match
      begins with the digit after the `%` and holds no second `%`. */
  lemma LexShape(s: string)
    requires |s| > 0
    ensures var (t, n) := Lex(s);
      && Matchable(t)
      && (t.Arg? <==> MatchStarts(s))
      && (t.Lit? ==> n == 1)
      && (t.Arg? ==> n >= 2 && t.digits[0] == s[1] && forall j :: 1 <= j < n ==> s[j] != '%')
  {
    if MatchStarts(s) {
      var e := 1 + ArgRun(s[1..]);
      var d := s[1..e];
      assert forall j :: 0 <= j < |d| ==> IsArgDigit(d[j]);
    }
  }

  /** Left-to-right matching of `QUERY_ARG_REGEX`, as `gsub` and `scan`
      do it: the matches and the characters between them. */
  function Tokenize(s: string): (ts: seq<Token>)
    ensures ArgsWellFormed(ts)
    decreases |s|
  {
    if |s| == 0 then []
    else
      var (t, n) := Lex(s);
      [t] + Tokenize(s[n..])
  }

  lemma TokenizeStep(s: string)
    requires |s| > 0
    ensures Tokenize(s) == [Lex(s).0] + Tokenize(s[Lex(s).1..])
  {
  }

  /** Matching loses nothing: the matches and the text between them spell
      the query again. */
  lemma {:induction false} TokenizeRoundTrip(s: string)
    ensures Untokenize(Tokenize(s)) == s
    decreases |s|
  {
    if |s| > 0 {
      var n := Lex(s).1;
      LexText(s);
      var rest := s[n..];
      TokenizeRoundTrip(rest);
      TokenizeStep(s);
      UntokenizeCons(Lex(s).0, Tokenize(rest));
      SeqFacts.SplitAt(s, n);
    }
  }

  lemma UntokenizeCons(t: Token, ts: seq<Token>)
    ensures Untokenize([t] + ts) == TokenText(t) + Untokenize(ts)
  {
    assert ([t] + ts)[1..] == ts;
  }

  // ---- Shifting and counting ----

  function ShiftToken(t: Token, k: nat): (r: Token)
    requires t.Arg? ==> NumberDigits(t.digits)
    ensures r.Lit? <==> t.Lit?
    ensures t.Lit? ==> r == t
    ensures t.Arg? ==> NumberDigits(r.digits) && DecimalValue(r.digits) == DecimalValue(t.digits) + k && r.suffix == t.suffix
  {
    match t
    case Lit(_) => t
    case Arg(d, suffix) =>
      var r := Arg(NatToString(DecimalValue(d) + k), suffix);
      NatToStringRoundTrip(DecimalValue(d) + k);
      DecimalAtLeastOne(d);
      assert r.digits[0] != '0' by {
        if |r.digits| == 1 {
          assert r.digits[..0] == [];
          assert DecimalValue(r.digits) == DigitValue(r.digits[0]);
        }
      }
      r
  }

  function ShiftTokens(ts: seq<Token>, k: nat): (rs: seq<Token>)
    requires ArgsWellFormed(ts)
    ensures |rs| == |ts| && ArgsWellFormed(rs)
    ensures forall i :: 0 <= i < |ts| ==> rs[i] == ShiftToken(ts[i], k)
  {
    seq(|ts|, i requires 0 <= i < |ts| => ShiftToken(ts[i], k))
  }

  /** `Jql.shift_query_args(query, shift_by)`: every placeholder number
      goes up by `shift_by`; its suffix and all other text stay. */
  function ShiftQueryArgs(query: string, shiftBy: nat): (r: string)
    ensures shiftBy == 0 ==> r == query
  {
    if shiftBy == 0 then
      ShiftTokensZero(Tokenize(query));
      TokenizeRoundTrip(query);
      Untokenize(ShiftTokens(Tokenize(query), shiftBy))
    else Untokenize(ShiftTokens(Tokenize(query), shiftBy))
  }

  lemma {:induction false} ShiftTokensZero(ts: seq<Token>)
    requires ArgsWellFormed(ts)
    ensures ShiftTokens(ts, 0) == ts
  {
    forall i | 0 <= i < |ts| && ts[i].Arg?
      ensures ShiftToken(ts[i], 0) == ts[i]
    {
      DecimalRoundTrip(ts[i].digits);
    }
  }

  /** Shifting by zero changes nothing. */
  lemma {:induction false} ShiftByZero(query: string)
    ensures ShiftQueryArgs(query, 0) == query
  {
    ShiftTokensZero(Tokenize(query));
    TokenizeRoundTrip(query);
  }

  /** The largest placeholder number among the tokens, 0 if none. */
  function MaxArg(ts: seq<Token>): (m: nat)
    requires ArgsWellFormed(ts)
    ensures forall i :: 0 <= i < |ts| && ts[i].Arg? ==> DecimalValue(ts[i].digits) <= m
    decreases |ts|
  {
    if |ts| == 0 then 0
    else
      var rest := MaxArg(ts[1..]);
      assert forall i :: 1 <= i < |ts| ==> ts[1..][i - 1] == ts[i];
      match ts[0]
      case Lit(_) => rest
      case Arg(d, _) => if DecimalValue(d) > rest then DecimalValue(d) else rest
  }

  /** `MaxArg` is the largest placeholder number: no token exceeds it, and
      it is 0 exactly when there is no placeholder, else some token has it. */
  lemma {:induction false} MaxArgIsMax(ts: seq<Token>)
    requires ArgsWellFormed(ts)
    ensures forall i :: 0 <= i < |ts| && ts[i].Arg? ==> DecimalValue(ts[i].digits) <= MaxArg(ts)
    ensures MaxArg(ts) == 0 || exists i :: 0 <= i < |ts| && ts[i].Arg? && DecimalValue(ts[i].digits) == MaxArg(ts)
    ensures MaxArg(ts) == 0 <==> forall i :: 0 <= i < |ts| ==> ts[i].Lit?
    decreases |ts|
  {
    if |ts| > 0 {
      MaxArgIsMax(ts[1..]);
      assert forall i :: 1 <= i < |ts| ==> ts[i] == ts[1..][i - 1];
      if ts[0].Arg? {
        DecimalAtLeastOne(ts[0].digits);
      }
    }
  }

  /** `Jql.n_args_in_query(query)`: the largest placeholder number, with
      all its digits, or 0 when there is none. */
  function NArgsInQuery(query: string): nat {
    MaxArg(Tokenize(query))
  }

  /** After shifting by `k`, a query's own placeholders run up to
      `NArgsInQuery + k` (when it has any). */
  lemma {:induction false} ShiftRaisesMax(query: string, k: nat)
    ensures MaxArg(ShiftTokens(Tokenize(query), k)) == if NArgsInQuery(query) == 0 then 0 else NArgsInQuery(query) + k
  {
    ShiftMax(Tokenize(query), k);
  }

  lemma {:induction false} ShiftMax(ts: seq<Token>, k: nat)
    requires ArgsWellFormed(ts)
    ensures MaxArg(ShiftTokens(ts, k)) == if MaxArg(ts) == 0 then 0 else MaxArg(ts) + k
  {
    var rs := ShiftTokens(ts, k);
    MaxArgIsMax(ts);
    MaxArgIsMax(rs);
    var m := MaxArg(ts);
    var mr := MaxArg(rs);
    if m == 0 {
      assert forall i :: 0 <= i < |rs| ==> rs[i].Lit?;
    } else {
      var i :| 0 <= i < |ts| && ts[i].Arg? && DecimalValue(ts[i].digits) == m;
      assert DecimalValue(rs[i].digits) == m + k;
      var j :| 0 <= j < |rs| && rs[j].Arg? && DecimalValue(rs[j].digits) == mr;
      assert DecimalValue(ts[j].digits) + k == mr;
    }
  }

  // ---- Joining ----

  /** `compact`: the non-nil queries, in order and with repeats. */
  function Compact(qs: seq<Option<string>>): (r: seq<string>)
    ensures |r| <= |qs|
    ensures forall q :: q in r <==> Some(q) in qs
    decreases |qs|
  {
    if |qs| == 0 then []
    else
      var rest := Compact(qs[1..]);
      assert forall q :: Some(q) in qs[1..] ==> Some(q) in qs;
      assert forall o :: o in qs ==> o == qs[0] || o in qs[1..];
      if qs[0].Some? then [qs[0].value] + rest else rest
  }

  /** `Compact` distributes over concatenation and maps `[nil]` to `[]`
      and `[q]` to `[q]`; together these fix its result as the non-nil
      entries in their original order, repeats included. */
  lemma {:induction false} CompactAppend(a: seq<Option<string>>, b: seq<Option<string>>)
    ensures Compact(a + b) == Compact(a) + Compact(b)
    ensures Compact([None]) == []
    ensures forall q :: Compact([Some(q)]) == [q]
    decreases |a|
  {
    var none: seq<Option<string>> := [None];
    assert none[1..] == [];
    if |a| == 0 {
      assert a + b == b;
    } else {
      assert (a + b)[0] == a[0] && (a + b)[1..] == a[1..] + b;
      CompactAppend(a[1..], b);
    }
  }

  /** How far query `i` is shifted: the placeholders of all earlier queries. */
  function Offset(qs: seq<string>, i: nat): nat
    requires i <= |qs|
  {
    if i == 0 then 0 else Offset(qs, i - 1) + NArgsInQuery(qs[i - 1])
  }

  /** A query shifted by `k`, in parentheses. */
  function Bracketed(query: string, k: nat): string {
    "(" + ShiftQueryArgs(query, k) + ")"
  }

  /** The parenthesised, shifted query `i`. */
  function Part(qs: seq<string>, i: nat): string
    requires i < |qs|
  {
    Bracketed(qs[i], Offset(qs, i))
  }

  function Parts(qs: seq<string>): (ps: seq<string>)
    ensures |ps| == |qs| && forall i :: 0 <= i < |qs| ==> ps[i] == Part(qs, i)
  {
    seq(|qs|, i requires 0 <= i < |qs| => Part(qs, i))
  }

  /** `Jql.join_queries_and_shift_args(queries)`, as a definition. */
  function JoinQueries(queries: seq<Option<string>>): (r: string)
    ensures Compact(queries) == [] ==> r == ""
    ensures |Compact(queries)| == 1 ==> r == "(" + Compact(queries)[0] + ")"
    ensures |Compact(queries)| >= 2 ==> Bracketed(Compact(queries)[0], 0) + " AND " <= r
  {
    var qs := Compact(queries);
    if |qs| >= 2 then
      var ps := Parts(qs);
      assert ps == [ps[0]] + ps[1..];
      JoinCons(ps[0], ps[1..], " AND ");
      JoinWith(ps, " AND ")
    else
      JoinWith(Parts(qs), " AND ")
  }

  /** The `need_to_shift_by` array of `join_queries_and_shift_args`: a
      running sum of the placeholder counts of the earlier queries. */
  method ShiftAmounts(qs: seq<string>) returns (needToShiftBy: seq<nat>)
    ensures |needToShiftBy| == |qs|
    ensures forall j :: 0 <= j < |qs| ==> needToShiftBy[j] == Offset(qs, j)
  {
    if |qs| == 0 {
      return [];
    }
    needToShiftBy := [0];
    var i := 1;
    while i < |qs|
      invariant 1 <= i <= |qs| && |needToShiftBy| == i
      invariant forall j :: 0 <= j < i ==> needToShiftBy[j] == Offset(qs, j)
    {
      var next := needToShiftBy[i - 1] + NArgsInQuery(qs[i - 1]);
      OffsetsExtend(qs, needToShiftBy, next);
      needToShiftBy := needToShiftBy + [next];
      i := i + 1;
    }
  }

  lemma OffsetsExtend(qs: seq<string>, ns: seq<nat>, next: nat)
    requires 0 < |ns| < |qs|
    requires forall j :: 0 <= j < |ns| ==> ns[j] == Offset(qs, j)
    requires next == ns[|ns| - 1] + NArgsInQuery(qs[|ns| - 1])
    ensures forall j :: 0 <= j < |ns| + 1 ==> (ns + [next])[j] == Offset(qs, j)
  {
  }

  lemma PartsExtend(qs: seq<string>, parts: seq<string>, next: string)
    requires |parts| < |qs|
    requires forall j :: 0 <= j < |parts| ==> parts[j] == Part(qs, j)
    requires next == Part(qs, |parts|)
    ensures forall j :: 0 <= j < |parts| + 1 ==> (parts + [next])[j] == Part(qs, j)
  {
  }

  /** `Jql.join_queries_and_shift_args(queries)` as the source computes it:
      the shift amounts, then each shifted query in parentheses. */
  method JoinQueriesAndShiftArgs(queries: seq<Option<string>>) returns (r: string)
    ensures r == JoinQueries(queries)
  {
    var qs := Compact(queries);
    var needToShiftBy := ShiftAmounts(qs);
    var parts: seq<string> := [];
    var i := 0;
    while i < |qs|
      invariant 0 <= i <= |qs| && |parts| == i
      invariant forall j :: 0 <= j < i ==> parts[j] == Part(qs, j)
    {
      PartsExtend(qs, parts, Bracketed(qs[i], needToShiftBy[i]));
      parts := parts + [Bracketed(qs[i], needToShiftBy[i])];
      i := i + 1;
    }
    assert parts == Parts(qs);
    r := JoinWith(parts, " AND ");
  }

  /** No queries join to the empty string and one query is only
      parenthesised; nil entries are dropped first. */
  lemma {:induction false} JoinSmall(q: string)
    ensures JoinQueries([]) == ""
    ensures JoinQueries([Some(q)]) == "(" + q + ")"
    ensures JoinQueries([None, Some(q), None]) == "(" + q + ")"
  {
    ShiftByZero(q);
    assert [Some(q)][1..] == [];
    assert Compact([Some(q)]) == [q];
    assert [None, Some(q), None][1..] == [Some(q), None] && [Some(q), None][1..] == [None];
    var none: seq<Option<string>> := [None];
    assert none[1..] == [];
    assert Compact(none) == [];
    assert Compact([Some(q), None]) == [q];
    assert Compact([None, Some(q), None]) == [q];
    assert Parts([q]) == [Part([q], 0)];
  }

  /** The second query is shifted past all placeholders of the first. */
  lemma {:induction false} JoinTwo(a: string, b: string)
    ensures JoinQueries([Some(a), Some(b)]) == ("(" + a + ")") + " AND " + ("(" + ShiftQueryArgs(b, NArgsInQuery(a)) + ")")
  {
    assert [Some(a), Some(b)][1..] == [Some(b)] && [Some(b)][1..] == [];
    assert Compact([Some(a), Some(b)]) == [a, b];
    var ps := Parts([a, b]);
    TwoParts(a, b);
    assert ps[..1] == [ps[0]];
    assert JoinWith(ps, " AND ") == ps[0] + " AND " + ps[1];
    ShiftByZero(a);
  }

  lemma TwoParts(a: string, b: string)
    ensures Parts([a, b]) == [Bracketed(a, 0), Bracketed(b, NArgsInQuery(a))]
  {
    assert Offset([a, b], 1) == NArgsInQuery(a);
  }

  /** After a shift by `k`, a query's placeholders are numbered
      `k + 1` .. `k + NArgsInQuery(query)`: consecutive queries of a join
      use disjoint argument ranges. */
  lemma {:induction false} ShiftedRange(query: string, k: nat)
    ensures var rs := ShiftTokens(Tokenize(query), k);
      forall i :: 0 <= i < |rs| && rs[i].Arg? ==> k + 1 <= DecimalValue(rs[i].digits) <= k + NArgsInQuery(query)
  {
    var ts := Tokenize(query);
    var rs := ShiftTokens(ts, k);
    MaxArgIsMax(ts);
    forall i | 0 <= i < |rs| && rs[i].Arg?
      ensures k + 1 <= DecimalValue(rs[i].digits) <= k + NArgsInQuery(query)
    {
      DecimalAtLeastOne(ts[i].digits);
    }
  }

  // ---- JSON string quoting ----

  const HexDigits: string := "0123456789abcdef"

  /** `String#to_json` of one character. */
  function EscapeChar(c: char): string {
    if c == '"' then "\\\""
    else if c == '\\' then "\\\\"
    else if c == '\n' then "\\n"
    else if c == '\r' then "\\r"
    else if c == '\t' then "\\t"
    else if c == '\U{8}' then "\\b"
    else if c == '\U{C}' then "\\f"
    else if c < ' ' then "\\u00" + [HexDigits[c as int / 16], HexDigits[c as int % 16]]
    else [c]
  }

  function Escape(s: string): string
    decreases |s|
  {
    if |s| == 0 then "" else EscapeChar(s[0]) + Escape(s[1..])
  }

  /** `arg.to_json` for a string argument. */
  function Quote(s: string): (q: string)
    ensures |q| >= 2 && q[0] == '"' && q[|q| - 1] == '"'
  {
    "\"" + Escape(s) + "\""
  }

  function HexValue(c: char): Option<nat> {
    if '0' <= c <= '9' then Some(c as int - '0' as int)
    else if 'a' <= c <= 'f' then Some(c as int - 'a' as int + 10)
    else if 'A' <= c <= 'F' then Some(c as int - 'A' as int + 10)
    else None
  }

  /** Reads back the body of a JSON string literal. */
  function Unescape(s: string): Option<string>
    decreases |s|
  {
    if |s| == 0 then Some("")
    else if s[0] == '"' then None
    else if s[0] != '\\' then
      match Unescape(s[1..])
      case None => None
      case Some(rest) => Some([s[0]] + rest)
    else if |s| < 2 then None
    else
      var e := s[1];
      var c: Option<char> :=
        if e == '"' then Some('"') else if e == '\\' then Some('\\') else if e == '/' then Some('/')
        else if e == 'n' then Some('\n') else if e == 'r' then Some('\r') else if e == 't' then Some('\t')
        else if e == 'b' then Some('\U{8}') else if e == 'f' then Some('\U{C}')
        else None;
      if c.Some? then
        match Unescape(s[2..])
        case None => None
        case Some(rest) => Some([c.value] + rest)
      else if e == 'u' && |s| >= 6 then
        match (HexValue(s[2]), HexValue(s[3]), HexValue(s[4]), HexValue(s[5]))
        case (Some(a), Some(b), Some(x), Some(y)) =>
          var code := ((a * 16 + b) * 16 + x) * 16 + y;
          if code < 0xD800 then
            match Unescape(s[6..])
            case None => None
            case Some(rest) => Some([code as char] + rest)
          else None
        case _ => None
      else None
  }

  /** Reads back a JSON string literal. */
  function Unquote(q: string): Option<string> {
    if |q| >= 2 && q[0] == '"' && q[|q| - 1] == '"' then Unescape(q[1..|q| - 1]) else None
  }

  /** Control characters without a short escape. */
  predicate HexEscaped(c: char) {
    c < ' ' && c != '\n' && c != '\r' && c != '\t' && c != '\U{8}' && c != '\U{C}'
  }

  lemma UnescapeHex(c: char, rest: string)
    requires HexEscaped(c)
    ensures Unescape(EscapeChar(c) + rest) == match Unescape(rest) case None => None case Some(r) => Some([c] + r)
  {
    var e := EscapeChar(c) + rest;
    var hi := c as int / 16;
    var lo := c as int % 16;
    assert hi < 2;
    assert e[..6] == "\\u00" + [HexDigits[hi], HexDigits[lo]];
    assert e[0] == '\\' && e[1] == 'u';
    assert e[2] == '0' && e[3] == '0' && e[4] == HexDigits[hi] && e[5] == HexDigits[lo];
    assert HexValue(HexDigits[hi]) == Some(hi);
    assert HexValue(HexDigits[lo]) == Some(lo);
    assert e[6..] == rest;
  }

  lemma UnescapeShort(c: char, rest: string)
    requires c == '"' || c == '\\' || c == '\n' || c == '\r' || c == '\t' || c == '\U{8}' || c == '\U{C}'
    ensures Unescape(EscapeChar(c) + rest) == match Unescape(rest) case None => None case Some(r) => Some([c] + r)
  {
    var e := EscapeChar(c) + rest;
    assert e[2..] == rest;
  }

  lemma UnescapePlain(c: char, rest: string)
    requires !HexEscaped(c) && !(c == '"' || c == '\\' || c == '\n' || c == '\r' || c == '\t' || c == '\U{8}' || c == '\U{C}')
    ensures Unescape(EscapeChar(c) + rest) == match Unescape(rest) case None => None case Some(r) => Some([c] + r)
  {
    var e := EscapeChar(c) + rest;
    assert e[1..] == rest;
  }

  /** Whatever the character, its escape reads back to it in front of
      whatever the rest reads back to. */
  lemma UnescapeChar(c: char, rest: string)
    ensures Unescape(EscapeChar(c) + rest) == match Unescape(rest) case None => None case Some(r) => Some([c] + r)
  {
    if HexEscaped(c) {
      UnescapeHex(c, rest);
    } else if c == '"' || c == '\\' || c == '\n' || c == '\r' || c == '\t' || c == '\U{8}' || c == '\U{C}' {
      UnescapeShort(c, rest);
    } else {
      UnescapePlain(c, rest);
    }
  }

  lemma {:induction false} UnescapeEscape(s: string)
    ensures Unescape(Escape(s)) == Some(s)
    decreases |s|
  {
    if |s| > 0 {
      var rest := Escape(s[1..]);
      UnescapeEscape(s[1..]);
      assert Escape(s) == EscapeChar(s[0]) + rest;
      UnescapeChar(s[0], rest);
      SeqFacts.HeadTail(s);
    }
  }

  /** JSON quoting of a string argument can be read back to the argument. */
  lemma {:induction false} QuoteRoundTrip(s: string)
    ensures Unquote(Quote(s)) == Some(s)
  {
    var q := Quote(s);
    assert q[1..|q| - 1] == Escape(s);
    UnescapeEscape(s);
  }

  // ---- `%%` escapes ----

  /** Stands for an escaped `%` while placeholders are substituted. */
  const Sentinel: char := '\U{FFFF}'

  /** `jql.gsub("%%", "\uFFFF")`: pairs are taken left to right. */
  function Sentinelize(s: string): (r: string)
    ensures |r| <= |s|
    decreases |s|
  {
    if |s| >= 2 && s[0] == '%' && s[1] == '%' then [Sentinel] + Sentinelize(s[2..])
    else if |s| == 0 then ""
    else [s[0]] + Sentinelize(s[1..])
  }

  /** `gsub("\uFFFF", "%")`. */
  function Restore(s: string): (r: string)
    ensures |r| == |s| && Sentinel !in r
    ensures forall i :: 0 <= i < |s| ==> r[i] == if s[i] == Sentinel then '%' else s[i]
  {
    seq(|s|, i requires 0 <= i < |s| => if s[i] == Sentinel then '%' else s[i])
  }

  /** Undoes `Sentinelize` by writing each sentinel back as `%%`. */
  function Expand(s: string): string
    decreases |s|
  {
    if |s| == 0 then "" else (if s[0] == Sentinel then "%%" else [s[0]]) + Expand(s[1..])
  }

  /** On a query without the sentinel character, `%%` escaping loses
      nothing: writing each sentinel back as `%%` gives the query again,
      and no two `%` remain adjacent. */
  lemma {:induction false} SentinelizeRoundTrip(s: string)
    requires Sentinel !in s
    ensures Expand(Sentinelize(s)) == s
    decreases |s|
  {
    if |s| >= 2 && s[0] == '%' && s[1] == '%' {
      SentinelizeRoundTrip(s[2..]);
      assert s == "%%" + s[2..];
    } else if |s| > 0 {
      SentinelizeRoundTrip(s[1..]);
      assert s == [s[0]] + s[1..];
    }
  }

  /** No two adjacent `%` are left once the escapes are replaced. */
  predicate NoPercentPair(s: string) {
    forall i :: 0 <= i < |s| - 1 ==> !(s[i] == '%' && s[i + 1] == '%')
  }

  lemma {:induction false} SentinelizeNoPair(s: string)
    ensures NoPercentPair(Sentinelize(s))
    decreases |s|
  {
    var r := Sentinelize(s);
    if |s| >= 2 && s[0] == '%' && s[1] == '%' {
      SentinelizeNoPair(s[2..]);
      assert forall i :: 1 <= i < |r| ==> r[i] == Sentinelize(s[2..])[i - 1];
    } else if |s| > 0 {
      SentinelizeNoPair(s[1..]);
      var t := Sentinelize(s[1..]);
      assert forall i :: 1 <= i < |r| ==> r[i] == t[i - 1];
      if |t| > 0 && s[0] == '%' {
        assert t[0] == s[1];
      }
    }
  }

  // ---- Rendering ----

  /** `scan(/%[1-9]/).sort.last&.[](-1).to_i`: the largest single digit
      right after a `%`, 0 if none. */
  function FirstDigitMax(s: string): (m: nat)
    ensures m <= 9
    decreases |s|
  {
    if |s| < 2 then 0
    else if s[0] == '%' && IsArgDigit(s[1]) then
      var rest := FirstDigitMax(s[2..]);
      var d := DigitValue(s[1]);
      if d > rest then d else rest
    else FirstDigitMax(s[1..])
  }

  /** `n_args`: what `render` checks the argument count against. */
  function NArgs(jql: string): nat {
    FirstDigitMax(Sentinelize(jql))
  }

  datatype JqlError = WrongNumberOfArgs(required: nat, got: nat, jql: string)

  /** The text substituted for placeholder number `n` (1-based): the
      argument raw or JSON-quoted, and for a missing argument what `nil`
      gives (`""` raw, `null` quoted). */
  function ArgText(args: seq<string>, n: nat, raw: bool): (r: string)
    requires n >= 1
    ensures n <= |args| && raw ==> r == args[n - 1]
    ensures n <= |args| && !raw ==> Unquote(r) == Some(args[n - 1])
  {
    if n <= |args| then
      QuoteRoundTrip(args[n - 1]);
      if raw then args[n - 1] else Quote(args[n - 1])
    else if raw then "" else "null"
  }

  /** What one match is replaced by, or the character itself. */
  function TokenOutput(t: Token, args: seq<string>): string
    requires t.Arg? ==> NumberDigits(t.digits)
  {
    match t
    case Lit(c) => [c]
    case Arg(d, suffix) =>
      DecimalAtLeastOne(d);
      ArgText(args, DecimalValue(d), suffix == Some('r'))
  }

  function RenderTokens(ts: seq<Token>, args: seq<string>): string
    requires ArgsWellFormed(ts)
    decreases |ts|
  {
    if |ts| == 0 then ""
    else
      TokenOutput(ts[0], args) + RenderTokens(ts[1..], args)
  }

  /** `Jql.new(jql).render(args)`. */
  function Render(jql: string, args: seq<string>): (r: Result<string, JqlError>)
    ensures r.Err? <==> |args| != NArgs(jql)
    ensures r.Err? ==> r.error == WrongNumberOfArgs(NArgs(jql), |args|, jql)
  {
    var s := Sentinelize(jql);
    if |args| != FirstDigitMax(s) then Err(WrongNumberOfArgs(FirstDigitMax(s), |args|, jql))
    else
      Ok(Restore(RenderTokens(Tokenize(s), args)))
  }

  lemma {:induction false} LiteralsOnly(s: string)
    requires '%' !in s
    ensures Tokenize(s) == seq(|s|, i requires 0 <= i < |s| => Lit(s[i]))
    ensures FirstDigitMax(s) == 0
    decreases |s|
  {
    if |s| > 0 {
      LiteralsOnly(s[1..]);
    }
  }

  lemma {:induction false} RenderLiterals(ts: seq<Token>, args: seq<string>)
    requires ArgsWellFormed(ts) && forall i :: 0 <= i < |ts| ==> ts[i].Lit?
    ensures RenderTokens(ts, args) == seq(|ts|, i requires 0 <= i < |ts| => ts[i].c)
    decreases |ts|
  {
    if |ts| > 0 {
      RenderLiterals(ts[1..], args);
    }
  }

  lemma {:induction false} SentinelizeNoPercent(s: string)
    requires '%' !in s
    ensures Sentinelize(s) == s
    decreases |s|
  {
    if |s| > 0 {
      SentinelizeNoPercent(s[1..]);
    }
  }

  /** A query with no `%` (and no sentinel character) needs no arguments
      and renders unchanged. */
  lemma {:induction false} RenderPlain(jql: string)
    requires '%' !in jql && Sentinel !in jql
    ensures Render(jql, []) == Ok(jql)
  {
    SentinelizeNoPercent(jql);
    LiteralsOnly(jql);
    var ts := Tokenize(jql);
    RenderLiterals(ts, []);
    var r := RenderTokens(ts, []);
    assert |r| == |jql| && forall i :: 0 <= i < |r| ==> r[i] == jql[i];
    assert Restore(r) == jql;
  }

  /** Rendering a query with one placeholder between literal texts: when
      the argument count is right, the text around the placeholder is
      kept and the placeholder becomes its argument, raw for a `r` suffix
      and JSON-quoted otherwise (an `s` suffix is consumed). Only the
      final sentinel-to-`%` replacement touches the inserted text. */
  lemma RenderOne(p: string, d: char, x: string, q: string, args: seq<string>)
    requires '%' !in p && Sentinel !in p && '%' !in q && Sentinel !in q
    requires IsArgDigit(d) && (x == "" || x == "s" || x == "r")
    requires x == "" && |q| > 0 ==> !IsArgDigit(q[0]) && !IsSuffix(q[0])
    ensures var jql := p + "%" + [d] + x + q;
      var n := DigitValue(d);
      Render(jql, args) ==
        if |args| == n
        then Ok(p + Restore(if x == "r" then args[n - 1] else Quote(args[n - 1])) + q)
        else Err(WrongNumberOfArgs(n, |args|, jql))
  {
    var jql := p + "%" + [d] + x + q;
    var n := DigitValue(d);
    assert jql == p + ("%" + [d] + (x + q));
    PlaceholderCount(p, d, x + q);
    RenderSentinelFree(jql, args);
    if |args| == n {
      var arg := Arg([d], if x == "" then None else Some(x[0]));
      PlaceholderTokens(p, d, x, q);
      PlaceholderOutput(p, arg, q, args);
      PlaceholderArgText(d, x, args);
    }
  }

  /** For a query with no `%%`, rendering works on the query itself. */
  lemma RenderSentinelFree(jql: string, args: seq<string>)
    requires Sentinelize(jql) == jql
    ensures Render(jql, args) ==
      if |args| != FirstDigitMax(jql) then Err(WrongNumberOfArgs(FirstDigitMax(jql), |args|, jql))
      else Ok(Restore(RenderTokens(Tokenize(jql), args)))
  {
  }

  /** A single-digit placeholder selects that argument, raw for `r`. */
  lemma PlaceholderArgText(d: char, x: string, args: seq<string>)
    requires IsArgDigit(d) && (x == "" || x == "s" || x == "r")
    requires |args| == DigitValue(d)
    ensures TokenOutput(Arg([d], if x == "" then None else Some(x[0])), args) ==
      if x == "r" then args[DigitValue(d) - 1] else Quote(args[DigitValue(d) - 1])
  {
    assert DecimalValue([d]) == DigitValue(d) by {
      assert [d][..0] == "";
    }
  }

  /** The placeholder query needs no `%%` escaping, and `n_args` is its digit. */
  lemma PlaceholderCount(p: string, d: char, t: string)
    requires '%' !in p && '%' !in t && IsArgDigit(d)
    ensures Sentinelize(p + ("%" + [d] + t)) == p + ("%" + [d] + t)
    ensures FirstDigitMax(p + ("%" + [d] + t)) == DigitValue(d)
  {
    var m := "%" + [d] + t;
    PlaceholderSentinelized(d, t);
    SentinelizeLiteralPrefix(p, m);
    PlaceholderDigitMax(d, t);
    SkipNonPercent(p + m, |p|);
    assert (p + m)[|p|..] == m;
  }

  lemma PlaceholderSentinelized(d: char, t: string)
    requires '%' !in t && IsArgDigit(d)
    ensures Sentinelize("%" + [d] + t) == "%" + [d] + t
  {
    var m := "%" + [d] + t;
    assert m[1..] == [d] + t;
    SentinelizeNoPercent([d] + t);
    assert Sentinelize(m) == [m[0]] + Sentinelize(m[1..]);
  }

  lemma PlaceholderDigitMax(d: char, t: string)
    requires '%' !in t && IsArgDigit(d)
    ensures FirstDigitMax("%" + [d] + t) == DigitValue(d)
  {
    var m := "%" + [d] + t;
    assert m[0] == '%' && m[1] == d && m[2..] == t;
    LiteralsOnly(t);
  }

  lemma PlaceholderTokens(p: string, d: char, x: string, q: string)
    requires '%' !in p && '%' !in q
    requires IsArgDigit(d) && (x == "" || x == "s" || x == "r")
    requires x == "" && |q| > 0 ==> !IsArgDigit(q[0]) && !IsSuffix(q[0])
    ensures Tokenize(p + "%" + [d] + x + q)
      == Lits(p) + ([Arg([d], if x == "" then None else Some(x[0]))] + Lits(q))
  {
    var m := "%" + [d] + x + q;
    assert p + "%" + [d] + x + q == p + m;
    TokenizeLiteralPrefix(p, m);
    LexPlaceholder(d, x, q);
    TokenizeStep(m);
    assert m[2 + |x|..] == q;
    LiteralsOnly(q);
    assert Tokenize(q) == Lits(q);
  }

  lemma PlaceholderOutput(p: string, arg: Token, q: string, args: seq<string>)
    requires Sentinel !in p && Sentinel !in q && (arg.Arg? ==> NumberDigits(arg.digits))
    ensures Restore(RenderTokens(Lits(p) + ([arg] + Lits(q)), args)) == p + Restore(TokenOutput(arg, args)) + q
  {
    RenderTokensAppend(Lits(p), [arg] + Lits(q), args);
    RenderTokensAppend([arg], Lits(q), args);
    RenderLits(p, args);
    RenderLits(q, args);
    assert [arg][1..] == [];
    var a := TokenOutput(arg, args);
    assert RenderTokens([arg], args) == a;
    RestoreAppend(p, a + q);
    RestoreAppend(a, q);
    RestoreClean(p);
    RestoreClean(q);
  }

  /** In particular, an argument without the sentinel character is
      inserted exactly: raw for `%Nr`, JSON-quoted otherwise. */
  lemma RenderOneClean(p: string, d: char, x: string, q: string, args: seq<string>)
    requires '%' !in p && Sentinel !in p && '%' !in q && Sentinel !in q
    requires IsArgDigit(d) && (x == "" || x == "s" || x == "r")
    requires x == "" && |q| > 0 ==> !IsArgDigit(q[0]) && !IsSuffix(q[0])
    requires |args| == DigitValue(d) && Sentinel !in args[DigitValue(d) - 1]
    ensures var a := args[DigitValue(d) - 1];
      Render(p + "%" + [d] + x + q, args) == Ok(p + (if x == "r" then a else Quote(a)) + q)
  {
    var a := args[DigitValue(d) - 1];
    RenderOne(p, d, x, q, args);
    EscapeClean(a);
    assert Quote(a) == "\"" + Escape(a) + "\"";
    RestoreClean(if x == "r" then a else Quote(a));
  }

  /** The literal tokens of a text. */
  function Lits(s: string): (ts: seq<Token>)
    ensures |ts| == |s| && ArgsWellFormed(ts)
  {
    seq(|s|, i requires 0 <= i < |s| => Lit(s[i]))
  }

  lemma RenderLits(s: string, args: seq<string>)
    ensures RenderTokens(Lits(s), args) == s
  {
    RenderLiterals(Lits(s), args);
  }

  lemma {:induction false} RenderTokensAppend(a: seq<Token>, b: seq<Token>, args: seq<string>)
    requires ArgsWellFormed(a) && ArgsWellFormed(b)
    ensures ArgsWellFormed(a + b)
    ensures RenderTokens(a + b, args) == RenderTokens(a, args) + RenderTokens(b, args)
    decreases |a|
  {
    if |a| == 0 {
      assert a + b == b;
    } else {
      assert (a + b)[0] == a[0] && (a + b)[1..] == a[1..] + b;
      RenderTokensAppend(a[1..], b, args);
    }
  }

  /** Text without `%` tokenises to its literals, whatever follows. */
  lemma {:induction false} TokenizeLiteralPrefix(p: string, rest: string)
    requires '%' !in p
    ensures Tokenize(p + rest) == Lits(p) + Tokenize(rest)
    decreases |p|
  {
    if |p| == 0 {
      assert p + rest == rest;
    } else {
      var s := p + rest;
      assert s[0] == p[0] && s[1..] == p[1..] + rest;
      TokenizeStep(s);
      TokenizeLiteralPrefix(p[1..], rest);
      assert Lits(p) == [Lit(p[0])] + Lits(p[1..]);
    }
  }

  lemma {:induction false} SentinelizeLiteralPrefix(p: string, rest: string)
    requires '%' !in p
    ensures Sentinelize(p + rest) == p + Sentinelize(rest)
    decreases |p|
  {
    if |p| == 0 {
      assert p + rest == rest;
    } else {
      var s := p + rest;
      assert s[0] == p[0] && s[1..] == p[1..] + rest;
      SentinelizeLiteralPrefix(p[1..], rest);
      assert p == [p[0]] + p[1..];
    }
  }

  /** A single-digit placeholder and its optional suffix at the head. */
  lemma LexPlaceholder(d: char, x: string, q: string)
    requires IsArgDigit(d) && (x == "" || x == "s" || x == "r")
    requires x == "" && |q| > 0 ==> !IsArgDigit(q[0]) && !IsSuffix(q[0])
    ensures Lex("%" + [d] + x + q) == (Arg([d], if x == "" then None else Some(x[0])), 2 + |x|)
  {
    var t := x + q;
    assert ArgRun(t) == 0 by {
      if |t| > 0 {
        assert t[0] == if x == "" then q[0] else x[0];
      }
    }
    var u := [d] + t;
    assert u[0] == d && u[1..] == t;
    assert ArgRun(u) == 1;
    var s := "%" + u;
    assert s == "%" + [d] + x + q;
    assert s[1..] == u && s[1] == d;
    assert s[1..2] == [d];
    if x == "" {
      if |q| > 0 {
        assert s[2] == q[0];
      } else {
        assert |s| == 2;
      }
    } else {
      assert s[2] == x[0];
    }
  }

  lemma RestoreAppend(a: string, b: string)
    ensures Restore(a + b) == Restore(a) + Restore(b)
  {
  }

  lemma RestoreClean(s: string)
    requires Sentinel !in s
    ensures Restore(s) == s
  {
  }

  /** JSON escaping introduces no sentinel character. */
  lemma {:induction false} EscapeClean(s: string)
    requires Sentinel !in s
    ensures Sentinel !in Escape(s)
    decreases |s|
  {
    if |s| > 0 {
      EscapeClean(s[1..]);
      var c := s[0];
      if c < ' ' {
        assert forall i :: 0 <= i < |HexDigits| ==> HexDigits[i] != Sentinel;
      }
      assert Sentinel !in EscapeChar(c);
    }
  }

  /** `n_args` reads only the first digit of each placeholder, so it never
      exceeds `n_args_in_query`, and the two agree when every placeholder
      number is a single digit. */
  lemma {:induction false} NArgsAtMostMax(s: string)
    ensures FirstDigitMax(s) <= MaxArg(Tokenize(s))
    decreases |s|
  {
    if |s| > 0 {
      var (t, n) := Lex(s);
      FirstDigitStep(s);
      TokenizeStep(s);
      NArgsAtMostMax(s[n..]);
      if t.Arg? {
        DecimalAtLeastFirst(t.digits);
      }
    }
  }

  /** When every placeholder number is one digit, the two counts agree. */
  lemma {:induction false} NArgsSingleDigits(s: string)
    requires SingleDigits(Tokenize(s))
    ensures FirstDigitMax(s) == MaxArg(Tokenize(s))
    decreases |s|
  {
    if |s| > 0 {
      var (t, n) := Lex(s);
      FirstDigitStep(s);
      TokenizeStep(s);
      var ts := Tokenize(s);
      var after := Tokenize(s[n..]);
      assert SingleDigits(after) by {
        forall i | 0 <= i < |after| && after[i].Arg?
          ensures |after[i].digits| == 1
        {
          assert after[i] == ts[i + 1];
        }
      }
      NArgsSingleDigits(s[n..]);
      if t.Arg? {
        assert |ts[0].digits| == 1;
        assert t.digits[..0] == [];
        assert DecimalValue(t.digits) == DigitValue(s[1]);
        assert ts[1..] == after;
      }
    }
  }

  /** `FirstDigitMax` takes the token at the head as `Tokenize` does: a
      match contributes its first digit, anything else nothing. */
  lemma FirstDigitStep(s: string)
    requires |s| > 0
    ensures var (t, n) := Lex(s);
      && (t.Arg? ==> t.digits[0] == s[1] && FirstDigitMax(s) == if DigitValue(s[1]) > FirstDigitMax(s[n..]) then DigitValue(s[1]) else FirstDigitMax(s[n..]))
      && (t.Lit? ==> FirstDigitMax(s) == FirstDigitMax(s[n..]))
  {
    var (t, n) := Lex(s);
    LexShape(s);
    if t.Arg? {
      SkipNonPercent(s[2..], n - 2);
      assert s[2..][n - 2..] == s[n..];
    }
  }

  /** Every placeholder number is one digit long. */
  predicate SingleDigits(ts: seq<Token>) {
    forall i :: 0 <= i < |ts| && ts[i].Arg? ==> |ts[i].digits| == 1
  }

  /** `FirstDigitMax` passes over characters that are not `%`. */
  lemma {:induction false} SkipNonPercent(s: string, k: nat)
    requires k <= |s| && forall i :: 0 <= i < k ==> s[i] != '%'
    ensures FirstDigitMax(s) == FirstDigitMax(s[k..])
    decreases k
  {
    if k > 0 {
      SkipNonPercent(s[1..], k - 1);
      assert s[1..][k - 1..] == s[k..];
    }
  }

  /** A placeholder number is at least its first digit, and at least 10
      when it has two digits or more. */
  lemma {:induction false} DecimalAtLeastFirst(d: string)
    requires NumberDigits(d)
    ensures DecimalValue(d) >= DigitValue(d[0])
    ensures |d| > 1 ==> DecimalValue(d) >= 10
    decreases |d|
  {
    if |d| > 1 {
      var front := d[..|d| - 1];
      DecimalAtLeastFirst(front);
      DecimalAtLeastOne(front);
    }
  }

  /** `%10` is placeholder 1 followed by a literal `0`, because the digit
      class is `[1-9]`. */
  lemma {:induction false} TenReadsAsOne()
    ensures NArgsInQuery("%10") == 1
  {
    assert "%10"[1..] == "10" && "10"[1..] == "0" && "0"[1..] == "";
    assert ArgRun("0") == 0;
    assert ArgRun("10") == 1;
    assert "%10"[1..2] == "1" && "%10"[2..] == "0";
    assert Lex("%10") == (Arg("1", None), 2);
    TokenizeStep("%10");
    TokenizeStep("0");
    assert Tokenize("%10") == [Arg("1", None), Lit('0')];
    assert DecimalValue("1") == 1 by {
      assert "1"[..0] == "";
    }
    assert MaxArg([Lit('0')]) == 0;
  }

  /** Shifting `%5` by 5 writes `%10`, which then reads back as
      placeholder 1 (`TenReadsAsOne`). */
  lemma {:induction false} ShiftPastNine()
    ensures ShiftQueryArgs("%5", 5) == "%10"
  {
    assert "%5"[1..] == "5" && "5"[1..] == "" && "%5"[1..2] == "5" && "%5"[2..] == "";
    assert ArgRun("5") == 1;
    assert Lex("%5") == (Arg("5", None), 2);
    TokenizeStep("%5");
    assert Tokenize("%5") == [Arg("5", None)];
    assert DecimalValue("5") == 5 by {
      assert "5"[..0] == "";
    }
    assert NatToString(10) == "10" by {
      assert NatToString(1) == "1";
      assert NatToString(0) == "0";
    }
    assert ShiftTokens([Arg("5", None)], 5) == [Arg("10", None)];
  }

  /** An escaped `%` right before a placeholder stays a `%`. */
  lemma {:induction false} EscapeBeforeArg()
    ensures Render("%%%1", ["a"]) == Ok("%\"a\"")
  {
    var t := [Sentinel] + "%1";
    SentinelizeEscapedArg();
    TokenizeEscapedArg();
    var out := [Sentinel] + "\"a\"";
    RenderEscapedArg();
    RestoreEscapedArg();
    assert Render("%%%1", ["a"]) == Ok(Restore(out));
  }

  lemma RestoreEscapedArg()
    ensures Restore([Sentinel] + "\"a\"") == "%\"a\""
  {
    var out := [Sentinel] + "\"a\"";
    assert out == [Sentinel, '"', 'a', '"'];
  }

  lemma SentinelizeEscapedArg()
    ensures Sentinelize("%%%1") == [Sentinel] + "%1"
    ensures FirstDigitMax([Sentinel] + "%1") == 1
  {
    var s := "%%%1";
    assert s[2..] == "%1" && "%1"[2..] == "" && "%1"[1..] == "1" && "1"[1..] == "";
    assert Sentinelize("%1") == "%1" by {
      assert Sentinelize("1") == "1";
    }
    var t := [Sentinel] + "%1";
    assert t[1..] == "%1";
    assert FirstDigitMax("%1") == 1;
  }

  lemma RenderEscapedArg()
    ensures RenderTokens([Lit(Sentinel), Arg("1", None)], ["a"]) == [Sentinel] + "\"a\""
  {
    assert DecimalValue("1") == 1 by {
      assert "1"[..0] == "";
    }
    assert Escape("a") == "a";
    assert RenderTokens([Arg("1", None)], ["a"]) == "\"a\"";
    assert [Lit(Sentinel), Arg("1", None)][1..] == [Arg("1", None)];
  }

  lemma TokenizeEscapedArg()
    ensures Tokenize([Sentinel] + "%1") == [Lit(Sentinel), Arg("1", None)]
  {
    var t := [Sentinel] + "%1";
    assert t[1..] == "%1" && "%1"[2..] == "" && "%1"[1..] == "1" && "1"[1..] == "" && "%1"[1..2] == "1";
    assert ArgRun("1") == 1;
    assert Lex("%1") == (Arg("1", None), 2);
    TokenizeStep("%1");
    TokenizeStep(t);
  }

  /** `%%1` is the literal text `%1`, not a placeholder. */
  lemma {:induction false} EscapedArg()
    ensures Render("%%1", []) == Ok("%1")
  {
    var u := "%%1";
    assert u[2..] == "1" && "1"[1..] == "";
    var v := [Sentinel] + "1";
    assert Sentinelize(u) == v;
    assert v[1..] == "1";
    assert FirstDigitMax(v) == 0;
    assert Tokenize(v) == [Lit(Sentinel), Lit('1')] by {
      TokenizeStep(v);
      TokenizeStep("1");
    }
    assert RenderTokens(Tokenize(v), []) == [Sentinel] + "1" by {
      assert RenderTokens([Lit('1')], []) == "1";
    }
    assert Restore(v) == "%1";
  }

  /** `n_args` counts `%12` as needing one argument while
      `n_args_in_query` reads it as twelve. */
  lemma {:induction false} TwoCounters()
    ensures NArgs("%12") == 1
    ensures NArgsInQuery("%12") == 12
  {
    assert "%12"[1..] == "12" && "12"[1..] == "2" && "2"[1..] == "" && "%12"[2..] == "2" && "%12"[3..] == "";
    assert "%12"[1..3] == "12";
    assert Sentinelize("2") == "2";
    assert Sentinelize("12") == "12";
    assert Sentinelize("%12") == "%12";
    assert FirstDigitMax("2") == 0;
    assert FirstDigitMax("%12") == 1;
    assert ArgRun("2") == 1;
    assert ArgRun("12") == 2;
    assert Lex("%12") == (Arg("12", None), 3);
    TokenizeStep("%12");
    assert Tokenize("%12") == [Arg("12", None)];
    assert DecimalValue("12") == 12 by {
      assert "12"[..1] == "1" && "1"[..0] == "";
    }
  }
}

=== FILE: markdown_builder.dfy ===
/** The Markdown builder of lib/jir/adf/markdown_builder.rb: a state
    machine driven by the walker's hook calls. Its state is the output
    text (append-only), the stack of open list kinds, the pending text
    prefix (`nil` or a string) and, in place of lines written to
    `$stderr`, the warnings emitted so far. */
module MarkdownBuilder {
  import opened Wrappers
  import opened Values
  import opened AdfNode
  import opened RubyText
  import W = Walker
  import SeqFacts

  datatype ListKind = Ordered | Bullet

  /** `warn_unknown(what, type)`; `what` is one of mark, node, inline,
      inline_extension. */
  datatype Warning = Warning(what: string, typeName: string)

  function Message(w: Warning): string {
    "WARNING: unsupported " + w.what + " type " + w.typeName
  }

  datatype Builder = Builder(
    result: string,
    lists: seq<ListKind>,
    textPrefixes: Option<string>,
    warnings: seq<Warning>)

  /** `initialize`: empty output, no open lists, no pending prefix. */
  function Init(): (b: Builder)
    ensures b.result == "" && b.lists == [] && b.textPrefixes.None? && b.warnings == []
  {
    Builder("", [], None, [])
  }

  /** The builder `b2` only extended `b1`: output and warnings grew at the end. */
  predicate Extends(b1: Builder, b2: Builder) {
    b1.result <= b2.result && b1.warnings <= b2.warnings
  }

  /** `concat(str)`: append, and ignore `nil`. */
  function Concat(b: Builder, str: Option<string>): (r: Builder)
    ensures str.None? ==> r == b
    ensures str.Some? ==> r.result == b.result + str.value
    ensures r.lists == b.lists && r.textPrefixes == b.textPrefixes && r.warnings == b.warnings
  {
    match str
    case None => b
    case Some(s) => b.(result := b.result + s)
  }

  function Append(b: Builder, s: string): (r: Builder)
    ensures r == Concat(b, Some(s))
  {
    b.(result := b.result + s)
  }

  function WarnUnknown(b: Builder, what: string, typeName: string): (r: Builder)
    ensures r.warnings == b.warnings + [Warning(what, typeName)]
    ensures r.result == b.result && r.lists == b.lists && r.textPrefixes == b.textPrefixes
  {
    b.(warnings := b.warnings + [Warning(what, typeName)])
  }

  /** `add_text_prefix`: prefixes accumulate until the next text leaf. */
  function AddTextPrefix(b: Builder, prefix: string): (r: Builder)
    ensures r.textPrefixes == Some(b.textPrefixes.GetOr("") + prefix)
    ensures r.result == b.result && r.lists == b.lists && r.warnings == b.warnings
  {
    b.(textPrefixes := Some(b.textPrefixes.GetOr("") + prefix))
  }

  /** `concat_text_prefixes`: emit the pending prefix once and forget it. */
  function ConcatTextPrefixes(b: Builder): (r: Builder)
    ensures r.textPrefixes.None?
    ensures r.result == b.result + b.textPrefixes.GetOr("")
    ensures r.lists == b.lists && r.warnings == b.warnings
  {
    match b.textPrefixes
    case None => b
    case Some(p) => Append(b, p).(textPrefixes := None)
  }

  function OpenMark(b: Builder, m: Mark): (r: Builder)
    ensures Extends(b, r) && r.lists == b.lists && r.textPrefixes == b.textPrefixes
    ensures m.Other? <==> r.warnings == b.warnings + [Warning("mark", MarkType(m))]
    ensures m.Other? ==> r.result == b.result
    ensures !m.Other? ==> r.warnings == b.warnings
  {
    match m
    case Link(_) => Append(b, "[")
    case Em => Append(b, " _")
    case Underline => Append(b, " _")
    case Strong => Append(b, " **")
    case Strike => Append(b, " ~~")
    case Code => Append(b, "`")
    case Other(t) => WarnUnknown(b, "mark", t)
  }

  function CloseMark(b: Builder, m: Mark): (r: Builder)
    ensures Extends(b, r) && r.lists == b.lists && r.textPrefixes == b.textPrefixes
    ensures m.Other? <==> r.warnings == b.warnings + [Warning("mark", MarkType(m))]
    ensures m.Other? ==> r.result == b.result
    ensures !m.Other? ==> r.warnings == b.warnings
  {
    match m
    case Link(href) => Append(b, "](" + href.GetOr("") + ")")
    case Em => Append(b, "_")
    case Underline => Append(b, "_")
    case Strong => Append(b, "**")
    case Strike => Append(b, "~~")
    case Code => Append(b, "`")
    case Other(t) => WarnUnknown(b, "mark", t)
  }

  /** The node types `open_node` and `close_node` handle. */
  const KnownBlockTypes: set<string> :=
    {"heading", "doc", "codeBlock", "blockquote", "orderedList", "bulletList", "listItem", "panel", "paragraph"}

  /** The icon a panel of the given `panelType` adds to the pending prefix. */
  function PanelIcon(panelType: Option<string>): Option<string> {
    match panelType
    case Some("info") => Some("\U{2139}\U{FE0F}  ")
    case Some("warning") => Some("\U{26A0}\U{FE0F}  ")
    case Some("success") => Some("\U{1F64C} ")
    case Some("error") => Some("\U{26D4} ")
    case _ => None
  }

  /** The marker a list item starts with, given the open lists. */
  function ItemMarker(lists: seq<ListKind>): (s: string)
    ensures |s| == |lists| + (if |lists| > 0 && lists[|lists| - 1] == Ordered then 3 else 2)
  {
    Repeat('\t', |lists|) + (if |lists| > 0 && lists[|lists| - 1] == Ordered then "1. " else "* ")
  }

  function OpenNode(b: Builder, n: Node): (r: Builder)
    ensures Extends(b, r)
    ensures n.nodeType !in KnownBlockTypes <==> r.warnings == b.warnings + [Warning("node", n.nodeType)]
    ensures n.nodeType !in KnownBlockTypes ==> r.result == b.result && r.lists == b.lists
    ensures n.nodeType in KnownBlockTypes ==> r.warnings == b.warnings
    ensures r.lists == (if n.nodeType == "orderedList" then b.lists + [Ordered]
                        else if n.nodeType == "bulletList" then b.lists + [Bullet]
                        else b.lists)
    ensures n.nodeType != "panel" ==> r.textPrefixes == b.textPrefixes
    ensures n.nodeType in {"doc", "paragraph", "orderedList", "bulletList"} ==> r.result == b.result
    ensures n.nodeType == "heading" ==> r.result == b.result + "# "
    ensures n.nodeType == "codeBlock" ==> r.result == b.result + "```\n"
    ensures n.nodeType == "blockquote" ==> r.result == b.result + "> "
    ensures n.nodeType == "listItem" ==> r.result == b.result + ItemMarker(b.lists)
    ensures n.nodeType == "panel" ==>
      (r.result == b.result + "---\n"
       && r.textPrefixes == (if PanelIcon(Attr(n, ["panelType"])).Some?
                             then Some(b.textPrefixes.GetOr("") + PanelIcon(Attr(n, ["panelType"])).value)
                             else b.textPrefixes))
  {
    match n.nodeType
    case "heading" => Append(b, "# ")
    case "doc" => b
    case "codeBlock" => Append(b, "```\n")
    case "blockquote" => Append(b, "> ")
    case "orderedList" => b.(lists := b.lists + [Ordered])
    case "bulletList" => b.(lists := b.lists + [Bullet])
    case "listItem" => Append(b, ItemMarker(b.lists))
    case "panel" =>
      var b1 := Append(b, "---\n");
      (match PanelIcon(Attr(n, ["panelType"]))
       case None => b1
       case Some(icon) => AddTextPrefix(b1, icon))
    case "paragraph" => b
    case _ => WarnUnknown(b, "node", n.nodeType)
  }

  function CloseNode(b: Builder, n: Node): (r: Builder)
    ensures Extends(b, r) && r.textPrefixes == b.textPrefixes
    ensures n.nodeType !in KnownBlockTypes <==> r.warnings == b.warnings + [Warning("node", n.nodeType)]
    ensures n.nodeType !in KnownBlockTypes ==> r.result == b.result
    ensures n.nodeType in KnownBlockTypes ==> r.warnings == b.warnings
    ensures r.lists == (if n.nodeType in {"orderedList", "bulletList"} && |b.lists| > 0
                        then b.lists[..|b.lists| - 1] else b.lists)
    ensures n.nodeType in {"doc", "listItem", "orderedList", "bulletList"} ==> r.result == b.result
    ensures n.nodeType in {"heading", "blockquote"} ==> r.result == b.result + "\n"
    ensures n.nodeType == "codeBlock" ==> r.result == b.result + "\n```\n"
    ensures n.nodeType == "panel" ==> r.result == b.result + "---\n"
    ensures n.nodeType == "paragraph" ==> r.result == b.result + (if b.lists == [] then "\n\n" else "\n")
  {
    match n.nodeType
    case "heading" => Append(b, "\n")
    case "codeBlock" => Append(b, "\n```\n")
    case "blockquote" => Append(b, "\n")
    case "bulletList" => PopList(b)
    case "orderedList" => PopList(b)
    case "doc" => b
    case "listItem" => b
    case "panel" => Append(b, "---\n")
    case "paragraph" => Append(b, if |b.lists| == 0 then "\n\n" else "\n")
    case _ => WarnUnknown(b, "node", n.nodeType)
  }

  /** `@lists.pop`, which does nothing on an empty stack. */
  function PopList(b: Builder): (r: Builder)
    ensures r.lists == if |b.lists| > 0 then b.lists[..|b.lists| - 1] else b.lists
    ensures r.result == b.result && r.textPrefixes == b.textPrefixes && r.warnings == b.warnings
  {
    if |b.lists| > 0 then b.(lists := b.lists[..|b.lists| - 1]) else b
  }

  const MacroExtensionType := "com.atlassian.confluence.macro.core"
  const PasteCodeMacro := "paste-code-macro"

  /** `"#{type}/#{key}"`, where `nil` interpolates as nothing. */
  function ExtensionName(extType: Option<string>, extKey: Option<string>): string {
    extType.GetOr("") + "/" + extKey.GetOr("")
  }

  /** Whether the extension node is Confluence's paste-code macro. */
  predicate IsPasteCode(n: Node) {
    Attr(n, ["extensionType"]) == Some(MacroExtensionType) && Attr(n, ["extensionKey"]) == Some(PasteCodeMacro)
  }

  /** The code a paste-code macro carries, when present. */
  function PasteCodeBody(n: Node): Option<string> {
    Attr(n, ["parameters", "macroParams", "__bodyContent", "value"])
  }

  /** The language a paste-code macro names; `nil` interpolates as nothing. */
  function PasteCodeLanguage(n: Node): string {
    Attr(n, ["parameters", "language"]).GetOr("")
  }

  function InlineExtension(b: Builder, n: Node): (r: Builder)
    ensures Extends(b, r) && r.lists == b.lists && r.textPrefixes == b.textPrefixes
    ensures r.warnings == b.warnings || (|r.warnings| == |b.warnings| + 1 && r.warnings[|b.warnings|].what == "inline_extension")
    ensures r.result != b.result <==> r.warnings == b.warnings
    ensures r.warnings == b.warnings <==> IsPasteCode(n) && PasteCodeBody(n).Some?
    ensures r.warnings == b.warnings ==>
      r.result == b.result + ("\n```" + PasteCodeLanguage(n) + "\n" + PasteCodeBody(n).value + "\n```\n\n")
  {
    if IsPasteCode(n) then
      match PasteCodeBody(n)
      case Some(body) =>
        Append(b, "\n```" + PasteCodeLanguage(n) + "\n" + body + "\n```\n\n")
      case None => WarnUnknown(b, "inline_extension", "paste-code-macro without _bodyContent.value")
    else
      WarnUnknown(b, "inline_extension", ExtensionName(Attr(n, ["extensionType"]), Attr(n, ["extensionKey"])))
  }

  /** The leaf types `inline` handles besides `extension`. */
  const KnownInlineTypes: set<string> := {"emoji", "text", "hardBreak", "inlineCard", "mention"}

  function Inline(b: Builder, n: Node): (r: Builder)
    ensures Extends(b, r) && r.lists == b.lists
    ensures n.nodeType != "text" ==> r.textPrefixes == b.textPrefixes
    ensures n.nodeType == "text" ==> r.textPrefixes.None?
    ensures n.nodeType !in KnownInlineTypes + {"extension"} <==> r.warnings == b.warnings + [Warning("inline", n.nodeType)]
    ensures n.nodeType in KnownInlineTypes ==> r.warnings == b.warnings
    ensures n.nodeType !in KnownInlineTypes + {"extension"} ==> r.result == b.result
    ensures n.nodeType == "emoji" ==> r.result == b.result + n.text.GetOr("")
    ensures n.nodeType == "text" ==> r.result == b.result + b.textPrefixes.GetOr("") + n.text.GetOr("")
    ensures n.nodeType == "hardBreak" ==> r.result == b.result + "\n\n"
    ensures n.nodeType == "inlineCard" ==> r.result == b.result + " \U{1F4CD} " + Attr(n, ["url"]).GetOr("")
    ensures n.nodeType == "mention" ==> r.result == b.result + "**" + Attr(n, ["text"]).GetOr("") + "**"
    ensures n.nodeType == "extension" ==> r == InlineExtension(b, n)
  {
    if n.nodeType == "extension" then InlineExtension(b, n)
    else
      match n.nodeType
      case "emoji" => Concat(b, n.text)
      case "text" => Concat(ConcatTextPrefixes(b), n.text)
      case "hardBreak" => Append(b, "\n\n")
      case "inlineCard" => Concat(Append(b, " \U{1F4CD} "), Attr(n, ["url"]))
      case "mention" => Append(Concat(Append(b, "**"), Attr(n, ["text"])), "**")
      case _ => WarnUnknown(b, "inline", n.nodeType)
  }

  /** Dispatches one hook call of the walker. */
  function Step(b: Builder, e: W.Event): (r: Builder)
    ensures Extends(b, r)
  {
    match e
    case OpenNode(n) => OpenNode(b, n)
    case OpenMark(m) => OpenMark(b, m)
    case Inline(n) => Inline(b, n)
    case CloseMark(m) => CloseMark(b, m)
    case CloseNode(n) => CloseNode(b, n)
  }

  // ---- Properties of whole walks ----

  /** Every sequence of hook calls only appends to the output and the warnings. */
  lemma {:induction false} RunExtends(b: Builder, es: seq<W.Event>)
    ensures Extends(b, W.Run(Step, b, es))
    decreases |es|
  {
    if |es| > 0 {
      RunExtends(Step(b, es[0]), es[1..]);
    }
  }

  lemma {:induction false} MarksKeepLists(b: Builder, ms: seq<Mark>)
    ensures W.Run(Step, b, W.MarkOpens(ms)).lists == b.lists
    ensures W.Run(Step, b, W.MarkCloses(ms)).lists == b.lists
    decreases |ms|
  {
    if |ms| > 0 {
      MarksKeepLists(OpenMark(b, ms[0]), ms[1..]);
      MarksKeepLists(CloseMark(b, ms[0]), ms[1..]);
    }
  }

  /** Walking any subtree leaves the stack of open lists as it found it:
      each list pushes on open and pops its own entry on close. */
  lemma {:induction false} ListsBalanced(b: Builder, n: Node)
    ensures W.Run(Step, b, W.Events(n)).lists == b.lists
    decreases n, 1
  {
    match n.content
    case Absent =>
      W.RunLeaf(Step, b, n);
      MarksKeepLists(b, n.marks);
      MarksKeepLists(Step(W.Run(Step, b, W.MarkOpens(n.marks)), W.Inline(n)), n.marks);
    case Children(cs) =>
      var b0 := Step(b, W.OpenNode(n));
      var b1 := W.Run(Step, b0, W.MarkOpens(n.marks));
      var b2 := W.Run(Step, b1, W.ChildEvents(cs));
      var b3 := W.Run(Step, b2, W.MarkCloses(n.marks));
      W.RunContainerVia(Step, b, n, b0, b1, b2, b3);
      MarksKeepLists(b0, n.marks);
      ChildListsBalanced(b1, cs);
      MarksKeepLists(b2, n.marks);
      NodeKeepsLists(b, n, b3);
  }

  /** Closing a node undoes what opening it did to the stack of lists. */
  lemma NodeKeepsLists(b: Builder, n: Node, b3: Builder)
    requires b3.lists == Step(b, W.OpenNode(n)).lists
    ensures Step(b3, W.CloseNode(n)).lists == b.lists
  {
    if n.nodeType in {"orderedList", "bulletList"} {
      var b0 := Step(b, W.OpenNode(n));
      assert b0.lists[..|b0.lists| - 1] == b.lists;
    }
  }

  lemma {:induction false} ChildListsBalanced(b: Builder, cs: seq<Node>)
    ensures W.Run(Step, b, W.ChildEvents(cs)).lists == b.lists
    decreases cs, 0
  {
    if |cs| > 0 {
      ListsBalanced(b, cs[0]);
      ChildListsBalanced(W.Run(Step, b, W.Events(cs[0])), cs[1..]);
      W.RunAppend(Step, b, W.Events(cs[0]), W.ChildEvents(cs[1..]));
    }
  }

  /** A `text` leaf emits the pending prefix (once) and then its text;
      an `emoji` leaf emits its text and leaves the prefix pending. */
  lemma TextFlushesPrefix(b: Builder, n: Node)
    requires n.nodeType in {"text", "emoji"}
    ensures n.nodeType == "text" ==>
      Inline(b, n).result == b.result + b.textPrefixes.GetOr("") + n.text.GetOr("")
      && Inline(b, n).textPrefixes.None?
    ensures n.nodeType == "emoji" ==>
      Inline(b, n).result == b.result + n.text.GetOr("") && Inline(b, n).textPrefixes == b.textPrefixes
  {
  }

  /** A text leaf carrying one mark comes out between that mark's two
      delimiters; an unknown mark adds nothing but two warnings. */
  lemma MarkWrapsText(b: Builder, m: Mark, t: string)
    requires b.textPrefixes.None?
    ensures var r := W.Run(Step, b, W.Events(Node("text", Null, Absent, [m], Some(t))));
      && (m.Link? ==> r.result == b.result + "[" + t + "](" + m.href.GetOr("") + ")")
      && (m == Em || m == Underline ==> r.result == b.result + " _" + t + "_")
      && (m == Strong ==> r.result == b.result + " **" + t + "**")
      && (m == Strike ==> r.result == b.result + " ~~" + t + "~~")
      && (m == Code ==> r.result == b.result + "`" + t + "`")
      && (m.Other? ==> r.result == b.result + t && r.warnings == b.warnings + [Warning("mark", m.markType), Warning("mark", m.markType)])
  {
    var b1, r := OneMarkLeaf(b, m, t);
    if m.Link? {
      SeqFacts.Flatten(b.result + "[" + t, "](", m.href.GetOr(""), ")");
    }
  }

  /** With no prefix pending, a text leaf writes exactly its text. */
  lemma InlinePlainText(b: Builder, n: Node)
    requires n.nodeType == "text" && n.text.Some? && b.textPrefixes.None?
    ensures Inline(b, n) == b.(result := b.result + n.text.value)
  {
  }

  /** The run of a one-mark text leaf: open the mark, emit the text, close it. */
  lemma OneMarkLeaf(b: Builder, m: Mark, t: string) returns (b1: Builder, r: Builder)
    requires b.textPrefixes.None?
    ensures b1 == OpenMark(b, m)
    ensures r == W.Run(Step, b, W.Events(Node("text", Null, Absent, [m], Some(t))))
    ensures r == CloseMark(b1.(result := b1.result + t), m)
  {
    var n := Node("text", Null, Absent, [m], Some(t));
    W.RunLeaf(Step, b, n);
    b1 := OpenMark(b, m);
    assert W.MarkOpens([m]) == [W.OpenMark(m)];
    W.RunOne(Step, b, W.OpenMark(m));
    var b2 := Inline(b1, n);
    InlinePlainText(b1, n);
    assert W.MarkCloses([m]) == [W.CloseMark(m)];
    W.RunOne(Step, b2, W.CloseMark(m));
    r := CloseMark(b2, m);
  }
}

=== FILE: parser_properties.dfy ===
/** What `DocumentParser#parse` (lib/jir/adf/text_to_adf.rb) promises about
    the document it builds, line by line and over whole texts. */
module ParserProperties {
  import opened Wrappers
  import opened Values
  import opened RubyText
  import opened SeqFacts
  import opened TextToAdf
  import opened DocumentParser

  // ---- Blank lines ----

  /** Outside a code block a blank line changes nothing: it neither ends
      a list nor adds a node. */
  lemma {:induction false} BlankLineIgnored(s: State, line: string)
    requires Valid(s) && s.code.None? && AllSpace(line)
    ensures Step(s, line) == s
  {
    var l := Chomp(line);
    assert AllSpace(l) by {
      forall i | 0 <= i < |l|
        ensures IsStripSpace(l[i])
      {
        assert l[i] == line[i];
      }
    }
  }

  lemma {:induction false} AllSpaceLines(ls: seq<string>)
    requires AllSpace(Concat(ls))
    ensures forall i :: 0 <= i < |ls| ==> AllSpace(ls[i])
    decreases |ls|
  {
    if |ls| > 0 {
      var init := ls[..|ls| - 1];
      var c := Concat(ls);
      assert c == Concat(init) + ls[|ls| - 1];
      assert AllSpace(Concat(init)) by {
        forall i | 0 <= i < |Concat(init)|
          ensures IsStripSpace(Concat(init)[i])
        {
          assert Concat(init)[i] == c[i];
        }
      }
      AllSpaceLines(init);
      forall i | 0 <= i < |ls|
        ensures AllSpace(ls[i])
      {
        if i < |ls| - 1 {
          assert ls[i] == init[i];
        } else {
          forall j | 0 <= j < |ls[i]|
            ensures IsStripSpace(ls[i][j])
          {
            assert ls[i][j] == c[|Concat(init)| + j];
          }
        }
      }
    }
  }

  lemma {:induction false} BlankLinesIgnored(s: State, ls: seq<string>)
    requires Valid(s) && s.code.None?
    requires forall i :: 0 <= i < |ls| ==> AllSpace(ls[i])
    ensures ParseLines(s, ls) == s
    decreases |ls|
  {
    if |ls| > 0 {
      BlankLineIgnored(s, ls[0]);
      BlankLinesIgnored(s, ls[1..]);
    }
  }

  /** A text of nothing but whitespace converts to an empty document. */
  lemma {:induction false} WhitespaceOnly(text: string)
    requires AllSpace(text)
    ensures ToAdf(text) == Dict([("type", Str("doc")), ("version", Int(1)), ("content", List([]))])
  {
    LinesConcat(text);
    AllSpaceLines(Lines(text));
    BlankLinesIgnored(Init(), Lines(text));
    assert Parse(text).root == Block(RootK, []);
  }

  // ---- Paragraphs and list continuations ----

  /** A text line that does not continue a list item becomes a new
      paragraph of the panel (or of the root when there is no panel),
      holding the stripped line, and ends every open list. */
  lemma {:induction false} TextLineEndsList(s: State, line: string)
    requires Valid(s) && s.code.None? && Classify(line).Text?
    requires |s.stack| == 0 || !Continues(Classify(line).l, Top(s).level)
    ensures var r := Step(s, line);
      && r.stack == [] && r.container == PanelDepth(s) && r.hasPanel == s.hasPanel
      && PanelDepth(s) < SpineLen(r.root)
      && At(r.root, PanelDepth(s)) == Block(At(s.root, PanelDepth(s)).kind,
           At(s.root, PanelDepth(s)).children + [Block(ParaK(Some(Strip(Chomp(line))), false), [])])
  {
    var l := Chomp(line);
    ItemIffStack(s);
    AppendAtGrows(s.root, PanelDepth(s), NewPara(Some(l), false));
  }

  /** Inside a list item, a line indented past the bullet, or starting
      exactly at the bullet's column, becomes another paragraph of that
      item; the lists stay open. */
  lemma {:induction false} TextLineContinuesItem(s: State, line: string)
    requires Valid(s) && s.code.None? && Classify(line).Text?
    requires |s.stack| > 0 && Continues(Classify(line).l, Top(s).level)
    ensures var r := Step(s, line);
      && r.stack == s.stack && r.container == s.container && r.hasPanel == s.hasPanel
      && s.container < SpineLen(r.root)
      && At(r.root, s.container) == Block(ListItemK,
           At(s.root, s.container).children + [Block(ParaK(Some(Strip(Chomp(line))), false), [])])
  {
    var l := Chomp(line);
    ItemIffStack(s);
    AppendAtGrows(s.root, s.container, NewPara(Some(l), false));
  }

  // ---- Panels ----

  /** A panel line appends a panel to the root, titled in bold with the
      text after the icon; `✅` makes a success panel and `ℹ️` an info
      panel. The panel becomes the container and every list ends. */
  lemma {:induction false} PanelLineAppends(s: State, line: string)
    requires Valid(s) && s.code.None? && Classify(line).PanelOpen?
    ensures var r := Step(s, line);
      var panelType := if SuccessIcon <= Chomp(line) then "success" else "info";
      && r.root.children == s.root.children + [NewPanel(panelType, Classify(line).title)]
      && r.hasPanel && r.stack == [] && r.container == 1
  {
  }

  /** `after` keeps every child of `before` up to its last one, and from
      that position on holds only panels. */
  predicate PanelsAfter(before: seq<Block>, after: seq<Block>) {
    && 0 < |before| <= |after|
    && after[..|before| - 1] == before[..|before| - 1]
    && forall i :: |before| - 1 <= i < |after| ==> after[i].kind.PanelK?
  }

  lemma {:induction false} PanelsAfterTrans(a: seq<Block>, b: seq<Block>, c: seq<Block>)
    requires PanelsAfter(a, b) && PanelsAfter(b, c)
    ensures PanelsAfter(a, c)
  {
    assert c[..|a| - 1] == c[..|b| - 1][..|a| - 1];
    assert b[..|a| - 1] == b[..|b| - 1][..|a| - 1];
    forall i | |a| - 1 <= i < |c|
      ensures c[i].kind.PanelK?
    {
      if i < |b| - 1 {
        assert c[i] == c[..|b| - 1][i] && b[i] == b[..|b| - 1][i];
      }
    }
  }

  lemma {:induction false} PanelsAfterRefl(a: seq<Block>)
    requires |a| > 0 && a[|a| - 1].kind.PanelK?
    ensures PanelsAfter(a, a)
  {
  }

  lemma {:induction false} PanelsAfterAppend(a: seq<Block>, x: Block)
    requires |a| > 0 && a[|a| - 1].kind.PanelK? && x.kind.PanelK?
    ensures PanelsAfter(a, a + [x])
  {
    assert (a + [x])[..|a| - 1] == a[..|a| - 1];
  }

  lemma {:induction false} PanelsAfterReplace(a: seq<Block>, b: seq<Block>)
    requires 0 < |a| == |b| && b[..|b| - 1] == a[..|a| - 1] && b[|b| - 1].kind.PanelK?
    ensures PanelsAfter(a, b)
  {
  }

  lemma {:induction false} LastIsAtOne(t: Block)
    requires 1 < SpineLen(t)
    ensures At(t, 1) == t.children[|t.children| - 1]
  {
  }

  /** Once a panel exists, the root's earlier children are never touched
      again and everything from the current panel on is a panel: later
      paragraphs, lists and code blocks all land inside panels. */
  lemma {:induction false} RootGrowsOnlyByPanels(s: State, line: string)
    requires Valid(s) && s.hasPanel
    ensures Step(s, line).hasPanel
    ensures PanelsAfter(s.root.children, Step(s, line).root.children)
  {
    HasPanelKept(s, line);
    if s.code.None? && Classify(line).PanelOpen? {
      PanelLineGrowsRoot(s, line);
    } else {
      OtherLineKeepsRoot(s, line);
    }
  }

  lemma {:induction false} PanelLineGrowsRoot(s: State, line: string)
    requires Valid(s) && s.hasPanel && s.code.None? && Classify(line).PanelOpen?
    ensures PanelsAfter(s.root.children, Step(s, line).root.children)
  {
    var r := Step(s, line);
    PanelLineAppends(s, line);
    LastIsAtOne(s.root);
    PanelsAfterAppend(s.root.children, r.root.children[|r.root.children| - 1]);
  }

  lemma {:induction false} OtherLineKeepsRoot(s: State, line: string)
    requires Valid(s) && s.hasPanel && !(s.code.None? && Classify(line).PanelOpen?)
    ensures PanelsAfter(s.root.children, Step(s, line).root.children)
  {
    var r := Step(s, line);
    HasPanelKept(s, line);
    LastIsAtOne(s.root);
    LastIsAtOne(r.root);
    DeepAppend(s, line);
    DeepKeepsPanels(s.root, r.root);
  }

  lemma {:induction false} DeepKeepsPanels(a: Block, b: Block)
    requires 0 < |a.children| && a.children[|a.children| - 1].kind.PanelK?
    requires 0 < |b.children| && b.children[|b.children| - 1].kind.PanelK?
    requires Deep(a, b) || b == a
    ensures PanelsAfter(a.children, b.children)
  {
    if b == a {
      PanelsAfterRefl(a.children);
    } else {
      PanelsAfterReplace(a.children, b.children);
    }
  }

  /** A panel, once opened, stays the current panel. */
  lemma {:induction false} HasPanelKept(s: State, line: string)
    requires Valid(s) && s.hasPanel
    ensures Step(s, line).hasPanel
  {
    if s.code.None? && Classify(line).Bullet? {
      StepBullet(s, line);
      var level := Classify(line).indent / IndentSpaces;
      var st := PopDeeper(s.stack, level);
      var item := Block(ListItemK, [NewPara(Some(Classify(line).content), false)]);
      if |st| == 0 || st[|st| - 1].level < level {
        assert NewList(s, st, level, item).hasPanel;
      } else {
        assert SameList(s, st, item).hasPanel;
      }
    } else if s.code.None? && Classify(line).Text? {
      StepText(s, line);
    }
  }

  /** `after` differs from `before` only below its last child. */
  predicate Deep(before: Block, after: Block) {
    && 0 < |before.children| == |after.children|
    && after.children[..|after.children| - 1] == before.children[..|before.children| - 1]
  }

  lemma {:induction false} AppendDeep(t: Block, d: nat, x: Block)
    requires 0 < d < SpineLen(t)
    ensures Deep(t, AppendAt(t, d, x))
  {
  }

  /** Every line other than a panel line changes the root only below its
      last child. */
  lemma {:induction false} DeepAppend(s: State, line: string)
    requires Valid(s) && s.hasPanel
    requires !(s.code.None? && Classify(line).PanelOpen?)
    ensures Deep(s.root, Step(s, line).root) || Step(s, line).root == s.root
  {
    if s.code.Some? {
      CodeDeep(s, line);
    } else if Classify(line).Bullet? {
      StepBullet(s, line);
      BulletDeep(s, Classify(line).indent, Classify(line).content);
    } else if Classify(line).Text? {
      StepText(s, line);
      TextDeep(s, Classify(line).l);
    } else {
      assert Classify(line).Fenced? || Classify(line).Blank?;
    }
  }

  lemma {:induction false} CodeDeep(s: State, line: string)
    requires Valid(s) && s.hasPanel && s.code.Some?
    ensures Deep(s.root, Step(s, line).root) || Step(s, line).root == s.root
  {
    if Strip(line) == Fence {
      var buf := s.code.value;
      AppendDeep(s.root, 1, Block(CodeBlockK(Chomp(Concat(buf.lines)), buf.language), []));
    }
  }

  lemma {:induction false} StepText(s: State, line: string)
    requires Valid(s) && s.code.None? && Classify(line).Text?
    ensures Step(s, line) == ParagraphLine(s, Classify(line).l)
  {
  }

  lemma {:induction false} TextDeep(s: State, l: string)
    requires Valid(s) && s.hasPanel && s.code.None?
    ensures Deep(s.root, ParagraphLine(s, l).root)
  {
    ItemIffStack(s);
    var para := NewPara(Some(l), false);
    if Strip(l) != "" {
      AppendDeep(s.root, s.container, para);
      AppendDeep(s.root, 1, para);
    }
  }

  lemma {:induction false} BulletDeep(s: State, indent: nat, content: string)
    requires Valid(s) && s.hasPanel && s.code.None?
    ensures Deep(s.root, BulletLine(s, indent, content).root)
  {
    var level := indent / IndentSpaces;
    var st := PopDeeper(s.stack, level);
    var item := Block(ListItemK, [NewPara(Some(content), false)]);
    EntriesBelow(s, st);
    if |st| == 0 || st[|st| - 1].level < level {
      AppendDeep(s.root, s.container, Block(BulletListK, [item]));
    } else {
      assert st[|st| - 1] == s.stack[|st| - 1];
      AppendDeep(s.root, st[|st| - 1].depth, item);
    }
  }

  /** Across any sequence of lines, once a panel exists the root's
      children before it stay as they were and every later child is a
      panel. */
  lemma {:induction false} PanelsOnlyAfterPanel(s: State, ls: seq<string>)
    requires Valid(s) && s.hasPanel
    ensures PanelsAfter(s.root.children, ParseLines(s, ls).root.children)
    decreases |ls|
  {
    if |ls| == 0 {
      LastIsAtOne(s.root);
      PanelsAfterRefl(s.root.children);
    } else {
      var s1 := Step(s, ls[0]);
      assert ParseLines(s, ls) == ParseLines(s1, ls[1..]);
      RootGrowsOnlyByPanels(s, ls[0]);
      PanelsOnlyAfterPanel(s1, ls[1..]);
      PanelsAfterTrans(s.root.children, s1.root.children, ParseLines(s1, ls[1..]).root.children);
    }
  }

  // ---- Bullets ----

  /** How a bullet line of level `level` leaves the parser: the lists of
      that level or deeper are left, the remaining ones are the outer
      levels in order; a new list was opened exactly when no open list had
      this level; and the new item is the container. */
  predicate BulletPlaced(s: State, r: State, level: nat, item: Block)
    requires Valid(s) && Valid(r)
  {
    && |r.stack| > 0 && Top(r).level == level
    && (forall i :: 0 <= i < |r.stack| - 1 ==> i < |s.stack| && r.stack[i] == s.stack[i] && r.stack[i].level < level)
    && (Top(r) !in s.stack <==> forall i :: 0 <= i < |s.stack| ==> s.stack[i].level != level)
    && r.container == Top(r).depth + 1 && r.hasPanel == s.hasPanel
    && At(r.root, r.container) == item
  }

  /** A bullet line with indent `k` has level `k / 2` and adds an item
      holding its stripped content, placed as `BulletPlaced` says. */
  lemma {:induction false} BulletLineNests(s: State, line: string)
    requires Valid(s) && s.code.None? && Classify(line).Bullet?
    ensures BulletPlaced(s, Step(s, line), Classify(line).indent / 2,
      Block(ListItemK, [Block(ParaK(Some(Strip(Classify(line).content)), false), [])]))
  {
    StepBullet(s, line);
    BulletNests(s, Classify(line).indent, Classify(line).content);
  }

  lemma {:induction false} StepBullet(s: State, line: string)
    requires Valid(s) && s.code.None? && Classify(line).Bullet?
    ensures Step(s, line) == BulletLine(s, Classify(line).indent, Classify(line).content)
  {
  }

  lemma {:induction false} StepPanel(s: State, line: string)
    requires Valid(s) && s.code.None? && Classify(line).PanelOpen?
    ensures Step(s, line) == PanelLine(s, Classify(line).success, Classify(line).title)
  {
  }

  lemma {:induction false} BulletNests(s: State, indent: nat, content: string)
    requires Valid(s) && s.code.None?
    ensures BulletPlaced(s, BulletLine(s, indent, content), indent / 2, Block(ListItemK, [NewPara(Some(content), false)]))
  {
    var level := indent / IndentSpaces;
    var st := PopDeeper(s.stack, level);
    var item := Block(ListItemK, [NewPara(Some(content), false)]);
    if |st| == 0 || st[|st| - 1].level < level {
      NewListPlaced(s, st, level, item);
    } else {
      SameListPlaced(s, st, level, item);
    }
  }

  lemma {:induction false} NewListPlaced(s: State, st: seq<Entry>, level: nat, item: Block)
    requires Valid(s) && st == PopDeeper(s.stack, level) && item.kind == ListItemK
    requires |st| == 0 || st[|st| - 1].level < level
    ensures BulletPlaced(s, NewList(s, st, level, item), level, item)
  {
    var r := NewList(s, st, level, item);
    NewListFacts(s, st, level, item);
    EntriesBelow(s, st);
    forall i | 0 <= i < |s.stack|
      ensures s.stack[i].level != level
    {
      if i < |st| {
        assert s.stack[i] == st[i];
      }
    }
    assert Top(r) !in s.stack by {
      forall i | 0 <= i < |s.stack|
        ensures s.stack[i] != Top(r)
      {
        assert s.stack[i].depth <= Top(s).depth;
      }
    }
  }

  lemma {:induction false} SameListPlaced(s: State, st: seq<Entry>, level: nat, item: Block)
    requires Valid(s) && st == PopDeeper(s.stack, level) && item.kind == ListItemK
    requires |st| > 0 && st[|st| - 1].level >= level
    ensures BulletPlaced(s, SameList(s, st, item), level, item)
  {
    SameListFacts(s, st, item);
    EntriesBelow(s, st);
    assert st[|st| - 1] == s.stack[|st| - 1];
  }

  lemma {:induction false} NewListFacts(s: State, st: seq<Entry>, level: nat, item: Block)
    requires Valid(s) && st <= s.stack && item.kind == ListItemK
    requires |st| == 0 || st[|st| - 1].level < level
    ensures var r := NewList(s, st, level, item);
      && r.stack == st + [Entry(s.container + 1, level)] && r.container == s.container + 2
      && r.hasPanel == s.hasPanel && At(r.root, r.container) == item
  {
    AtBelowAppended(s.root, s.container, Block(BulletListK, [item]), 1);
  }

  lemma {:induction false} SameListFacts(s: State, st: seq<Entry>, item: Block)
    requires Valid(s) && st <= s.stack && |st| > 0 && item.kind == ListItemK
    ensures var r := SameList(s, st, item);
      && r.stack == st && r.container == st[|st| - 1].depth + 1
      && r.hasPanel == s.hasPanel && At(r.root, r.container) == item
  {
    EntriesBelow(s, st);
    AppendAtSpine(s.root, st[|st| - 1].depth, item);
  }

  // ---- Code blocks ----

  /** An opening fence starts a code block: the lists end and the
      language is the text after the backticks, absent when empty. */
  lemma {:induction false} FenceOpens(s: State, line: string)
    requires Valid(s) && s.code.None? && Classify(line).Fenced?
    ensures var r := Step(s, line); var lang := Classify(line).lang;
      && r.root == s.root && r.stack == [] && r.container == PanelDepth(s)
      && r.code == Some(CodeBuffer([], if lang == "" then None else Some(lang)))
  {
  }

  /** Inside a code block every line but the closing fence is kept
      verbatim, newline included, and is never read as a panel, bullet
      or paragraph; so an unclosed block adds nothing to the document. */
  lemma {:induction false} CodeLinesBuffered(s: State, ls: seq<string>)
    requires Valid(s) && s.code.Some?
    requires forall l :: l in ls ==> Strip(l) != Fence
    ensures var r := ParseLines(s, ls);
      r.root == s.root && r.code == Some(CodeBuffer(s.code.value.lines + ls, s.code.value.language))
    decreases |ls|
  {
    if |ls| > 0 {
      var buf := s.code.value;
      var s1 := s.(code := Some(CodeBuffer(buf.lines + [ls[0]], buf.language)));
      CodeLineBuffered(s, ls[0]);
      ParseCons(s, ls, s1);
      assert forall l :: l in ls[1..] ==> l in ls;
      BufferKeepsValid(s, CodeBuffer(buf.lines + [ls[0]], buf.language));
      CodeLinesBuffered(s1, ls[1..]);
      AppendStep(buf.lines, ls);
    } else {
      AppendNothing(s.code.value.lines, ls);
    }
  }

  lemma {:induction false} BufferKeepsValid(s: State, buf: CodeBuffer)
    requires Valid(s) && s.code.Some?
    ensures Valid(s.(code := Some(buf)))
  {
  }

  lemma {:induction false} ParseCons(s: State, ls: seq<string>, s1: State)
    requires Valid(s) && |ls| > 0 && s1 == Step(s, ls[0])
    ensures ParseLines(s, ls) == ParseLines(s1, ls[1..])
  {
  }

  lemma {:induction false} CodeLineBuffered(s: State, line: string)
    requires Valid(s) && s.code.Some? && Strip(line) != Fence
    ensures Step(s, line) == s.(code := Some(CodeBuffer(s.code.value.lines + [line], s.code.value.language)))
  {
  }

  /** The closing fence adds one code block to the panel (or root), whose
      text is the buffered lines joined with the final newline chomped. */
  lemma {:induction false} FenceCloses(s: State, line: string)
    requires Valid(s) && s.code.Some? && Strip(line) == Fence
    ensures var r := Step(s, line); var buf := s.code.value;
      && r.code.None? && r.stack == [] && r.container == PanelDepth(s)
      && PanelDepth(s) < SpineLen(r.root)
      && At(r.root, PanelDepth(s)) == Block(At(s.root, PanelDepth(s)).kind,
           At(s.root, PanelDepth(s)).children + [Block(CodeBlockK(Chomp(Concat(buf.lines)), buf.language), [])])
  {
    var buf := s.code.value;
    AppendAtGrows(s.root, PanelDepth(s), Block(CodeBlockK(Chomp(Concat(buf.lines)), buf.language), []));
  }

  // ---- JSON ----

  /** A plain paragraph's JSON: one text node with the stripped text. */
  lemma {:induction false} ParagraphJson(t: string)
    ensures AsJson(NewPara(Some(t), false)) == Dict([("type", Str("paragraph")),
      ("content", List([Dict([("type", Str("text")), ("text", Str(Strip(t)))])]))])
  {
    assert [("type", Str("text"))] + [("text", Str(Strip(t)))] + [] == [("type", Str("text")), ("text", Str(Strip(t)))];
  }

  /** A code block's JSON carries the language only when the fence named one. */
  lemma {:induction false} CodeBlockJson(code: string, language: Option<string>)
    ensures var v := AsJson(Block(CodeBlockK(code, language), []));
      && v.entries[1] == ("content", List([Dict([("type", Str("text")), ("text", Str(code))])]))
      && ("attrs" in Keys(v.entries) <==> language.Some?)
  {
    var v := AsJson(Block(CodeBlockK(code, language), []));
    assert [("type", Str("text"))] + [("text", Str(code))] + [] == [("type", Str("text")), ("text", Str(code))];
    AsJsonKeys(Block(CodeBlockK(code, language), []));
  }
}

=== FILE: renderer.dfy ===
/** `render_adf_to_markdown` of lib/jir/adf/renderer.rb: a walk of the
    document with a fresh Markdown builder, returning its output. */
module Renderer {
  import opened Wrappers
  import opened Values
  import opened AdfNode
  import W = Walker
  import opened MarkdownBuilder
  import RT = RubyText
  import SeqFacts

  /** The builder's final state after walking `doc` from a fresh builder. */
  function Translate(doc: Node): (b: Builder)
    ensures b == W.Run(Step, Init(), W.Events(doc))
    ensures b.lists == []
  {
    ListsBalanced(Init(), doc);
    W.Translate(Init(), Step, doc)
  }

  /** The Markdown text for `doc`; warnings go to `Translate(doc).warnings`. */
  function Encode(doc: Node): (md: string)
    ensures md == Translate(doc).result
  {
    Translate(doc).result
  }

  function Text(t: string): Node {
    Leaf("text", Some(t))
  }

  function Block(t: string, children: seq<Node>): Node {
    Node(t, Null, Children(children), [], None)
  }

  /** A container with no children still opens and closes: an empty
      paragraph is a blank line pair, an empty document is empty. */
  lemma {:induction false} EmptyContainers()
    ensures Encode(Block("doc", [])) == ""
    ensures Encode(Block("doc", [Block("paragraph", [])])) == "\n\n"
  {
    var p := Block("paragraph", []);
    var b := Init();
    W.RunNone(Step, b);
    DocIsSilent(b, Block("doc", []));
    W.RunContainerVia(Step, b, Block("doc", []), b, b, b, b);
    OpenParagraph(b, p);
    var bp := CloseParagraph(b, p);
    W.RunContainerVia(Step, b, p, b, b, b, b);
    W.RunOnlyChild(Step, b, p);
    W.RunNone(Step, bp);
    DocIsSilent(bp, Block("doc", [p]));
    W.RunContainerVia(Step, b, Block("doc", [p]), b, b, bp, bp);
  }

  /** The document node itself writes nothing. */
  lemma DocIsSilent(b: Builder, d: Node)
    requires d.nodeType == "doc"
    ensures Step(b, W.OpenNode(d)) == b && Step(b, W.CloseNode(d)) == b
  {
  }

  lemma OpenParagraph(b: Builder, p: Node)
    requires p.nodeType == "paragraph"
    ensures Step(b, W.OpenNode(p)) == b
  {
  }

  /** A paragraph ends with a blank line outside lists, a newline inside. */
  lemma CloseParagraph(b: Builder, p: Node) returns (r: Builder)
    requires p.nodeType == "paragraph"
    ensures r == Step(b, W.CloseNode(p))
    ensures r == b.(result := b.result + (if |b.lists| == 0 then "\n\n" else "\n"))
  {
    r := Step(b, W.CloseNode(p));
  }

  function Texts(ts: seq<string>): (ns: seq<Node>)
    ensures |ns| == |ts|
  {
    if |ts| == 0 then [] else [Text(ts[0])] + Texts(ts[1..])
  }

  lemma {:induction false} ConcatCons(t: string, rest: seq<string>)
    ensures RT.Concat([t] + rest) == t + RT.Concat(rest)
  {
    RT.ConcatAppend([t], rest);
    assert RT.Concat([t]) == RT.Concat([]) + t;
  }

  /** A run of plain text leaves emits the pending prefix before the
      first of them and then their texts in order. */
  lemma {:induction false} TextsRun(b: Builder, ts: seq<string>)
    ensures var r := W.Run(Step, b, W.ChildEvents(Texts(ts)));
      && r.result == b.result + (if |ts| > 0 then b.textPrefixes.GetOr("") else "") + RT.Concat(ts)
      && r.lists == b.lists && r.warnings == b.warnings
      && r.textPrefixes == (if |ts| > 0 then None else b.textPrefixes)
    decreases |ts|
  {
    if |ts| > 0 {
      var n := Text(ts[0]);
      W.RunLeaf(Step, b, n);
      var b1 := Inline(b, n);
      assert W.Run(Step, b, W.Events(n)) == b1;
      assert Texts(ts)[1..] == Texts(ts[1..]);
      W.RunAppend(Step, b, W.Events(n), W.ChildEvents(Texts(ts[1..])));
      TextsRun(b1, ts[1..]);
      ConcatCons(ts[0], ts[1..]);
      assert [ts[0]] + ts[1..] == ts;
    }
  }

  /** A paragraph of plain text ends with a blank line outside lists and
      with a single newline inside one. */
  lemma {:induction false} ParagraphRun(b: Builder, ts: seq<string>)
    requires |ts| > 0
    ensures var r := W.Run(Step, b, W.Events(Block("paragraph", Texts(ts))));
      && r.result == b.result + b.textPrefixes.GetOr("") + RT.Concat(ts) + (if |b.lists| == 0 then "\n\n" else "\n")
      && r.lists == b.lists && r.warnings == b.warnings && r.textPrefixes.None?
  {
    var p := Block("paragraph", Texts(ts));
    OpenParagraph(b, p);
    W.RunNone(Step, b);
    TextsRun(b, ts);
    var b2 := W.Run(Step, b, W.ChildEvents(Texts(ts)));
    W.RunNone(Step, b2);
    var r := CloseParagraph(b2, p);
    W.RunContainerVia(Step, b, p, b, b, b2, b2);
  }

  function Panel(panelType: string, body: seq<Node>): Node {
    Node("panel", Dict([("panelType", Str(panelType))]), Children(body), [], None)
  }

  /** A panel is fenced by two rules, and its icon lands in front of the
      first text inside it. */
  lemma {:induction false} PanelRun(b: Builder, panelType: string, ts: seq<string>)
    requires |ts| > 0
    ensures var r := W.Run(Step, b, W.Events(Panel(panelType, [Block("paragraph", Texts(ts))])));
      r.result == b.result + "---\n" + b.textPrefixes.GetOr("") + PanelIcon(Some(panelType)).GetOr("")
        + RT.Concat(ts) + (if |b.lists| == 0 then "\n\n" else "\n") + "---\n"
  {
    var para := Block("paragraph", Texts(ts));
    var n := Panel(panelType, [para]);
    var b0 := OpenPanel(b, panelType, [para]);
    var b2 := PanelBody(b0, ts);
    SeqFacts.Flatten(b.result + "---\n", b.textPrefixes.GetOr(""), PanelIcon(Some(panelType)).GetOr(""), RT.Concat(ts));
    ClosePanel(b2, panelType, [para]);
    W.RunContainerVia(Step, b, n, b0, b0, b2, b2);
  }

  lemma {:induction false} PanelBody(b0: Builder, ts: seq<string>) returns (b2: Builder)
    requires |ts| > 0
    ensures b2 == W.Run(Step, b0, W.ChildEvents([Block("paragraph", Texts(ts))]))
    ensures b2.result == b0.result + b0.textPrefixes.GetOr("") + RT.Concat(ts) + (if |b0.lists| == 0 then "\n\n" else "\n")
  {
    W.RunOnlyChild(Step, b0, Block("paragraph", Texts(ts)));
    ParagraphRun(b0, ts);
    b2 := W.Run(Step, b0, W.ChildEvents([Block("paragraph", Texts(ts))]));
  }

  lemma {:induction false} OpenPanel(b: Builder, panelType: string, body: seq<Node>) returns (r: Builder)
    ensures r == Step(b, W.OpenNode(Panel(panelType, body)))
    ensures && r.result == b.result + "---\n" && r.lists == b.lists && r.warnings == b.warnings
      && r.textPrefixes.GetOr("") == b.textPrefixes.GetOr("") + PanelIcon(Some(panelType)).GetOr("")
  {
    assert Attr(Panel(panelType, body), ["panelType"]) == Some(panelType);
    r := Step(b, W.OpenNode(Panel(panelType, body)));
  }

  lemma {:induction false} ClosePanel(b: Builder, panelType: string, body: seq<Node>)
    ensures Step(b, W.CloseNode(Panel(panelType, body))).result == b.result + "---\n"
  {
  }

  function Item(t: string): Node {
    Block("listItem", [Block("paragraph", [Text(t)])])
  }

  function Items(ts: seq<string>): (ns: seq<Node>)
    ensures |ns| == |ts|
  {
    if |ts| == 0 then [] else [Item(ts[0])] + Items(ts[1..])
  }

  /** One output line per item, each led by `marker`. */
  function ItemLines(marker: string, ts: seq<string>): string {
    if |ts| == 0 then "" else marker + ts[0] + "\n" + ItemLines(marker, ts[1..])
  }

  lemma {:induction false} ItemRun(b: Builder, t: string)
    requires b.textPrefixes.None? && |b.lists| > 0
    ensures var r := W.Run(Step, b, W.Events(Item(t)));
      r == b.(result := b.result + ItemMarker(b.lists) + t + "\n")
  {
    var n := Item(t);
    var b0 := b.(result := b.result + ItemMarker(b.lists));
    var b2 := b0.(result := b0.result + t + "\n");
    OpenItem(b, t);
    ItemBody(b0, t);
    CloseItem(b2, t);
    W.RunContainerVia(Step, b, n, b0, b0, b2, b2);
  }

  lemma {:induction false} OpenItem(b: Builder, t: string)
    ensures Step(b, W.OpenNode(Item(t))) == b.(result := b.result + ItemMarker(b.lists))
  {
  }

  lemma {:induction false} CloseItem(b: Builder, t: string)
    ensures Step(b, W.CloseNode(Item(t))) == b
  {
  }

  lemma {:induction false} ItemBody(b0: Builder, t: string)
    requires b0.textPrefixes.None? && |b0.lists| > 0
    ensures W.Run(Step, b0, W.ChildEvents(Item(t).content.nodes)) == b0.(result := b0.result + t + "\n")
  {
    var para := Block("paragraph", [Text(t)]);
    W.RunOnlyChild(Step, b0, para);
    assert Texts([t]) == [Text(t)];
    ParagraphRun(b0, [t]);
    var r := W.Run(Step, b0, W.Events(para));
    assert RT.Concat([t]) == t;
    SeqFacts.AppendNothing(b0.result, b0.textPrefixes.GetOr(""));
    assert r.result == b0.result + t + "\n";
  }

  lemma {:induction false} ItemsRun(b: Builder, ts: seq<string>)
    requires b.textPrefixes.None? && |b.lists| > 0
    ensures W.Run(Step, b, W.ChildEvents(Items(ts))) == b.(result := b.result + ItemLines(ItemMarker(b.lists), ts))
    decreases |ts|
  {
    if |ts| > 0 {
      var m := ItemMarker(b.lists);
      var b1 := b.(result := b.result + m + ts[0] + "\n");
      ItemRun(b, ts[0]);
      W.ChildEventsCons(Item(ts[0]), Items(ts[1..]));
      W.RunAppend(Step, b, W.Events(Item(ts[0])), W.ChildEvents(Items(ts[1..])));
      ItemsRun(b1, ts[1..]);
      SeqFacts.Regroup(b.result, m, ts[0], "\n", ItemLines(m, ts[1..]));
    }
  }

  /** A bullet list of one-line items: each item on its own line, indented
      by one tab per open list and marked `* `; an ordered list marks
      them `1. `. */
  lemma {:induction false} ListRun(b: Builder, ordered: bool, ts: seq<string>)
    requires b.textPrefixes.None?
    ensures var r := W.Run(Step, b, W.Events(Block(if ordered then "orderedList" else "bulletList", Items(ts))));
      r == b.(result := b.result + ItemLines(RT.Repeat('\t', |b.lists| + 1) + (if ordered then "1. " else "* "), ts))
  {
    var n := Block(if ordered then "orderedList" else "bulletList", Items(ts));
    var kind := if ordered then Ordered else Bullet;
    var b0 := b.(lists := b.lists + [kind]);
    OpenList(b, ordered, ts);
    var marker := ItemMarker(b0.lists);
    NestedMarker(b.lists, kind);
    var out := b.result + ItemLines(marker, ts);
    var b2 := b.(lists := b.lists + [kind], result := out);
    ItemsRun(b0, ts);
    CloseList(b, ordered, ts, out);
    W.RunContainerVia(Step, b, n, b0, b0, b2, b2);
  }

  lemma NestedMarker(lists: seq<ListKind>, kind: ListKind)
    ensures ItemMarker(lists + [kind]) == RT.Repeat('\t', |lists| + 1) + (if kind == Ordered then "1. " else "* ")
  {
  }

  lemma {:induction false} OpenList(b: Builder, ordered: bool, ts: seq<string>)
    ensures Step(b, W.OpenNode(Block(if ordered then "orderedList" else "bulletList", Items(ts))))
      == b.(lists := b.lists + [if ordered then Ordered else Bullet])
  {
  }

  lemma {:induction false} CloseList(b: Builder, ordered: bool, ts: seq<string>, out: string)
    ensures Step(b.(lists := b.lists + [if ordered then Ordered else Bullet], result := out),
                 W.CloseNode(Block(if ordered then "orderedList" else "bulletList", Items(ts))))
      == b.(result := out)
  {
    var b2 := b.(lists := b.lists + [if ordered then Ordered else Bullet], result := out);
    assert b2.lists[..|b2.lists| - 1] == b.lists;
  }

  /** Marks close in their listed order, so two marks on one text do not
      nest: strong then em comes out as ` ** _styled**_`. */
  lemma {:induction false} StrongEmDoNotNest()
    ensures Encode(Node("text", Null, Absent, [Strong, Em], Some("styled"))) == " ** _styled**_"
  {
    var n := Node("text", Null, Absent, [Strong, Em], Some("styled"));
    W.RunLeaf(Step, Init(), n);
    var b1 := StrongEmOpens();
    var b2 := Inline(b1, n);
    InlinePlainText(b1, n);
    StrongEmCloses(b2);
  }

  lemma {:induction false} StrongEmOpens() returns (b1: Builder)
    ensures b1 == W.Run(Step, Init(), W.MarkOpens([Strong, Em]))
    ensures b1.result == " ** _" && b1.textPrefixes.None?
  {
    assert W.MarkOpens([Strong, Em]) == [W.OpenMark(Strong), W.OpenMark(Em)];
    W.RunTwo(Step, Init(), W.OpenMark(Strong), W.OpenMark(Em));
    b1 := OpenMark(OpenMark(Init(), Strong), Em);
  }

  lemma {:induction false} StrongEmCloses(b: Builder)
    ensures W.Run(Step, b, W.MarkCloses([Strong, Em])).result == b.result + "**_"
  {
    assert W.MarkCloses([Strong, Em]) == [W.CloseMark(Strong), W.CloseMark(Em)];
    W.RunTwo(Step, b, W.CloseMark(Strong), W.CloseMark(Em));
  }
}

=== FILE: ruby_text.dfy ===
/** The handful of Ruby String operations the modelled code relies on,
    with Ruby's exact edge cases: `strip`, `chomp`, `lines`,
    `split(",")`, `join`, `to_i` on digit strings and `Integer#to_s`. */
module RubyText {
  import opened Wrappers

  /** Regexp `\s`: space, \t, \n, \v, \f, \r (ASCII only, as in Ruby). */
  predicate IsSpace(c: char) {
    c == ' ' || c == '\t' || c == '\n' || c == '\U{000B}' || c == '\U{000C}' || c == '\r'
  }

  /** The characters `String#strip` removes: `\s` and NUL. */
  predicate IsStripSpace(c: char) {
    IsSpace(c) || c == '\0'
  }

  predicate IsDigit(c: char) {
    '0' <= c <= '9'
  }

  predicate IsUpper(c: char) {
    'A' <= c <= 'Z'
  }

  /** Regexp `\w`: `[a-zA-Z0-9_]`. */
  predicate IsWordChar(c: char) {
    IsDigit(c) || IsUpper(c) || ('a' <= c <= 'z') || c == '_'
  }

  predicate AllSpace(s: string) {
    forall i :: 0 <= i < |s| ==> IsStripSpace(s[i])
  }

  predicate AllDigits(s: string) {
    forall i :: 0 <= i < |s| ==> IsDigit(s[i])
  }

  /** Index of the first character `strip` keeps (|s| when there is none). */
  function StripStart(s: string): (a: nat)
    ensures a <= |s|
    ensures forall i :: 0 <= i < a ==> IsStripSpace(s[i])
    ensures a < |s| ==> !IsStripSpace(s[a])
  {
    if |s| == 0 || !IsStripSpace(s[0]) then 0 else 1 + StripStart(s[1..])
  }

  /** One past the last character `strip` keeps (0 when there is none). */
  function StripEnd(s: string): (b: nat)
    ensures b <= |s|
    ensures forall i :: b <= i < |s| ==> IsStripSpace(s[i])
    ensures b > 0 ==> !IsStripSpace(s[b - 1])
  {
    if |s| == 0 || !IsStripSpace(s[|s| - 1]) then |s| else StripEnd(s[..|s| - 1])
  }

  lemma StripBounds(s: string)
    ensures StripStart(s) <= StripEnd(s) || (StripStart(s) == |s| && StripEnd(s) == 0)
    ensures StripStart(s) == |s| <==> AllSpace(s)
  {
    var a, b := StripStart(s), StripEnd(s);
    assert a < |s| ==> !IsStripSpace(s[a]);
  }

  /** `String#strip`. */
  function Strip(s: string): (r: string)
    ensures |r| == 0 <==> AllSpace(s)
    ensures |r| > 0 ==> !IsStripSpace(r[0]) && !IsStripSpace(r[|r| - 1])
    ensures |r| <= |s|
  {
    StripBounds(s);
    if AllSpace(s) then "" else s[StripStart(s)..StripEnd(s)]
  }

  lemma StripIdempotent(s: string)
    ensures Strip(Strip(s)) == Strip(s)
  {
    var r := Strip(s);
    if |r| > 0 {
      assert StripStart(r) == 0;
      assert StripEnd(r) == |r|;
    }
  }

  /** `String#chomp` with no argument: drops one trailing "\r\n", "\n" or "\r". */
  function Chomp(s: string): (r: string)
    ensures r <= s
    ensures s[|r|..] in {"", "\n", "\r", "\r\n"}
    ensures |s| > 0 && s[|s| - 1] == '\n' ==> |r| < |s|
  {
    if |s| >= 2 && s[|s| - 2..] == "\r\n" then s[..|s| - 2]
    else if |s| >= 1 && (s[|s| - 1] == '\n' || s[|s| - 1] == '\r') then
      assert s[|s| - 1..] == [s[|s| - 1]];
      s[..|s| - 1]
    else
      assert s[|s|..] == "";
      s
  }

  function Concat(ss: seq<string>): string {
    if |ss| == 0 then "" else Concat(ss[..|ss| - 1]) + ss[|ss| - 1]
  }

  lemma ConcatAppend(a: seq<string>, b: seq<string>)
    ensures Concat(a + b) == Concat(a) + Concat(b)
  {
    if |b| == 0 {
      assert a + b == a;
    } else {
      ConcatAppend(a, b[..|b| - 1]);
      assert (a + b)[..|a + b| - 1] == a + b[..|b| - 1];
    }
  }

  /** `Array#join(sep)` on strings. */
  function JoinWith(ss: seq<string>, sep: string): string {
    if |ss| == 0 then ""
    else if |ss| == 1 then ss[0]
    else JoinWith(ss[..|ss| - 1], sep) + sep + ss[|ss| - 1]
  }

  function IndexOf(s: string, c: char): (r: Option<nat>)
    ensures r.Some? ==> r.value < |s| && s[r.value] == c && c !in s[..r.value]
    ensures r.None? <==> c !in s
  {
    if |s| == 0 then None
    else if s[0] == c then Some(0)
    else match IndexOf(s[1..], c)
      case None => None
      case Some(i) => assert s[1..][..i] == s[1..i + 1]; Some(i + 1)
  }

  /** `String#lines`: split after every "\n", keeping the terminators. */
  function Lines(t: string): (ls: seq<string>)
    decreases |t|
  {
    match IndexOf(t, '\n')
    case None => if |t| == 0 then [] else [t]
    case Some(i) => [t[..i + 1]] + Lines(t[i + 1..])
  }

  /** Joining the lines gives back the text. */
  lemma {:induction false} LinesConcat(t: string)
    ensures Concat(Lines(t)) == t
    decreases |t|
  {
    match IndexOf(t, '\n')
    case None =>
    case Some(i) =>
      LinesConcat(t[i + 1..]);
      ConcatAppend([t[..i + 1]], Lines(t[i + 1..]));
      assert Concat([t[..i + 1]]) == t[..i + 1];
      assert t[..i + 1] + t[i + 1..] == t;
  }

  /** Every line is non-empty, holds "\n" at most as its last character,
      and every line but the last ends with "\n". */
  lemma {:induction false} LinesShape(t: string)
    ensures forall i :: 0 <= i < |Lines(t)| ==> |Lines(t)[i]| > 0
    ensures forall i :: 0 <= i < |Lines(t)| ==> '\n' !in Lines(t)[i][..|Lines(t)[i]| - 1]
    ensures forall i :: 0 <= i < |Lines(t)| - 1 ==> Lines(t)[i][|Lines(t)[i]| - 1] == '\n'
    decreases |t|
  {
    match IndexOf(t, '\n')
    case None =>
    case Some(i) =>
      LinesShape(t[i + 1..]);
      var head := t[..i + 1];
      assert head[..|head| - 1] == t[..i];
      var ls := Lines(t);
      var rest := Lines(t[i + 1..]);
      assert ls == [head] + rest;
      forall j | 0 <= j < |ls|
        ensures |ls[j]| > 0 && '\n' !in ls[j][..|ls[j]| - 1]
      {
        if j > 0 {
          assert ls[j] == rest[j - 1];
        }
      }
      forall j | 0 <= j < |ls| - 1
        ensures ls[j][|ls[j]| - 1] == '\n'
      {
        if j > 0 {
          assert ls[j] == rest[j - 1];
        }
      }
  }

  /** The fields between the separators, empty ones included. */
  function Fields(s: string, sep: char): (fs: seq<string>)
    ensures |fs| > 0
    ensures forall i :: 0 <= i < |fs| ==> sep !in fs[i]
    ensures JoinWith(fs, [sep]) == s
    decreases |s|
  {
    match IndexOf(s, sep)
    case None => [s]
    case Some(i) =>
      var rest := Fields(s[i + 1..], sep);
      JoinCons(s[..i], rest, [sep]);
      [s[..i]] + rest
  }

  lemma {:induction false} JoinCons(head: string, rest: seq<string>, sep: string)
    requires |rest| > 0
    ensures JoinWith([head] + rest, sep) == head + sep + JoinWith(rest, sep)
    decreases |rest|
  {
    if |rest| == 1 {
    } else {
      JoinCons(head, rest[..|rest| - 1], sep);
      assert ([head] + rest)[..|rest|] == [head] + rest[..|rest| - 1];
    }
  }

  /** A string without the separator is one field. */
  lemma FieldsWithout(s: string, sep: char)
    requires sep !in s
    ensures Fields(s, sep) == [s]
  {
  }

  /** The first separator ends the first field. */
  lemma FieldsCons(a: string, sep: char, b: string)
    requires sep !in a
    ensures Fields(a + [sep] + b, sep) == [a] + Fields(b, sep)
  {
    var s := a + [sep] + b;
    var i := IndexOf(s, sep).value;
    assert s[..|a|] == a;
    assert forall j :: 0 <= j < |a| ==> s[j] == a[j];
    assert forall j :: |a| < j <= |s| ==> s[..j][|a|] == sep;
    assert i == |a|;
    assert s[i + 1..] == b;
  }

  /** `"a,b".split(",") == ["a", "b"]` when neither part is empty. */
  lemma SplitPair(a: string, sep: char, b: string)
    requires sep !in a && sep !in b && |b| > 0
    ensures Split(a + [sep] + b, sep) == [a, b]
  {
    FieldsCons(a, sep, b);
    FieldsWithout(b, sep);
  }

  function DropTrailingEmpty(fs: seq<string>): (r: seq<string>)
    ensures r <= fs
    ensures |r| > 0 ==> |r[|r| - 1]| > 0
    ensures forall i :: |r| <= i < |fs| ==> fs[i] == ""
  {
    if |fs| == 0 || |fs[|fs| - 1]| > 0 then fs else DropTrailingEmpty(fs[..|fs| - 1])
  }

  /** `String#split(sep)` for a one-character separator: the fields
      between separators with trailing empty fields removed ("" gives []). */
  function Split(s: string, sep: char): (parts: seq<string>)
    ensures forall i :: 0 <= i < |parts| ==> sep !in parts[i]
    ensures |parts| > 0 ==> |parts[|parts| - 1]| > 0
  {
    DropTrailingEmpty(Fields(s, sep))
  }

  /** `s` with every trailing `c` removed. */
  function TrimEnd(s: string, c: char): (r: string)
    ensures r <= s
    ensures |r| > 0 ==> r[|r| - 1] != c
  {
    if |s| > 0 && s[|s| - 1] == c then TrimEnd(s[..|s| - 1], c) else s
  }

  /** Joining the parts of a split gives back the input without its
      trailing separators: only trailing empty fields are lost. */
  lemma {:induction false} SplitJoin(s: string, sep: char)
    ensures JoinWith(Split(s, sep), [sep]) == TrimEnd(s, sep)
  {
    DropJoin(Fields(s, sep), sep);
  }

  lemma {:induction false} DropJoin(fs: seq<string>, sep: char)
    requires |fs| > 0
    requires forall i :: 0 <= i < |fs| ==> sep !in fs[i]
    ensures JoinWith(DropTrailingEmpty(fs), [sep]) == TrimEnd(JoinWith(fs, [sep]), sep)
    decreases |fs|
  {
    var last := fs[|fs| - 1];
    if |last| > 0 {
      var j := JoinWith(fs, [sep]);
      assert j[|j| - 1] == last[|last| - 1];
      assert last[|last| - 1] in last;
    } else if |fs| == 1 {
      assert JoinWith(fs, [sep]) == "";
    } else {
      var front := fs[..|fs| - 1];
      var j := JoinWith(front, [sep]);
      assert JoinWith(fs, [sep]) == j + [sep];
      assert (j + [sep])[..|j + [sep]| - 1] == j;
      DropJoin(front, sep);
    }
  }

  /** Splitting a join gives the parts back, when none holds the
      separator and the last is not empty. */
  lemma {:induction false} SplitJoinParts(ps: seq<string>, sep: char)
    requires |ps| > 0 && |ps[|ps| - 1]| > 0
    requires forall i :: 0 <= i < |ps| ==> sep !in ps[i]
    ensures Split(JoinWith(ps, [sep]), sep) == ps
  {
    FieldsJoin(ps, sep);
  }

  lemma {:induction false} FieldsJoin(ps: seq<string>, sep: char)
    requires |ps| > 0
    requires forall i :: 0 <= i < |ps| ==> sep !in ps[i]
    ensures Fields(JoinWith(ps, [sep]), sep) == ps
    decreases |ps|
  {
    if |ps| == 1 {
      FieldsWithout(ps[0], sep);
    } else {
      var rest := ps[1..];
      JoinCons(ps[0], rest, [sep]);
      FieldsJoin(rest, sep);
      FieldsCons(ps[0], sep, JoinWith(rest, [sep]));
      assert [ps[0]] + rest == ps;
    }
  }

  function DigitValue(c: char): (v: nat)
    requires IsDigit(c)
    ensures v < 10
  {
    (c as int - '0' as int) as nat
  }

  function DigitChar(v: nat): (c: char)
    requires v < 10
    ensures IsDigit(c) && DigitValue(c) == v
  {
    ('0' as int + v) as char
  }

  /** `String#to_i` on a string of decimal digits. */
  function DecimalValue(d: string): nat
    requires AllDigits(d)
  {
    if |d| == 0 then 0 else 10 * DecimalValue(d[..|d| - 1]) + DigitValue(d[|d| - 1])
  }

  /** `Integer#to_s` for a non-negative integer. */
  function NatToString(n: nat): (s: string)
    ensures |s| > 0 && AllDigits(s)
    ensures |s| > 1 ==> s[0] != '0'
  {
    if n < 10 then [DigitChar(n)] else NatToString(n / 10) + [DigitChar(n % 10)]
  }

  lemma {:induction false} NatToStringRoundTrip(n: nat)
    ensures DecimalValue(NatToString(n)) == n
  {
    if n >= 10 {
      NatToStringRoundTrip(n / 10);
      var s := NatToString(n);
      assert s[..|s| - 1] == NatToString(n / 10);
    }
  }

  /** A digit string without a leading zero is printed back unchanged. */
  lemma {:induction false} DecimalRoundTrip(d: string)
    requires |d| > 0 && AllDigits(d) && d[0] != '0'
    ensures NatToString(DecimalValue(d)) == d
    decreases |d|
  {
    if |d| > 1 {
      var front := d[..|d| - 1];
      DecimalRoundTrip(front);
      DecimalAtLeastOne(front);
      assert DecimalValue(d) / 10 == DecimalValue(front);
      assert DecimalValue(d) % 10 == DigitValue(d[|d| - 1]);
    }
  }

  lemma {:induction false} DecimalAtLeastOne(d: string)
    requires |d| > 0 && AllDigits(d) && d[0] != '0'
    ensures DecimalValue(d) >= 1
    decreases |d|
  {
    if |d| > 1 {
      DecimalAtLeastOne(d[..|d| - 1]);
    }
  }

  function Repeat(c: char, n: nat): (s: string)
    ensures |s| == n
    ensures forall i :: 0 <= i < n ==> s[i] == c
  {
    if n == 0 then "" else Repeat(c, n - 1) + [c]
  }
}

=== FILE: search_builder.dfy ===
/** `Jir::SearchBuilder` of lib/jir/search_builder.rb: a query (named
    searches, optionally followed by a JQL string, or one JQL string) and
    an output name become one search hash. The `searches` and `outputs`
    sections of the configuration are parameters. */
module SearchBuilder {
  import opened Wrappers
  import opened Values
  import opened RubyText
  import opened SeqFacts
  import Jql

  datatype SearchError =
    /** a search's "jql" is neither nil nor a String, so the join fails on it */
    | JqlNotAString(found: Value)
    /** the query has no comma-separated parts: `nil.merge` */
    | NoSearches
    /** the output name is not in the outputs section (or maps to a falsy value) */
    | OutputNotFound(name: Value)
    /** `Search.new(**search)` with keys that are not members of `Search` */
    | UnknownKeywords(keys: seq<string>)

  /** The members of the `Search` struct. */
  const SearchMembers: seq<string> :=
    ["jql", "jq", "max_results", "fields", "rendered_fields", "api_version_3",
     "order", "sprint", "render_to_markdown", "glow", "pipe"]

  /** `make_hash`: nil stays nil, a Hash is used as it is, and any other
      value is stored under the default key. */
  function MakeHash(raw: Value, defaultKey: string): (r: Option<Entries>)
    ensures r.None? <==> raw.Null?
    ensures raw.Dict? ==> r == Some(raw.entries)
    ensures !raw.Null? && !raw.Dict? ==> r.Some? && Keys(r.value) == [defaultKey] && Get(r.value, defaultKey) == Some(raw)
  {
    match raw
    case Null => None
    case Dict(entries) => Some(entries)
    case _ => Some([(defaultKey, raw)])
  }

  /** `named_search`: the configured search of that name, a bare value
      standing for its JQL; unknown (or nil) names give `None`. */
  function NamedSearch(searches: Entries, name: string): (r: Option<Entries>)
    ensures r.None? <==> Get(searches, name) == None || Get(searches, name) == Some(Null)
    ensures Get(searches, name) == Some(Str(name)) ==> r == Some([("jql", Str(name))])
    ensures r.Some? && !Get(searches, name).value.Dict? ==> Get(r.value, "jql") == Get(searches, name)
  {
    MakeHash(Get(searches, name).GetOr(Null), "jql")
  }

  predicate Known(searches: Entries, name: string) {
    NamedSearch(searches, name).Some?
  }

  function NamedAll(searches: Entries, parts: seq<string>): (r: seq<Option<Entries>>)
    ensures |r| == |parts|
    ensures forall i :: 0 <= i < |parts| ==> r[i] == NamedSearch(searches, parts[i])
  {
    seq(|parts|, i requires 0 <= i < |parts| => NamedSearch(searches, parts[i]))
  }

  /** `count(&:nil?)` */
  function NoneCount(xs: seq<Option<Entries>>): (r: nat)
    ensures r == 0 <==> forall i :: 0 <= i < |xs| ==> xs[i].Some?
    ensures r <= |xs|
  {
    if |xs| == 0 then 0
    else
      var front := xs[..|xs| - 1];
      assert forall i :: 0 <= i < |front| ==> front[i] == xs[i];
      NoneCount(front) + (if xs[|xs| - 1].None? then 1 else 0)
  }

  /** `compact`: the hashes in order, nils dropped. */
  function Somes(xs: seq<Option<Entries>>): (r: seq<Entries>)
    ensures |r| == |xs| - NoneCount(xs)
    ensures NoneCount(xs) == 0 ==> forall i :: 0 <= i < |xs| ==> Some(r[i]) == xs[i]
  {
    if |xs| == 0 then []
    else
      var front := xs[..|xs| - 1];
      assert forall i :: 0 <= i < |front| ==> front[i] == xs[i];
      Somes(front) + (if xs[|xs| - 1].Some? then [xs[|xs| - 1].value] else [])
  }

  /** With exactly one nil, and that nil last, the other entries are all
      hashes. */
  lemma {:induction false} OnlyLastUnknown(xs: seq<Option<Entries>>)
    requires |xs| > 0 && xs[|xs| - 1].None? && NoneCount(xs) == 1
    ensures var front := xs[..|xs| - 1];
      NoneCount(front) == 0 && Somes(xs) == Somes(front)
  {
    var front := xs[..|xs| - 1];
    assert NoneCount(xs) == NoneCount(front) + 1;
    AppendNothing(Somes(front), []);
  }

  /** `decode_query_to_searches`: the comma-separated parts are search
      names; when all of them are known they are the searches; when only
      the last (of several) is unknown it is the JQL of one more search;
      otherwise the whole query is a single JQL string, commas included.
      Only a query without parts (empty, or commas only) gives no searches. */
  function Decode(searches: Entries, query: string): (r: seq<Entries>)
    ensures |r| == 0 <==> |Split(query, ',')| == 0
  {
    var parts := Split(query, ',');
    var named := NamedAll(searches, parts);
    if NoneCount(named) == 0 then Somes(named)
    else if |parts| > 1 && named[|parts| - 1].None? && NoneCount(named) == 1 then
      Somes(named) + [[("jql", Str(parts[|parts| - 1]))]]
    else [[("jql", Str(query))]]
  }

  /** Only known names: the searches themselves, in order. */
  lemma {:induction false} DecodeAllKnown(searches: Entries, query: string)
    requires forall i :: 0 <= i < |Split(query, ',')| ==> Known(searches, Split(query, ',')[i])
    ensures var parts := Split(query, ',');
      |Decode(searches, query)| == |parts| &&
      forall i :: 0 <= i < |parts| ==> Some(Decode(searches, query)[i]) == NamedSearch(searches, parts[i])
  {
    var parts := Split(query, ',');
    var named := NamedAll(searches, parts);
    assert NoneCount(named) == 0;
    assert Decode(searches, query) == Somes(named);
  }

  /** Known names followed by one unknown part: that part is the JQL of
      one more search after the named ones. */
  lemma {:induction false} DecodeTrailingJql(searches: Entries, query: string)
    requires var parts := Split(query, ',');
      |parts| > 1 && !Known(searches, parts[|parts| - 1]) &&
      forall i :: 0 <= i < |parts| - 1 ==> Known(searches, parts[i])
    ensures var parts := Split(query, ',');
      var r := Decode(searches, query);
      |r| == |parts| && r[|parts| - 1] == [("jql", Str(parts[|parts| - 1]))] &&
      forall i :: 0 <= i < |parts| - 1 ==> Some(r[i]) == NamedSearch(searches, parts[i])
  {
    var parts := Split(query, ',');
    var named := NamedAll(searches, parts);
    var front := named[..|parts| - 1];
    assert forall i :: 0 <= i < |parts| - 1 ==> front[i] == named[i];
    assert NoneCount(front) == 0;
    assert NoneCount(named) == 1;
    OnlyLastUnknown(named);
    assert Decode(searches, query) == Somes(front) + [[("jql", Str(parts[|parts| - 1]))]];
  }

  /** An unknown part before the last, or a single unknown part: the
      whole query, commas included, is one JQL string. */
  lemma {:induction false} DecodeWholeQuery(searches: Entries, query: string)
    requires var parts := Split(query, ',');
      (exists i :: 0 <= i < |parts| - 1 && !Known(searches, parts[i])) ||
      (|parts| == 1 && !Known(searches, parts[0]))
    ensures Decode(searches, query) == [[("jql", Str(query))]]
  {
    var parts := Split(query, ',');
    var named := NamedAll(searches, parts);
    if |parts| == 1 {
      assert named[0].None?;
      NotTrailingShape(named, 0);
    } else {
      var i :| 0 <= i < |parts| - 1 && !Known(searches, parts[i]);
      assert named[i].None?;
      NotTrailingShape(named, i);
    }
    DecodeFallback(searches, query, named);
  }

  /** A nil before the last entry, or a lone nil, is not the shape of
      known names followed by one trailing JQL part. */
  lemma {:induction false} NotTrailingShape(named: seq<Option<Entries>>, i: nat)
    requires i < |named| && named[i].None? && (i < |named| - 1 || |named| == 1)
    ensures NoneCount(named) > 0
    ensures !(|named| > 1 && named[|named| - 1].None? && NoneCount(named) == 1)
  {
    if |named| > 1 && named[|named| - 1].None? {
      TwoNones(named, i);
    }
  }

  lemma {:induction false} DecodeFallback(searches: Entries, query: string, named: seq<Option<Entries>>)
    requires named == NamedAll(searches, Split(query, ','))
    requires NoneCount(named) > 0
    requires !(|named| > 1 && named[|named| - 1].None? && NoneCount(named) == 1)
    ensures Decode(searches, query) == [[("jql", Str(query))]]
  {
  }

  /** Two nils count at least twice. */
  lemma {:induction false} TwoNones(xs: seq<Option<Entries>>, i: nat)
    requires i < |xs| - 1 && xs[i].None? && xs[|xs| - 1].None?
    ensures NoneCount(xs) >= 2
  {
    var front := xs[..|xs| - 1];
    assert front[i].None?;
    assert NoneCount(front) != 0;
  }

  /** A search's `s["jql"]`: nil when absent, the string when it is one,
      and an error for anything else (the join calls string methods on
      it). */
  function JqlOf(s: Entries): (r: Result<Option<string>, SearchError>)
    ensures r == Ok(None) <==> Get(s, "jql") == None || Get(s, "jql") == Some(Null)
    ensures (r.Ok? && r.value.Some?) <==> Get(s, "jql").Some? && Get(s, "jql").value.Str?
    ensures r.Ok? && r.value.Some? ==> Get(s, "jql") == Some(Str(r.value.value))
    ensures r.Err? ==> r.error.JqlNotAString? && Get(s, "jql") == Some(r.error.found)
  {
    match Get(s, "jql")
    case None => Ok(None)
    case Some(v) =>
      if v.Null? then Ok(None)
      else if v.Str? then Ok(Some(v.s))
      else Err(JqlNotAString(v))
  }

  /** The JQL of every search, in order; the first non-string one is the
      error. */
  function JqlsOf(ss: seq<Entries>): (r: Result<seq<Option<string>>, SearchError>)
    ensures r.Ok? <==> forall i :: 0 <= i < |ss| ==> JqlOf(ss[i]).Ok?
    ensures r.Ok? ==> |r.value| == |ss| && forall i :: 0 <= i < |ss| ==> JqlOf(ss[i]) == Ok(r.value[i])
    ensures r.Err? ==> r.error.JqlNotAString?
    decreases |ss|
  {
    if |ss| == 0 then Ok([])
    else
      var first :- JqlOf(ss[0]);
      var rest :- JqlsOf(ss[1..]);
      assert forall i :: 1 <= i < |ss| ==> ss[i] == ss[1..][i - 1];
      Ok([first] + rest)
  }

  /** Search `i` is the first whose JQL is not a string, failing with `e`. */
  predicate FirstJqlError(ss: seq<Entries>, i: nat, e: SearchError) {
    i < |ss| && JqlOf(ss[i]) == Err(e) && forall j :: 0 <= j < i ==> JqlOf(ss[j]).Ok?
  }

  /** The error is the first search's whose JQL is not a string. */
  lemma {:induction false} JqlsOfFirstError(ss: seq<Entries>)
    requires JqlsOf(ss).Err?
    ensures exists i: nat :: FirstJqlError(ss, i, JqlsOf(ss).error)
    decreases |ss|
  {
    if JqlOf(ss[0]).Err? {
      assert FirstJqlError(ss, 0, JqlsOf(ss).error);
    } else {
      var rest := ss[1..];
      assert JqlsOf(ss) == JqlsOf(rest);
      JqlsOfFirstError(rest);
      var i: nat :| FirstJqlError(rest, i, JqlsOf(rest).error);
      FirstJqlErrorShift(ss, i, JqlsOf(rest).error);
    }
  }

  lemma {:induction false} FirstJqlErrorShift(ss: seq<Entries>, i: nat, e: SearchError)
    requires |ss| > 0 && JqlOf(ss[0]).Ok? && FirstJqlError(ss[1..], i, e)
    ensures FirstJqlError(ss, i + 1, e)
  {
    forall j | 0 <= j < i + 1
      ensures JqlOf(ss[j]).Ok?
    {
      if j > 0 {
        assert ss[j] == ss[1..][j - 1];
      }
    }
    assert ss[i + 1] == ss[1..][i];
  }

  /** `searches.inject(&:merge)` on a non-empty list. */
  function MergeAll(ss: seq<Entries>): Entries
    requires |ss| > 0
  {
    if |ss| == 1 then ss[0] else Merge(MergeAll(ss[..|ss| - 1]), ss[|ss| - 1])
  }

  /** Reference reading of a merged list: the value of `k` in the last
      search that has it. */
  function LastGet(ss: seq<Entries>, k: string): Option<Value> {
    if |ss| == 0 then None
    else if k in Keys(ss[|ss| - 1]) then Get(ss[|ss| - 1], k)
    else LastGet(ss[..|ss| - 1], k)
  }

  /** A merged list reads every key from the last search that has it,
      and has exactly the keys of all of them. */
  lemma MergeAllLaterWins(ss: seq<Entries>)
    requires |ss| > 0
    ensures forall k :: Get(MergeAll(ss), k) == LastGet(ss, k)
    ensures forall k :: k in Keys(MergeAll(ss)) <==> exists i :: 0 <= i < |ss| && k in Keys(ss[i])
  {
    MergeAllGets(ss);
    MergeAllKeys(ss);
  }

  lemma {:induction false} MergeAllGets(ss: seq<Entries>)
    requires |ss| > 0
    ensures forall k :: Get(MergeAll(ss), k) == LastGet(ss, k)
    decreases |ss|
  {
    if |ss| == 1 {
      assert ss[..0] == [];
      forall k ensures Get(ss[0], k) == LastGet(ss, k) {
        if k !in Keys(ss[0]) {
          assert Get(ss[0], k) == None;
        }
      }
    } else {
      MergeAllGets(ss[..|ss| - 1]);
    }
  }

  lemma {:induction false} MergeAllKeys(ss: seq<Entries>)
    requires |ss| > 0
    ensures forall k :: k in Keys(MergeAll(ss)) <==> exists i :: 0 <= i < |ss| && k in Keys(ss[i])
    decreases |ss|
  {
    if |ss| > 1 {
      MergeAllKeys(ss[..|ss| - 1]);
      forall k ensures k in Keys(MergeAll(ss)) <==> SomeHasKey(ss, k) {
        SomeHasKeyStep(ss, k);
      }
    }
  }

  predicate SomeHasKey(ss: seq<Entries>, k: string) {
    exists i :: 0 <= i < |ss| && k in Keys(ss[i])
  }

  /** Some search has the key exactly when the last one or an earlier one has it. */
  lemma {:induction false} SomeHasKeyStep(ss: seq<Entries>, k: string)
    requires |ss| > 1
    ensures SomeHasKey(ss, k) <==> SomeHasKey(ss[..|ss| - 1], k) || k in Keys(ss[|ss| - 1])
  {
    var front := ss[..|ss| - 1];
    if SomeHasKey(ss, k) {
      var i :| 0 <= i < |ss| && k in Keys(ss[i]);
      if i < |ss| - 1 {
        assert front[i] == ss[i];
      }
    }
    if SomeHasKey(front, k) {
      var i :| 0 <= i < |front| && k in Keys(front[i]);
      assert front[i] == ss[i];
    }
  }

  /** `merge_searches`: the searches merged left to right, later keys
      winning, with "jql" replaced by the AND of all their JQL (placeholders
      shifted apart). */
  function MergeSearches(ss: seq<Entries>): (r: Result<Entries, SearchError>)
    ensures r == Err(NoSearches) <==> |ss| == 0
    ensures r.Err? && !r.error.NoSearches? ==> r.error.JqlNotAString? && JqlsOf(ss) == Err(r.error)
    ensures r.Ok? <==> |ss| > 0 && JqlsOf(ss).Ok?
    ensures r.Ok? ==> Get(r.value, "jql") == Some(Str(Jql.JoinQueries(JqlsOf(ss).value)))
  {
    var jqls :- JqlsOf(ss);
    if |ss| == 0 then Err(NoSearches)
    else Ok(Put(MergeAll(ss), "jql", Str(Jql.JoinQueries(jqls))))
  }

  /** Every key but "jql" of a merged search comes from the last search
      that sets it. */
  lemma {:induction false} MergeSearchesLaterWins(ss: seq<Entries>)
    requires MergeSearches(ss).Ok?
    ensures forall k :: k != "jql" ==> Get(MergeSearches(ss).value, k) == LastGet(ss, k)
    ensures forall k :: k in Keys(MergeSearches(ss).value) <==> k == "jql" || exists i :: 0 <= i < |ss| && k in Keys(ss[i])
  {
    MergeAllLaterWins(ss);
  }

  /** The output name `build` uses: an empty name counts as none, and no
      name falls back to the search's own "output" entry. */
  function ChosenOutput(outputName: Option<string>, default: Value): (r: Value)
    ensures outputName.Some? && outputName.value != "" ==> r == Str(outputName.value)
    ensures outputName.None? || outputName == Some("") ==> r == default
  {
    if outputName.Some? && outputName.value != "" then Str(outputName.value) else default
  }

  /** `named_output`: the configured output of that name, a bare value
      standing for its jq arguments; a missing or falsy one is an error.
      The outputs section has string keys, so a name that is not a string
      is never found. */
  function NamedOutput(outputs: Entries, name: Value): (r: Result<Entries, SearchError>)
    ensures r.Err? <==> !name.Str? || !Truthy(Get(outputs, name.s).GetOr(Null))
    ensures r.Err? ==> r.error == OutputNotFound(name)
    ensures r.Ok? && Get(outputs, name.s).value.Dict? ==> r.value == Get(outputs, name.s).value.entries
    ensures r.Ok? && !Get(outputs, name.s).value.Dict? ==> r.value == [("jq", Get(outputs, name.s).value)]
  {
    var raw := if name.Str? then Get(outputs, name.s).GetOr(Null) else Null;
    if !Truthy(raw) then Err(OutputNotFound(name))
    else Ok(MakeHash(raw, "jq").value)
  }

  /** The keys that are not members of `Search`, in order. */
  function UnknownKeys(ks: seq<string>): (r: seq<string>)
    ensures forall k :: k in r <==> k in ks && k !in SearchMembers
  {
    if |ks| == 0 then []
    else (if ks[0] in SearchMembers then [] else [ks[0]]) + UnknownKeys(ks[1..])
  }

  /** `UnknownKeys` keeps order and repeats: the unknown keys of `a + b`
      are those of `a` followed by those of `b`, and a single key is kept
      exactly when it is not a member of `Search`. */
  lemma UnknownKeysAppend(a: seq<string>, b: seq<string>)
    ensures UnknownKeys(a + b) == UnknownKeys(a) + UnknownKeys(b)
    ensures forall k :: UnknownKeys([k]) == if k in SearchMembers then [] else [k]
    decreases |a|
  {
    UnknownKeysConcat(a, b);
    forall k ensures UnknownKeys([k]) == if k in SearchMembers then [] else [k] {
      UnknownKeySingle(k);
    }
  }

  lemma {:induction false} UnknownKeysConcat(a: seq<string>, b: seq<string>)
    ensures UnknownKeys(a + b) == UnknownKeys(a) + UnknownKeys(b)
    decreases |a|
  {
    if |a| == 0 {
      assert a + b == b;
    } else {
      var ab := a + b;
      assert ab[0] == a[0] && ab[1..] == a[1..] + b;
      UnknownKeysCons(ab);
      UnknownKeysConcat(a[1..], b);
      UnknownKeysCons(a);
    }
  }

  lemma UnknownKeysCons(ks: seq<string>)
    requires |ks| > 0
    ensures UnknownKeys(ks) == UnknownKeys([ks[0]]) + UnknownKeys(ks[1..])
  {
    UnknownKeySingle(ks[0]);
  }

  lemma UnknownKeySingle(k: string)
    ensures UnknownKeys([k]) == if k in SearchMembers then [] else [k]
  {
    assert [k][1..] == [];
  }

  /** `build` after the merge: "output" is taken out of the search and
      the chosen output, if any, is merged over it. */
  function WithOutput(outputs: Entries, search: Entries, outputName: Option<string>): (r: Result<Entries, SearchError>)
    ensures r.Ok? && "jql" in Keys(search) ==> "jql" in Keys(r.value)
    ensures r.Err? ==> r.error.OutputNotFound?
  {
    var default := Get(search, "output").GetOr(Null);
    var rest := Delete(search, "output");
    var name := ChosenOutput(outputName, default);
    if !Truthy(name) then Ok(rest)
    else
      var output :- NamedOutput(outputs, name);
      Ok(Merge(rest, output))
  }

  /** `Search.new(**search)`: rejected when a key is not a member. */
  function ToSearch(search: Entries): (r: Result<Entries, SearchError>)
    ensures r.Ok? <==> forall k :: k in Keys(search) ==> k in SearchMembers
    ensures r.Ok? ==> r.value == search
    ensures r.Err? ==> r.error.UnknownKeywords? && |r.error.keys| > 0
    ensures r.Err? ==> forall k :: k in r.error.keys <==> k in Keys(search) && k !in SearchMembers
  {
    var unknown := UnknownKeys(Keys(search));
    if |unknown| > 0 then
      assert unknown[0] in unknown;
      Err(UnknownKeywords(unknown))
    else
      assert forall k :: k in Keys(search) ==> k in SearchMembers;
      Ok(search)
  }

  /** `build`: decode, merge, add the output, check the keys. Every key of
      the result is a `Search` member and the "jql" entry is always
      present. */
  function Build(searches: Entries, outputs: Entries, query: string, outputName: Option<string>): (r: Result<Entries, SearchError>)
    ensures r.Ok? ==> forall k :: k in Keys(r.value) ==> k in SearchMembers
    ensures r.Ok? ==> "jql" in Keys(r.value)
  {
    var search :- MergeSearches(Decode(searches, query));
    var assembled :- WithOutput(outputs, search, outputName);
    ToSearch(assembled)
  }

  /** A query without parts (empty, or only commas) fails in the merge. */
  lemma {:induction false} NoPartsFails(searches: Entries, outputs: Entries, query: string, outputName: Option<string>)
    requires |Split(query, ',')| == 0
    ensures Build(searches, outputs, query, outputName) == Err(NoSearches)
  {
    assert Decode(searches, query) == [];
  }

  /** An empty output name is no output name, and a search's own
      "output" entry acts exactly as if its name had been given. */
  lemma {:induction false} DefaultOutputAsIfNamed(outputs: Entries, search: Entries, n: string)
    requires Get(search, "output") == Some(Str(n)) && n != ""
    ensures WithOutput(outputs, search, Some("")) == WithOutput(outputs, search, None)
    ensures WithOutput(outputs, search, None) == WithOutput(outputs, search, Some(n))
  {
  }

  /** An explicit output name that is not configured is an error. */
  lemma {:induction false} MissingOutputFails(outputs: Entries, search: Entries, n: string)
    requires n != "" && !Truthy(Get(outputs, n).GetOr(Null))
    ensures WithOutput(outputs, search, Some(n)) == Err(OutputNotFound(Str(n)))
  {
  }

  /** The output's entries win over the search's; every other key but
      "output" keeps the search's value, and "output" is gone unless the
      output itself sets it. */
  lemma {:induction false} OutputWins(outputs: Entries, search: Entries, n: string, e: Entries)
    requires n != "" && Get(outputs, n) == Some(Dict(e))
    ensures WithOutput(outputs, search, Some(n)).Ok?
    ensures var r := WithOutput(outputs, search, Some(n)).value;
      (forall k :: k in Keys(e) ==> Get(r, k) == Get(e, k)) &&
      (forall k :: k !in Keys(e) && k != "output" ==> Get(r, k) == Get(search, k)) &&
      ("output" !in Keys(e) ==> Get(r, "output") == None)
  {
    assert NamedOutput(outputs, Str(n)) == Ok(e);
  }

  /** Without an output name or a default, only "output" is dropped. */
  lemma {:induction false} NoOutput(outputs: Entries, search: Entries)
    requires !Truthy(Get(search, "output").GetOr(Null))
    ensures WithOutput(outputs, search, None) == Ok(Delete(search, "output"))
  {
  }

  /** `"a".split(",") == ["a"]` for a non-empty string without commas. */
  lemma {:induction false} SplitSingle(s: string)
    requires ',' !in s && |s| > 0
    ensures Split(s, ',') == [s]
  {
    FieldsWithout(s, ',');
  }

  /** One search holding only the JQL `q` merges to the parenthesised `q`. */
  lemma {:induction false} MergeOneJql(q: string)
    ensures MergeSearches([[("jql", Str(q))]]) == Ok([("jql", Str("(" + q + ")"))])
  {
    var ss := [[("jql", Str(q))]];
    assert JqlOf(ss[0]) == Ok(Some(q));
    assert JqlsOf(ss[1..]) == Ok([]);
    AppendNothing([Some(q)], []);
    assert JqlsOf(ss) == Ok([Some(q)]);
    Jql.JoinSmall(q);
  }

  /** A single search whose JQL is `q` builds to the search with only the
      parenthesised `q`, when no output is chosen. */
  lemma {:induction false} OneJqlSearch(searches: Entries, outputs: Entries, query: string, q: string)
    requires Decode(searches, query) == [[("jql", Str(q))]]
    ensures Build(searches, outputs, query, None) == Ok([("jql", Str("(" + q + ")"))])
  {
    MergeOneJql(q);
    OnlyJqlKept(outputs, "(" + q + ")");
  }

  /** A search with only a JQL entry passes the output step and the key
      check unchanged. */
  lemma {:induction false} OnlyJqlKept(outputs: Entries, j: string)
    ensures WithOutput(outputs, [("jql", Str(j))], None) == Ok([("jql", Str(j))])
    ensures ToSearch([("jql", Str(j))]) == Ok([("jql", Str(j))])
  {
    var search := [("jql", Str(j))];
    assert Keys(search) == ["jql"];
    assert Delete(search, "output") == search;
    assert UnknownKeys(["jql"]) == [];
  }

  /** A query without commas that names no search is plain JQL. */
  lemma {:induction false} PlainJql(searches: Entries, outputs: Entries, query: string)
    requires ',' !in query && |query| > 0 && !Known(searches, query)
    ensures Build(searches, outputs, query, None) == Ok([("jql", Str("(" + query + ")"))])
  {
    SplitSingle(query);
    DecodeWholeQuery(searches, query);
    OneJqlSearch(searches, outputs, query, query);
  }

  /** A search name bound to a JQL string builds to that JQL. */
  lemma {:induction false} NamedJql(searches: Entries, outputs: Entries, name: string, q: string)
    requires ',' !in name && |name| > 0 && Get(searches, name) == Some(Str(q))
    ensures Build(searches, outputs, name, None) == Ok([("jql", Str("(" + q + ")"))])
  {
    SplitSingle(name);
    DecodeAllKnown(searches, name);
    assert Decode(searches, name) == [[("jql", Str(q))]];
    OneJqlSearch(searches, outputs, name, q);
  }
}

=== FILE: seq_facts.dfy ===
/** Small facts about sequence concatenation, stated once and used by
    the proofs of every module. */
module SeqFacts {
  lemma AppendNothing<T>(a: seq<T>, s: seq<T>)
    requires |s| == 0
    ensures a + s == a && s + a == a
  {
  }

  lemma AppendStep<T>(a: seq<T>, s: seq<T>)
    requires |s| > 0
    ensures a + [s[0]] + s[1..] == a + s
  {
  }

  lemma TwoSingles<T>(x: T, y: T)
    ensures [x] + [y] == [x, y]
  {
  }

  /** Concatenation regrouped: the text before `rest` moves in front. */
  lemma Regroup<T>(a: seq<T>, b: seq<T>, c: seq<T>, d: seq<T>, rest: seq<T>)
    ensures a + b + c + d + rest == a + (b + c + d + rest)
  {
  }

  lemma Flatten<T>(a: seq<T>, b: seq<T>, c: seq<T>, d: seq<T>)
    ensures a + (b + c) + d == a + b + c + d
  {
  }

  lemma HeadTail<T>(s: seq<T>)
    requires |s| > 0
    ensures [s[0]] + s[1..] == s
  {
  }

  lemma SplitAt<T>(s: seq<T>, n: nat)
    requires n <= |s|
    ensures s[..n] + s[n..] == s
  {
  }

  /** Cutting a slice again is slicing the original. */
  lemma SubSlices<T>(s: seq<T>, p: nat, k: nat, e: nat)
    requires p + k <= e <= |s|
    ensures s[p..e][..k] == s[p..p + k] && s[p..e][k..] == s[p + k..e]
  {
  }
}

=== FILE: text_to_adf.dfy ===
/** The node classes of lib/jir/adf/text_to_adf.rb (`Root`, `Para`,
    `Panel`, `BulletList`, `ListItem`, `CodeBlock`) and their `as_json`.
    The parser only ever appends to the last child of a last child, so
    a node it may still grow is named by its depth along the rightmost
    spine of the tree (`At`, `AppendAt`). */
module TextToAdf {
  import opened Wrappers
  import opened Values
  import opened RubyText

  datatype Kind =
    | RootK
    | ParaK(text: Option<string>, strong: bool)   // `marks: [{type: "strong"}]` when strong
    | PanelK(panelType: string)
    | BulletListK
    | ListItemK
    | CodeBlockK(code: string, language: Option<string>)

  datatype Block = Block(kind: Kind, children: seq<Block>)

  /** `Para.new(text, attrs)`: the text is stripped (`text&.strip`). */
  function NewPara(text: Option<string>, strong: bool): (p: Block)
    ensures p.children == [] && p.kind.ParaK? && p.kind.strong == strong
    ensures p.kind.text.Some? <==> text.Some?
    ensures text.Some? ==> p.kind.text.value == Strip(text.value)
  {
    Block(ParaK(if text.Some? then Some(Strip(text.value)) else None, strong), [])
  }

  /** `Panel.new(type, title)`: its first child is the title in bold. */
  function NewPanel(panelType: string, title: string): (p: Block)
    ensures p.kind == PanelK(panelType) && p.children == [NewPara(Some(title), true)]
  {
    Block(PanelK(panelType), [NewPara(Some(title), true)])
  }

  function TypeName(k: Kind): string {
    match k
    case RootK => "doc"
    case ParaK(_, _) => "paragraph"
    case PanelK(_) => "panel"
    case BulletListK => "bulletList"
    case ListItemK => "listItem"
    case CodeBlockK(_, _) => "codeBlock"
  }

  /** `{type: "text", text: @text, **attrs}.compact`. */
  function TextJson(text: Option<string>, strong: bool): (v: Value)
    ensures v.Dict? && Get(v.entries, "type") == Some(Str("text"))
    ensures Get(v.entries, "text") == if text.Some? then Some(Str(text.value)) else None
    ensures "marks" in Keys(v.entries) <==> strong
  {
    Dict([("type", Str("text"))]
      + (if text.Some? then [("text", Str(text.value))] else [])
      + (if strong then [("marks", List([Dict([("type", Str("strong"))])]))] else []))
  }

  /** `as_json` of every node class. */
  function AsJson(b: Block): (v: Value)
    ensures v.Dict? && |v.entries| > 0 && v.entries[0] == ("type", Str(TypeName(b.kind)))
    decreases b, 1
  {
    var content := List(ChildrenJson(b.children));
    match b.kind
    case RootK => Dict([("type", Str("doc")), ("version", Int(1)), ("content", content)])
    case ParaK(text, strong) => Dict([("type", Str("paragraph")), ("content", List([TextJson(text, strong)]))])
    case PanelK(t) => Dict([("type", Str("panel")), ("attrs", Dict([("panelType", Str(t))])), ("content", content)])
    case BulletListK => Dict([("type", Str("bulletList")), ("content", content)])
    case ListItemK => Dict([("type", Str("listItem")), ("content", content)])
    case CodeBlockK(code, language) =>
      Dict([("type", Str("codeBlock")), ("content", List([TextJson(Some(code), false)]))]
        + (if language.Some? then [("attrs", Dict([("language", Str(language.value))]))] else []))
  }

  /** The keys of every node's JSON object, in order: the root adds a
      version, a panel its attributes, a code block with a language its
      attributes after the content. */
  lemma AsJsonKeys(b: Block)
    ensures Keys(AsJson(b).entries) == ["type"] + (if b.kind.RootK? then ["version"] else [])
      + (if b.kind.PanelK? then ["attrs"] else []) + ["content"]
      + (if b.kind.CodeBlockK? && b.kind.language.Some? then ["attrs"] else [])
  {
    var e := AsJson(b).entries;
    match b.kind
    case RootK => KeysOfThree(e);
    case PanelK(_) => KeysOfThree(e);
    case CodeBlockK(_, language) =>
      if language.Some? {
        KeysOfThree(e);
      } else {
        KeysOfTwo(e);
      }
    case _ => KeysOfTwo(e);
  }

  lemma KeysOfTwo(e: Entries)
    requires |e| == 2
    ensures Keys(e) == [e[0].0, e[1].0]
  {
  }

  lemma KeysOfThree(e: Entries)
    requires |e| == 3
    ensures Keys(e) == [e[0].0, e[1].0, e[2].0]
  {
  }

  /** `content.map(&:as_json)`. */
  function ChildrenJson(cs: seq<Block>): (vs: seq<Value>)
    ensures |vs| == |cs|
    ensures forall i :: 0 <= i < |cs| ==> vs[i] == AsJson(cs[i])
    decreases cs, 0
  {
    if |cs| == 0 then [] else [AsJson(cs[0])] + ChildrenJson(cs[1..])
  }

  /** Number of nodes on the rightmost path from `t` down to a childless node. */
  function SpineLen(t: Block): (n: nat)
    ensures n >= 1
    ensures n == 1 <==> |t.children| == 0
  {
    if |t.children| == 0 then 1 else 1 + SpineLen(t.children[|t.children| - 1])
  }

  /** The node `d` steps down the rightmost spine. */
  function At(t: Block, d: nat): Block
    requires d < SpineLen(t)
  {
    if d == 0 then t else At(t.children[|t.children| - 1], d - 1)
  }

  /** `At(t, d).add_child(x)`, rebuilding the path above it. */
  function AppendAt(t: Block, d: nat, x: Block): (r: Block)
    requires d < SpineLen(t)
    ensures r.kind == t.kind
    ensures d == 0 ==> r.children == t.children + [x]
    ensures d > 0 ==> |r.children| == |t.children| && r.children[..|r.children| - 1] == t.children[..|t.children| - 1]
  {
    if d == 0 then Block(t.kind, t.children + [x])
    else
      var last := t.children[|t.children| - 1];
      Block(t.kind, t.children[..|t.children| - 1] + [AppendAt(last, d - 1, x)])
  }

  /** Appending at depth `d` keeps the spine down to `d`, and the new node
      becomes the spine's next step. */
  lemma {:induction false} AppendAtSpine(t: Block, d: nat, x: Block)
    requires d < SpineLen(t)
    ensures SpineLen(AppendAt(t, d, x)) == d + 1 + SpineLen(x)
    ensures forall e :: 0 <= e <= d ==> At(AppendAt(t, d, x), e).kind == At(t, e).kind
    ensures At(AppendAt(t, d, x), d + 1) == x
  {
    var r := AppendAt(t, d, x);
    if d > 0 {
      var last := t.children[|t.children| - 1];
      AppendAtSpine(last, d - 1, x);
      assert r.children[|r.children| - 1] == AppendAt(last, d - 1, x);
      forall e | 0 < e <= d
        ensures At(r, e).kind == At(t, e).kind
      {
        assert At(r, e) == At(AppendAt(last, d - 1, x), e - 1);
      }
    }
  }

  /** Below the appended node, the spine is the appended node's own spine. */
  lemma {:induction false} AtBelowAppended(t: Block, d: nat, x: Block, e: nat)
    requires d < SpineLen(t) && e < SpineLen(x)
    ensures d + 1 + e < SpineLen(AppendAt(t, d, x)) && At(AppendAt(t, d, x), d + 1 + e) == At(x, e)
  {
    AppendAtSpine(t, d, x);
    if d > 0 {
      var last := t.children[|t.children| - 1];
      AtBelowAppended(last, d - 1, x, e);
      assert AppendAt(t, d, x).children[|AppendAt(t, d, x).children| - 1] == AppendAt(last, d - 1, x);
    }
  }

  /** The node at depth `d` is the one that gains `x` as its last child. */
  lemma {:induction false} AppendAtGrows(t: Block, d: nat, x: Block)
    requires d < SpineLen(t)
    ensures d < SpineLen(AppendAt(t, d, x)) && At(AppendAt(t, d, x), d) == Block(At(t, d).kind, At(t, d).children + [x])
  {
    AppendAtSpine(t, d, x);
    if d > 0 {
      var last := t.children[|t.children| - 1];
      AppendAtGrows(last, d - 1, x);
    }
  }
}

=== FILE: ticket_key_resolver.dfy ===
/** `Jir::TicketKeyResolver` of lib/jir/ticket_key_resolver.rb: what the
    user typed as a ticket becomes a list of ticket keys. The settings it
    reads from `Config` and the commit messages `git log` prints are
    parameters; `exit 1` and `raise` both become an `Err`. */
module TicketKeyResolver {
  import opened Wrappers
  import opened RubyText
  import opened SeqFacts

  datatype KeyError =
    | EmptyKey                          // "empty ticket key given"
    | UnknownFormat(key: string)        // "unknown ticket key format"
    | GitFailed(gitRef: string)         // `backtick_or_die` when `git log` fails
    | NoTicketInCommit(gitRef: string)  // no key of the default project in the message
    | NotExactlyOne(tickets: seq<string>)

  /** What the resolver reads from outside: `Config.default_project`
      (always set: `Config.default_project` raises otherwise),
      `Config.ticket_aliases`, and for each git ref the message
      `git log --format=%B -n 1` prints; a ref missing from `commits` is
      one `git log` fails on. */
  datatype Env = Env(defaultProject: string, ticketAliases: map<string, string>, commits: map<string, string>)

  // ---- The patterns of ticket_keys ----

  predicate IsDigitLine(l: string) {
    |l| > 0 && AllDigits(l)
  }

  /** `key =~ /^[0-9]+$/`. `^` and `$` are line anchors in Ruby, so it is
      enough that one line of the key is a run of digits. */
  predicate HasDigitLine(s: string) {
    exists l :: l in Fields(s, '\n') && IsDigitLine(l)
  }

  /** A line on which `^git([/:.@].*)?$` matches. */
  predicate IsGitLine(l: string) {
    l == "git" || (|l| > 3 && l[..3] == "git" && l[3] in "/:.@")
  }

  /** The first line on which the `git` pattern matches. */
  function FirstGitLine(ls: seq<string>): (r: Option<nat>)
    ensures r.Some? ==> r.value < |ls| && IsGitLine(ls[r.value])
    ensures r.Some? ==> forall j :: 0 <= j < r.value ==> !IsGitLine(ls[j])
    ensures r.None? ==> forall j :: 0 <= j < |ls| ==> !IsGitLine(ls[j])
  {
    if |ls| == 0 then None
    else if IsGitLine(ls[0]) then Some(0)
    else match FirstGitLine(ls[1..])
      case None => None
      case Some(i) => Some(i + 1)
  }

  /** `$1.to_s.gsub(%r{^[/:.]}, '')`, then `HEAD` for an empty ref. The
      capture holds no newline, so `^` only matches at its start and at
      most one character goes. */
  function GitRef(suffix: string): (r: string)
    ensures |r| > 0
    ensures |suffix| > 0 && suffix[0] in "/:." ==> r == (if |suffix| == 1 then "HEAD" else suffix[1..])
    ensures (|suffix| == 0 || suffix[0] !in "/:.") ==> r == (if |suffix| == 0 then "HEAD" else suffix)
  {
    var stripped := if |suffix| > 0 && suffix[0] in "/:." then suffix[1..] else suffix;
    if stripped == "" then "HEAD" else stripped
  }

  /** `key =~ /[A-Z]+-[0-9]+/`, which is not anchored. */
  predicate HasTicketPattern(s: string) {
    exists i :: 0 <= i < |s| - 2 && IsUpper(s[i]) && s[i + 1] == '-' && IsDigit(s[i + 2])
  }

  // ---- The commit-message scan of ticket_keys_from_git_ref ----

  /** `proj-` followed by one to eight digits: the first group of
      `/(#{proj}-[0-9]{1,8})(\W|$)/`. */
  predicate IsTicketOf(k: string, proj: string) {
    |proj| + 2 <= |k| <= |proj| + 9 && k[..|proj|] == proj && k[|proj|] == '-' && AllDigits(k[|proj| + 1..])
  }

  /** The pattern matches at `p` with its first group ending at `e`. */
  predicate MatchesAt(msg: string, proj: string, p: nat, e: nat) {
    p <= e <= |msg| && IsTicketOf(msg[p..e], proj) && (e == |msg| || !IsWordChar(msg[e]))
  }

  /** Length of the run of digits starting at `q`. */
  function DigitRun(s: string, q: nat): (n: nat)
    requires q <= |s|
    ensures q + n <= |s|
    ensures forall i :: q <= i < q + n ==> IsDigit(s[i])
    ensures q + n < |s| ==> !IsDigit(s[q + n])
    decreases |s| - q
  {
    if q < |s| && IsDigit(s[q]) then 1 + DigitRun(s, q + 1) else 0
  }

  lemma {:induction false} DigitRunExact(s: string, q: nat, e: nat)
    requires q <= e <= |s|
    requires forall i :: q <= i < e ==> IsDigit(s[i])
    requires e == |s| || !IsDigit(s[e])
    ensures DigitRun(s, q) == e - q
    decreases e - q
  {
    if q < e {
      DigitRunExact(s, q + 1, e);
    }
  }

  /** Where a match attempted at `p` ends its first group. The greedy
      `{1,8}` never gains by backtracking: a shorter run is followed by a
      digit, which is neither `\W` nor the end of a line. */
  function KeyEnd(msg: string, proj: string, p: nat): (r: Option<nat>)
    requires p <= |msg|
    ensures r.Some? ==> MatchesAt(msg, proj, p, r.value)
  {
    var q := p + |proj| + 1;
    if q <= |msg| && msg[p..p + |proj|] == proj && msg[p + |proj|] == '-' then
      var e := q + DigitRun(msg, q);
      SubSlices(msg, p, |proj|, e);
      SubSlices(msg, p, |proj| + 1, e);
      if 1 <= e - q <= 8 && (e == |msg| || !IsWordChar(msg[e])) then Some(e) else None
    else None
  }

  /** There is no other end: a match at `p` is the one `KeyEnd` finds. */
  lemma {:induction false} KeyEndComplete(msg: string, proj: string, p: nat, e: nat)
    requires MatchesAt(msg, proj, p, e)
    ensures KeyEnd(msg, proj, p) == Some(e)
  {
    var q := p + |proj| + 1;
    assert msg[p..p + |proj|] == msg[p..e][..|proj|];
    assert msg[p + |proj|] == msg[p..e][|proj|];
    forall i | q <= i < e
      ensures IsDigit(msg[i])
    {
      assert msg[i] == msg[p..e][|proj| + 1..][i - q];
    }
    DigitRunExact(msg, q, e);
  }

  /** `commit_msg.scan(ticket_regex).map(&:first)` from position `p`:
      after a match the scan resumes behind the `\W` it consumed. */
  function Scan(msg: string, proj: string, p: nat): (keys: seq<string>)
    requires p <= |msg|
    ensures forall k :: k in keys ==> IsTicketOf(k, proj)
    decreases |msg| - p
  {
    if p == |msg| then []
    else match KeyEnd(msg, proj, p)
      case Some(e) => [msg[p..e]] + Scan(msg, proj, if e < |msg| then e + 1 else e)
      case None => Scan(msg, proj, p + 1)
  }

  /** The scan finds nothing exactly when no key of the project occurs,
      followed by a non-word character or the end, at or after `p`. */
  lemma {:induction false} ScanEmpty(msg: string, proj: string, p: nat)
    requires p <= |msg|
    ensures Scan(msg, proj, p) == [] <==> forall q: nat, e: nat :: p <= q ==> !MatchesAt(msg, proj, q, e)
    decreases |msg| - p
  {
    if p < |msg| {
      match KeyEnd(msg, proj, p)
      case Some(e) =>
      case None =>
        ScanEmpty(msg, proj, p + 1);
        forall e: nat | MatchesAt(msg, proj, p, e)
          ensures false
        {
          KeyEndComplete(msg, proj, p, e);
        }
    } else {
      forall q: nat, e: nat | p <= q && MatchesAt(msg, proj, q, e)
        ensures false
      {
      }
    }
  }

  /** The scan reports the leftmost match first, then carries on behind it. */
  lemma {:induction false} ScanFirst(msg: string, proj: string, p: nat, q: nat, e: nat)
    requires p <= q && MatchesAt(msg, proj, q, e)
    requires forall q': nat, e': nat :: p <= q' < q ==> !MatchesAt(msg, proj, q', e')
    ensures Scan(msg, proj, p) == [msg[q..e]] + Scan(msg, proj, if e < |msg| then e + 1 else e)
    decreases q - p
  {
    if p < q {
      match KeyEnd(msg, proj, p)
      case Some(_) => assert false;
      case None =>
        ScanSkips(msg, proj, p);
        ScanFirst(msg, proj, p + 1, q, e);
    } else {
      ScanTakes(msg, proj, q, e);
    }
  }

  lemma {:induction false} ScanSkips(msg: string, proj: string, p: nat)
    requires p < |msg| && KeyEnd(msg, proj, p).None?
    ensures Scan(msg, proj, p) == Scan(msg, proj, p + 1)
  {
  }

  /** A match is reported, and the scan resumes behind the character
      that follows it. */
  lemma {:induction false} ScanTakes(msg: string, proj: string, q: nat, e: nat)
    requires MatchesAt(msg, proj, q, e)
    ensures Scan(msg, proj, q) == [msg[q..e]] + Scan(msg, proj, if e < |msg| then e + 1 else e)
  {
    assert |msg[q..e]| >= |proj| + 2;
    KeyEndComplete(msg, proj, q, e);
  }

  /** `ticket_keys_from_git_ref`: every key of the default project in the
      commit message, or an error when there is none. */
  function FromGitRef(env: Env, gitRef: string): (r: Result<seq<string>, KeyError>)
    ensures gitRef !in env.commits ==> r == Err(GitFailed(gitRef))
    ensures gitRef in env.commits ==>
      (r.Ok? <==> exists q: nat, e: nat :: MatchesAt(env.commits[gitRef], env.defaultProject, q, e))
    ensures r.Ok? ==> |r.value| > 0 && forall k :: k in r.value ==> IsTicketOf(k, env.defaultProject)
    ensures r.Err? ==> r.error in {GitFailed(gitRef), NoTicketInCommit(gitRef)}
  {
    if gitRef !in env.commits then Err(GitFailed(gitRef))
    else
      var msg := env.commits[gitRef];
      var tickets := Scan(msg, env.defaultProject, 0);
      ScanEmpty(msg, env.defaultProject, 0);
      if tickets == [] then Err(NoTicketInCommit(gitRef)) else Ok(tickets)
  }

  // ---- ticket_keys and ticket_key ----

  /** `ticket_keys` on a key without a comma: the first test that
      applies decides. */
  function Classify(env: Env, s: string): (r: Result<seq<string>, KeyError>)
    ensures |s| == 0 <==> r == Err(EmptyKey)
    ensures |s| > 0 && HasDigitLine(s) ==> r == Ok([env.defaultProject + "-" + s])
    ensures r == Err(UnknownFormat(s)) <==>
      |s| > 0 && !HasDigitLine(s) && s !in env.ticketAliases
      && FirstGitLine(Fields(s, '\n')).None? && !HasTicketPattern(s)
    ensures r.Ok? ==> |r.value| > 0
  {
    if |s| == 0 then Err(EmptyKey)
    else if HasDigitLine(s) then Ok([env.defaultProject + "-" + s])
    else if s in env.ticketAliases then Ok([env.ticketAliases[s]])
    else
      var ls := Fields(s, '\n');
      match FirstGitLine(ls)
      case Some(i) => FromGitRef(env, GitRef(ls[i][3..]))
      case None => if HasTicketPattern(s) then Ok([s]) else Err(UnknownFormat(s))
  }

  /** The results of the parts, flattened; the first failing part
      stops the whole, as the exception it raises does. */
  function Flatten(rs: seq<Result<seq<string>, KeyError>>): (r: Result<seq<string>, KeyError>)
    ensures r.Ok? <==> forall i :: 0 <= i < |rs| ==> rs[i].Ok?
    ensures r.Err? ==> exists i :: 0 <= i < |rs| && rs[i] == Err(r.error) && forall j :: 0 <= j < i ==> rs[j].Ok?
    decreases |rs|
  {
    if |rs| == 0 then Ok([])
    else
      var first :- rs[0];
      var rest := Flatten(rs[1..]);
      assert forall i :: 1 <= i < |rs| ==> rs[i] == rs[1..][i - 1];
      if rest.Err? then
        var i :| 0 <= i < |rs| - 1 && rs[1..][i] == Err(rest.error) && forall j :: 0 <= j < i ==> rs[1..][j].Ok?;
        assert rs[i + 1] == Err(rest.error);
        Err(rest.error)
      else Ok(first + rest.value)
  }

  /** `ticket_keys(k)` for every comma-separated part. */
  function KeysOfParts(env: Env, parts: seq<string>): (r: Result<seq<string>, KeyError>)
    ensures r.Ok? <==> forall i :: 0 <= i < |parts| ==> Classify(env, parts[i]).Ok?
  {
    var rs := seq(|parts|, i requires 0 <= i < |parts| => Classify(env, parts[i]));
    assert forall i :: 0 <= i < |parts| ==> rs[i] == Classify(env, parts[i]);
    Flatten(rs)
  }

  /** `ticket_keys`: a key with a comma is split (trailing empty parts
      dropped, as `String#split` does); no part holds a comma, so each
      is classified directly. */
  function TicketKeys(env: Env, s: string): (r: Result<seq<string>, KeyError>)
    ensures ',' !in s ==> r == Classify(env, s)
  {
    if ',' in s then KeysOfParts(env, Split(s, ',')) else Classify(env, s)
  }

  /** `Array#uniq`: the first occurrence of every element, in order. */
  function Uniq(xs: seq<string>): (r: seq<string>)
    ensures forall x :: x in r <==> x in xs
    ensures forall i, j :: 0 <= i < j < |r| ==> r[i] != r[j]
    ensures |xs| > 0 ==> |r| > 0 && r[0] == xs[0]
  {
    if |xs| == 0 then []
    else
      var front := Uniq(xs[..|xs| - 1]);
      if xs[|xs| - 1] in front then front
      else
        assert |xs| > 1 ==> xs[..|xs| - 1][0] == xs[0];
        front + [xs[|xs| - 1]]
  }

  /** One distinct element exactly when the list is non-empty and all its
      elements are equal. */
  lemma {:induction false} UniqSingle(xs: seq<string>)
    ensures |Uniq(xs)| == 1 <==> |xs| > 0 && forall i :: 0 <= i < |xs| ==> xs[i] == xs[0]
  {
    var u := Uniq(xs);
    if |u| == 1 {
      forall i | 0 <= i < |xs|
        ensures xs[i] == xs[0]
      {
        assert xs[i] in u;
      }
    }
    if |xs| > 0 && forall i :: 0 <= i < |xs| ==> xs[i] == xs[0] {
      UniqConstant(xs);
    }
  }

  lemma {:induction false} UniqConstant(xs: seq<string>)
    requires |xs| > 0 && forall i :: 0 <= i < |xs| ==> xs[i] == xs[0]
    ensures Uniq(xs) == [xs[0]]
    decreases |xs|
  {
    if |xs| > 1 {
      var front := xs[..|xs| - 1];
      assert forall i :: 0 <= i < |front| ==> front[i] == xs[i];
      UniqConstant(front);
    }
  }

  /** `ticket_key`: the one ticket the key resolves to; several distinct
      tickets, or none, are an error. */
  function TicketKey(env: Env, s: string): (r: Result<string, KeyError>)
    ensures TicketKeys(env, s).Err? ==> r == Err(TicketKeys(env, s).error)
    ensures TicketKeys(env, s).Ok? ==>
      var keys := TicketKeys(env, s).value;
      (r.Ok? <==> |keys| > 0 && forall i :: 0 <= i < |keys| ==> keys[i] == keys[0])
      && (r.Ok? ==> r.value == keys[0])
      && (r.Err? ==> r.error == NotExactlyOne(Uniq(keys)))
  {
    var keys :- TicketKeys(env, s);
    var tickets := Uniq(keys);
    UniqSingle(keys);
    if |tickets| != 1 then Err(NotExactlyOne(tickets)) else Ok(tickets[0])
  }

  // ---- Properties ----

  /** An all-digit key names a ticket of the default project, and this is
      decided before the aliases are consulted. */
  lemma {:induction false} DigitsBeforeAliases(env: Env, s: string)
    requires |s| > 0 && AllDigits(s)
    ensures TicketKeys(env, s) == Ok([env.defaultProject + "-" + s])
  {
    assert forall i :: 0 <= i < |s| ==> s[i] != '\n';
    FieldsWithout(s, '\n');
    assert IsDigitLine(s);
  }

  /** The anchors match at line boundaries: a key one of whose lines is a
      number counts as a number, the other lines included in the key. */
  lemma {:induction false} DigitLineAnywhere(env: Env, a: string, b: string)
    requires '\n' !in a && ',' !in a && ',' !in b && IsDigitLine(b)
    ensures TicketKeys(env, a + "\n" + b) == Ok([env.defaultProject + "-" + (a + "\n" + b)])
  {
    FieldsCons(a, '\n', b);
    assert b in Fields(a + "\n" + b, '\n');
  }

  /** A one-line key that is not a number and is configured as an alias
      resolves to what it is mapped to. */
  lemma {:induction false} AliasResolves(env: Env, s: string)
    requires s in env.ticketAliases && |s| > 0 && '\n' !in s && ',' !in s && !AllDigits(s)
    ensures TicketKeys(env, s) == Ok([env.ticketAliases[s]])
  {
    FieldsWithout(s, '\n');
  }

  /** A one-line key on which the `git` pattern matches, and which is
      neither a number nor an alias, reads the ticket from the commit the
      rest of the line names. */
  lemma {:induction false} GitLine(env: Env, s: string)
    requires |s| > 0 && '\n' !in s && ',' !in s && !IsDigit(s[0])
    requires s !in env.ticketAliases && IsGitLine(s)
    ensures TicketKeys(env, s) == FromGitRef(env, GitRef(s[3..]))
  {
    FieldsWithout(s, '\n');
  }

  /** `git` alone reads the ticket from the `HEAD` commit. */
  lemma {:induction false} GitAlone(env: Env)
    requires "git" !in env.ticketAliases
    ensures TicketKeys(env, "git") == FromGitRef(env, "HEAD")
  {
    assert !IsDigit("git"[0]) && IsGitLine("git");
    GitLine(env, "git");
    assert "git"[3..] == "";
  }

  /** `git/ref`, `git:ref` and `git.ref` read the ticket from `ref`. */
  lemma {:induction false} GitWithRef(env: Env, c: char, ref: string)
    requires c in "/:." && |ref| > 0 && '\n' !in ref && ',' !in ref
    requires "git" + [c] + ref !in env.ticketAliases
    ensures TicketKeys(env, "git" + [c] + ref) == FromGitRef(env, ref)
  {
    var s := "git" + [c] + ref;
    assert s[..3] == "git" && s[3] == c && s[3..] == [c] + ref && !IsDigit(s[0]);
    GitLine(env, s);
    assert ([c] + ref)[1..] == ref;
  }

  /** `git@ref` keeps the `@`: only `/`, `:` and `.` are stripped. */
  lemma {:induction false} GitAtKeepsAt(env: Env, ref: string)
    requires '\n' !in ref && ',' !in ref
    requires "git@" + ref !in env.ticketAliases
    ensures TicketKeys(env, "git@" + ref) == FromGitRef(env, "@" + ref)
  {
    var s := "git@" + ref;
    assert s[..3] == "git" && s[3] == '@' && s[3..] == "@" + ref && !IsDigit(s[0]);
    GitLine(env, s);
  }

  /** A key with a comma resolves part by part, in order; the first
      failing part's error is the result. */
  lemma {:induction false} CommaParts(env: Env, a: string, b: string)
    requires ',' !in a && ',' !in b && |b| > 0
    ensures Classify(env, a).Err? ==> TicketKeys(env, a + "," + b) == Err(Classify(env, a).error)
    ensures Classify(env, a).Ok? && Classify(env, b).Err? ==> TicketKeys(env, a + "," + b) == Err(Classify(env, b).error)
    ensures Classify(env, a).Ok? && Classify(env, b).Ok? ==>
      TicketKeys(env, a + "," + b) == Ok(Classify(env, a).value + Classify(env, b).value)
  {
    SplitPair(a, ',', b);
    assert (a + "," + b)[|a|] == ',';
    PairOfParts(env, a, b);
  }

  lemma {:induction false} PairOfParts(env: Env, a: string, b: string)
    ensures Classify(env, a).Err? ==> KeysOfParts(env, [a, b]) == Err(Classify(env, a).error)
    ensures Classify(env, a).Ok? && Classify(env, b).Err? ==> KeysOfParts(env, [a, b]) == Err(Classify(env, b).error)
    ensures Classify(env, a).Ok? && Classify(env, b).Ok? ==>
      KeysOfParts(env, [a, b]) == Ok(Classify(env, a).value + Classify(env, b).value)
  {
    assert seq(2, i requires 0 <= i < 2 => Classify(env, [a, b][i])) == [Classify(env, a), Classify(env, b)];
    FlattenPair(Classify(env, a), Classify(env, b));
  }

  lemma {:induction false} FlattenPair(x: Result<seq<string>, KeyError>, y: Result<seq<string>, KeyError>)
    ensures x.Err? ==> Flatten([x, y]) == Err(x.error)
    ensures x.Ok? && y.Err? ==> Flatten([x, y]) == Err(y.error)
    ensures x.Ok? && y.Ok? ==> Flatten([x, y]) == Ok(x.value + y.value)
  {
    assert [x, y][1..] == [y] && [y][1..] == [];
    assert Flatten([]) == Ok([]);
    if y.Ok? {
      assert y.value + [] == y.value;
      assert Flatten([y]) == Ok(y.value);
    }
  }

  /** `Flatten` is a homomorphism: the results of `a + b` are those of
      `a` followed by those of `b`, an error in `a` winning over one in
      `b`; a single part flattens to its own result. Together these fix
      `Flatten` as the in-order concatenation of the parts' keys. */
  lemma {:induction false} FlattenAppend(a: seq<Result<seq<string>, KeyError>>, b: seq<Result<seq<string>, KeyError>>)
    ensures Flatten(a).Err? ==> Flatten(a + b) == Flatten(a)
    ensures Flatten(a).Ok? && Flatten(b).Err? ==> Flatten(a + b) == Flatten(b)
    ensures Flatten(a).Ok? && Flatten(b).Ok? ==> Flatten(a + b) == Ok(Flatten(a).value + Flatten(b).value)
    ensures forall x :: Flatten([x]) == x
    decreases |a|
  {
    forall x: Result<seq<string>, KeyError> ensures Flatten([x]) == x {
      FlattenSingle(x);
    }
    if |a| == 0 {
      assert a + b == b;
      if Flatten(b).Ok? {
        assert Flatten(a).value + Flatten(b).value == Flatten(b).value;
      }
    } else {
      var ab := a + b;
      assert ab[0] == a[0] && ab[1..] == a[1..] + b;
      if a[0].Ok? {
        FlattenAppend(a[1..], b);
        var ra := Flatten(a[1..]);
        var rb := Flatten(b);
        if ra.Ok? && rb.Ok? {
          assert a[0].value + (ra.value + rb.value) == (a[0].value + ra.value) + rb.value;
        }
      }
    }
  }

  lemma FlattenSingle(x: Result<seq<string>, KeyError>)
    ensures Flatten([x]) == x
  {
    assert [x][1..] == [];
    if x.Ok? {
      assert x.value + [] == x.value;
    }
  }

  /** The parts of `a + b` resolve to those of `a` followed by those of
      `b`; a single part resolves as `ticket_keys` does on it. */
  lemma {:induction false} KeysOfPartsAppend(env: Env, a: seq<string>, b: seq<string>)
    ensures KeysOfParts(env, a).Err? ==> KeysOfParts(env, a + b) == KeysOfParts(env, a)
    ensures KeysOfParts(env, a).Ok? && KeysOfParts(env, b).Err? ==> KeysOfParts(env, a + b) == KeysOfParts(env, b)
    ensures KeysOfParts(env, a).Ok? && KeysOfParts(env, b).Ok? ==>
      KeysOfParts(env, a + b) == Ok(KeysOfParts(env, a).value + KeysOfParts(env, b).value)
    ensures forall k :: KeysOfParts(env, [k]) == Classify(env, k)
  {
    var ra := seq(|a|, i requires 0 <= i < |a| => Classify(env, a[i]));
    var rb := seq(|b|, i requires 0 <= i < |b| => Classify(env, b[i]));
    var ab := a + b;
    assert seq(|ab|, i requires 0 <= i < |ab| => Classify(env, ab[i])) == ra + rb;
    FlattenAppend(ra, rb);
    forall k ensures KeysOfParts(env, [k]) == Classify(env, k) {
      assert seq(1, i requires 0 <= i < 1 => Classify(env, [k][i])) == [Classify(env, k)];
    }
  }

  /** Any key made of two or more comma-free parts, the last one not
      empty, resolves as `KeysOfParts` on exactly those parts: the split
      gives them back and each is resolved in order. */
  lemma {:induction false} CommaJoin(env: Env, ps: seq<string>)
    requires |ps| >= 2 && |ps[|ps| - 1]| > 0
    requires forall i :: 0 <= i < |ps| ==> ',' !in ps[i]
    ensures TicketKeys(env, JoinWith(ps, ",")) == KeysOfParts(env, ps)
  {
    JoinCons(ps[0], ps[1..], ",");
    assert [ps[0]] + ps[1..] == ps;
    var s := JoinWith(ps, ",");
    assert s[|ps[0]|] == ',';
    SplitJoinParts(ps, ',');
  }

  /** A lone comma splits into no parts at all: no keys, and no error
      until `ticket_key` asks for exactly one. */
  lemma {:induction false} LoneComma(env: Env)
    ensures TicketKeys(env, ",") == Ok([])
    ensures TicketKey(env, ",") == Err(NotExactlyOne([]))
  {
    FieldsCons("", ',', "");
    FieldsWithout("", ',');
    assert "," == "" + [','] + "";
  }

  /** The keys of a commit are those of the default project; a ref whose
      message names none is an error. */
  lemma {:induction false} CommitWithoutTicket(env: Env, gitRef: string)
    requires gitRef in env.commits
    requires forall q: nat, e: nat :: !MatchesAt(env.commits[gitRef], env.defaultProject, q, e)
    ensures FromGitRef(env, gitRef) == Err(NoTicketInCommit(gitRef))
  {
    ScanEmpty(env.commits[gitRef], env.defaultProject, 0);
  }

  lemma {:induction false} KeyOfDigits(proj: string, digits: string)
    requires 1 <= |digits| <= 8 && AllDigits(digits)
    ensures IsTicketOf(proj + "-" + digits, proj)
  {
    var k := proj + "-" + digits;
    assert k[..|proj|] == proj && k[|proj|] == '-' && k[|proj| + 1..] == digits;
  }

  /** A one-line key that is no number, alias or `git` form is kept when
      it contains an upper-case project key anywhere, and rejected
      otherwise. */
  lemma {:induction false} PatternOrUnknown(env: Env, s: string)
    requires |s| > 0 && '\n' !in s && ',' !in s && !AllDigits(s)
    requires s !in env.ticketAliases && !IsGitLine(s)
    ensures TicketKeys(env, s) == if HasTicketPattern(s) then Ok([s]) else Err(UnknownFormat(s))
  {
    FieldsWithout(s, '\n');
  }

  // ---- The examples of the test suite ----

  function ExampleEnv(): Env {
    Env("MYPROJ", map["my-epic" := "MYPROJ-1000", "bug-123" := "BUGTRACK-456"], map[])
  }

  lemma {:induction false} ExampleNumber()
    ensures TicketKeys(ExampleEnv(), "123") == Ok(["MYPROJ-123"])
  {
    DigitsBeforeAliases(ExampleEnv(), "123");
    assert "MYPROJ" + "-" + "123" == "MYPROJ-123";
  }

  lemma {:induction false} NumberFacts()
    ensures AllDigits("123") && AllDigits("456") && ',' !in "123" && ',' !in "456"
    ensures "123" + "," + "456" == "123,456"
    ensures "MYPROJ" + "-" + "123" == "MYPROJ-123" && "MYPROJ" + "-" + "456" == "MYPROJ-456"
  {
  }

  lemma {:induction false} ExampleNumbers()
    ensures TicketKeys(ExampleEnv(), "123,456") == Ok(["MYPROJ-123", "MYPROJ-456"])
  {
    NumberFacts();
    DigitsBeforeAliases(ExampleEnv(), "123");
    DigitsBeforeAliases(ExampleEnv(), "456");
    CommaParts(ExampleEnv(), "123", "456");
    TwoSingles("MYPROJ-123", "MYPROJ-456");
  }

  lemma {:induction false} ExampleAliases()
    ensures TicketKeys(ExampleEnv(), "my-epic") == Ok(["MYPROJ-1000"])
    ensures TicketKeys(ExampleEnv(), "bug-123") == Ok(["BUGTRACK-456"])
  {
    assert !IsDigit("my-epic"[0]) && !IsDigit("bug-123"[0]);
    AliasResolves(ExampleEnv(), "my-epic");
    AliasResolves(ExampleEnv(), "bug-123");
  }

  lemma {:induction false} ExampleFullKey()
    ensures TicketKeys(ExampleEnv(), "OTHERPROJ-456") == Ok(["OTHERPROJ-456"])
  {
    var good := "OTHERPROJ-456";
    assert !IsDigit(good[0]) && good[..3] != "git";
    assert IsUpper(good[8]) && good[9] == '-' && IsDigit(good[10]);
    PatternOrUnknown(ExampleEnv(), good);
  }

  lemma {:induction false} UnknownHasNoPattern()
    ensures !HasTicketPattern("invalid-format")
  {
    var bad := "invalid-format";
    assert forall c :: c in bad ==> !IsUpper(c);
    assert forall i :: 0 <= i < |bad| ==> bad[i] in bad;
  }

  lemma {:induction false} UnknownFacts()
    ensures !AllDigits("invalid-format") && !IsGitLine("invalid-format")
    ensures '\n' !in "invalid-format" && ',' !in "invalid-format"
  {
    var bad := "invalid-format";
    assert !IsDigit(bad[0]);
    assert bad[..3][0] != "git"[0];
  }

  lemma {:induction false} ExampleUnknown()
    ensures TicketKeys(ExampleEnv(), "invalid-format") == Err(UnknownFormat("invalid-format"))
  {
    UnknownFacts();
    UnknownHasNoPattern();
    PatternOrUnknown(ExampleEnv(), "invalid-format");
  }

  lemma {:induction false} ExampleTicketKey()
    ensures TicketKey(ExampleEnv(), "PROJ-123") == Ok("PROJ-123")
  {
    var key := "PROJ-123";
    assert !IsDigit(key[0]) && key[..3] != "git";
    assert IsUpper(key[3]) && key[4] == '-' && IsDigit(key[5]);
    PatternOrUnknown(ExampleEnv(), key);
  }
}

=== FILE: values.dfy ===
/** JSON/YAML values as the Ruby program holds them after parsing.
    A Ruby Hash keeps its keys in insertion order, so a mapping is a
    sequence of key/value entries; lookups read the last entry with the
    key and updates keep the key where it first appeared. */
module Values {
  import opened Wrappers

  datatype Value =
    | Null
    | Bool(b: bool)
    | Int(i: int)
    | Str(s: string)
    | List(items: seq<Value>)
    | Dict(entries: seq<(string, Value)>)

  type Entries = seq<(string, Value)>

  /** Ruby truthiness: everything except `nil` and `false`. */
  predicate Truthy(v: Value) {
    !v.Null? && v != Bool(false)
  }

  function Keys(m: Entries): (ks: seq<string>)
    ensures |ks| == |m|
    ensures forall i :: 0 <= i < |m| ==> ks[i] == m[i].0
  {
    if |m| == 0 then [] else Keys(m[..|m| - 1]) + [m[|m| - 1].0]
  }

  /** `hash[k]`: the value stored under `k`, if any. */
  function Get(m: Entries, k: string): (r: Option<Value>)
    ensures r.Some? <==> k in Keys(m)
    ensures r.Some? ==> (k, r.value) in m
  {
    if |m| == 0 then None
    else if m[|m| - 1].0 == k then Some(m[|m| - 1].1)
    else Get(m[..|m| - 1], k)
  }

  /** `hash[k] = v`: overwrite in place when `k` is present, append otherwise. */
  function Put(m: Entries, k: string, v: Value): (r: Entries)
    ensures Get(r, k) == Some(v)
    ensures forall k' :: k' != k ==> Get(r, k') == Get(m, k')
    ensures Keys(r) == if k in Keys(m) then Keys(m) else Keys(m) + [k]
  {
    if k in Keys(m) then Overwrite(m, k, v) else m + [(k, v)]
  }

  function Overwrite(m: Entries, k: string, v: Value): (r: Entries)
    requires k in Keys(m)
    ensures Get(r, k) == Some(v)
    ensures forall k' :: k' != k ==> Get(r, k') == Get(m, k')
    ensures Keys(r) == Keys(m)
  {
    var last := m[|m| - 1];
    if last.0 == k then
      var front := m[..|m| - 1];
      (if k in Keys(front) then Overwrite(front, k, v) else front) + [(k, v)]
    else
      assert Keys(m) == Keys(m[..|m| - 1]) + [last.0];
      Overwrite(m[..|m| - 1], k, v) + [last]
  }

  /** `hash.delete(k)` / `hash.except(k)`: drop the key, keep the rest in order. */
  function Delete(m: Entries, k: string): (r: Entries)
    ensures Get(r, k) == None
    ensures forall k' :: k' != k ==> Get(r, k') == Get(m, k')
    ensures k !in Keys(r)
    ensures forall k' :: k' in Keys(r) <==> k' in Keys(m) && k' != k
  {
    if |m| == 0 then []
    else
      var front := Delete(m[..|m| - 1], k);
      if m[|m| - 1].0 == k then front else front + [m[|m| - 1]]
  }

  /** `a.merge(b)`: every entry of `b` wins over `a`. */
  function Merge(a: Entries, b: Entries): (r: Entries)
    ensures forall k :: Get(r, k) == if k in Keys(b) then Get(b, k) else Get(a, k)
    ensures forall k :: k in Keys(r) <==> k in Keys(a) || k in Keys(b)
  {
    if |b| == 0 then a
    else
      var front := Merge(a, b[..|b| - 1]);
      var (k, v) := b[|b| - 1];
      assert Keys(b) == Keys(b[..|b| - 1]) + [k];
      Put(front, k, v)
  }

  datatype DigError = NoDigMethod(found: Value)

  /** `hash.dig(k1, ..., kn)`: `nil` (here `Null`) as soon as a key is
      missing or maps to `nil`; a TypeError when an intermediate value
      is not a Hash and more keys remain. */
  function Dig(m: Entries, path: seq<string>): (r: Result<Value, DigError>)
    requires |path| > 0
    ensures |path| == 1 ==> r == Ok(Get(m, path[0]).GetOr(Null))
    decreases |path|
  {
    var v := Get(m, path[0]).GetOr(Null);
    if |path| == 1 || v.Null? then Ok(v)
    else if v.Dict? then Dig(v.entries, path[1..])
    else Err(NoDigMethod(v))
  }

  /** A string stored at the end of `path`, reading anything else
      (missing key, non-string value, non-Hash intermediate) as absent. */
  function DigStr(v: Value, path: seq<string>): (r: Option<string>)
    ensures |path| == 0 ==> (r.Some? <==> v.Str?)
    decreases |path|
  {
    if |path| == 0 then (if v.Str? then Some(v.s) else None)
    else if !v.Dict? then None
    else match Get(v.entries, path[0])
      case None => None
      case Some(child) => DigStr(child, path[1..])
  }
}

=== FILE: walker.dfy ===
/** The depth-first walk of lib/jir/adf/walker.rb. The walk is generic
    over the builder: a builder is any state with a step function taking
    one hook call (an `Event`). `Events` lists the calls the walk makes,
    `Walk` performs them in the same recursion shape as the Ruby method. */
module Walker {
  import opened Wrappers
  import opened AdfNode
  import Values
  import SeqFacts

  datatype Event =
    | OpenNode(node: Node)
    | OpenMark(mark: Mark)
    | Inline(node: Node)
    | CloseMark(mark: Mark)
    | CloseNode(node: Node)

  /** `inline = !node['content']`: only the presence of `content` counts. */
  predicate IsLeaf(n: Node) {
    n.content.Absent?
  }

  function MarkOpens(ms: seq<Mark>): (es: seq<Event>)
    ensures |es| == |ms|
    ensures forall i :: 0 <= i < |ms| ==> es[i] == OpenMark(ms[i])
  {
    if |ms| == 0 then [] else [OpenMark(ms[0])] + MarkOpens(ms[1..])
  }

  /** Mark closes, in the same listed order as the opens. */
  function MarkCloses(ms: seq<Mark>): (es: seq<Event>)
    ensures |es| == |ms|
    ensures forall i :: 0 <= i < |ms| ==> es[i] == CloseMark(ms[i])
  {
    if |ms| == 0 then [] else [CloseMark(ms[0])] + MarkCloses(ms[1..])
  }

  /** The hook calls `walk_translate(n)` makes, in order. */
  function Events(n: Node): seq<Event>
    decreases n, 1
  {
    match n.content
    case Absent => MarkOpens(n.marks) + [Inline(n)] + MarkCloses(n.marks)
    case Children(cs) => [OpenNode(n)] + MarkOpens(n.marks) + ChildEvents(cs) + MarkCloses(n.marks) + [CloseNode(n)]
  }

  function ChildEvents(cs: seq<Node>): seq<Event>
    decreases cs, 0
  {
    if |cs| == 0 then [] else Events(cs[0]) + ChildEvents(cs[1..])
  }

  /** Feeding a list of hook calls to a builder, one at a time. */
  function Run<S>(step: (S, Event) -> S, s: S, es: seq<Event>): S
    decreases |es|
  {
    if |es| == 0 then s else Run(step, step(s, es[0]), es[1..])
  }

  lemma {:induction false} RunAppend<S>(step: (S, Event) -> S, s: S, a: seq<Event>, b: seq<Event>)
    ensures Run(step, s, a + b) == Run(step, Run(step, s, a), b)
    decreases |a|
  {
    if |a| == 0 {
      assert a + b == b;
    } else {
      assert (a + b)[1..] == a[1..] + b;
      RunAppend(step, step(s, a[0]), a[1..], b);
    }
  }

  /** `node['marks']&.each { |m| builder.open_mark(m) }` (or `close_mark`). */
  function EachMark<S>(step: (S, Event) -> S, s: S, ms: seq<Mark>, open: bool): S
    decreases |ms|
  {
    if |ms| == 0 then s
    else EachMark(step, step(s, if open then OpenMark(ms[0]) else CloseMark(ms[0])), ms[1..], open)
  }

  /** `walk_translate(node)` against a builder whose hooks are `step`. */
  function Walk<S>(step: (S, Event) -> S, s: S, n: Node): S
    decreases n, 1
  {
    var inline := IsLeaf(n);
    var s1 := if inline then s else step(s, OpenNode(n));
    var s2 := EachMark(step, s1, n.marks, true);
    var s3 := if inline then step(s2, Inline(n)) else WalkChildren(step, s2, n.content.nodes);
    var s4 := EachMark(step, s3, n.marks, false);
    if inline then s4 else step(s4, CloseNode(n))
  }

  function WalkChildren<S>(step: (S, Event) -> S, s: S, cs: seq<Node>): S
    decreases cs, 0
  {
    if |cs| == 0 then s else WalkChildren(step, Walk(step, s, cs[0]), cs[1..])
  }

  /** `translate`: a fresh builder, one walk, the builder's final state. */
  function Translate<S>(init: S, step: (S, Event) -> S, doc: Node): (r: S)
    ensures r == Run(step, init, Events(doc))
  {
    WalkIsRun(step, init, doc);
    Walk(step, init, doc)
  }

  lemma {:induction false} EachMarkIsRun<S>(step: (S, Event) -> S, s: S, ms: seq<Mark>, open: bool)
    ensures EachMark(step, s, ms, open) == Run(step, s, if open then MarkOpens(ms) else MarkCloses(ms))
    decreases |ms|
  {
    if |ms| > 0 {
      EachMarkIsRun(step, step(s, if open then OpenMark(ms[0]) else CloseMark(ms[0])), ms[1..], open);
    }
  }

  lemma RunCons<S>(step: (S, Event) -> S, s: S, e: Event, rest: seq<Event>)
    ensures Run(step, s, [e] + rest) == Run(step, step(s, e), rest)
  {
    assert ([e] + rest)[1..] == rest;
  }

  lemma ChildEventsCons(c: Node, rest: seq<Node>)
    ensures ChildEvents([c] + rest) == Events(c) + ChildEvents(rest)
  {
    assert ([c] + rest)[1..] == rest;
  }

  lemma RunNone<S>(step: (S, Event) -> S, s: S)
    ensures Run(step, s, []) == s
  {
  }

  lemma RunOne<S>(step: (S, Event) -> S, s: S, e: Event)
    ensures Run(step, s, [e]) == step(s, e)
  {
    assert [e][1..] == [];
  }

  lemma RunTwo<S>(step: (S, Event) -> S, s: S, e1: Event, e2: Event)
    ensures Run(step, s, [e1, e2]) == step(step(s, e1), e2)
  {
    assert [e1, e2][1..] == [e2];
    RunOne(step, step(s, e1), e2);
  }

  /** The hook calls of a container, fed to a builder, split at their seams. */
  lemma RunContainer<S>(step: (S, Event) -> S, s: S, n: Node)
    requires n.content.Children?
    ensures Run(step, s, Events(n))
      == step(Run(step, Run(step, Run(step, step(s, OpenNode(n)), MarkOpens(n.marks)),
                            ChildEvents(n.content.nodes)), MarkCloses(n.marks)), CloseNode(n))
  {
    var opens, closes, inner := MarkOpens(n.marks), MarkCloses(n.marks), ChildEvents(n.content.nodes);
    var s1 := step(s, OpenNode(n));
    RunAppend(step, s1, opens, inner);
    RunAppend(step, s1, opens + inner, closes);
    RunAppend(step, s1, opens + inner + closes, [CloseNode(n)]);
    RunOne(step, Run(step, s1, opens + inner + closes), CloseNode(n));
    RunCons(step, s, OpenNode(n), opens + inner + closes + [CloseNode(n)]);
    SeqFacts.Regroup([OpenNode(n)], opens, inner, closes, [CloseNode(n)]);
  }

  /** `RunContainer` with the intermediate builder states named. */
  lemma RunContainerVia<S>(step: (S, Event) -> S, s: S, n: Node, s0: S, s1: S, s2: S, s3: S)
    requires n.content.Children?
    requires s0 == step(s, OpenNode(n)) && s1 == Run(step, s0, MarkOpens(n.marks))
    requires s2 == Run(step, s1, ChildEvents(n.content.nodes)) && s3 == Run(step, s2, MarkCloses(n.marks))
    ensures Run(step, s, Events(n)) == step(s3, CloseNode(n))
  {
    RunContainer(step, s, n);
  }

  lemma RunOnlyChild<S>(step: (S, Event) -> S, s: S, c: Node)
    ensures Run(step, s, ChildEvents([c])) == Run(step, s, Events(c))
  {
    assert ChildEvents([c]) == Events(c) + ChildEvents([]);
    assert Events(c) + [] == Events(c);
  }

  /** The hook calls of a leaf, fed to a builder, split at their seams. */
  lemma RunLeaf<S>(step: (S, Event) -> S, s: S, n: Node)
    requires n.content.Absent?
    ensures Run(step, s, Events(n)) == Run(step, step(Run(step, s, MarkOpens(n.marks)), Inline(n)), MarkCloses(n.marks))
  {
    var opens, closes := MarkOpens(n.marks), MarkCloses(n.marks);
    RunAppend(step, s, opens, [Inline(n)]);
    RunAppend(step, s, opens + [Inline(n)], closes);
  }

  /** The recursive walk makes exactly the hook calls `Events` lists. */
  lemma {:induction false} WalkIsRun<S>(step: (S, Event) -> S, s: S, n: Node)
    ensures Walk(step, s, n) == Run(step, s, Events(n))
    decreases n, 1
  {
    match n.content
    case Absent => WalkLeafIsRun(step, s, n);
    case Children(cs) =>
      var s1 := step(s, OpenNode(n));
      var s2 := EachMark(step, s1, n.marks, true);
      var s3 := WalkChildren(step, s2, cs);
      var s4 := EachMark(step, s3, n.marks, false);
      EachMarkIsRun(step, s1, n.marks, true);
      WalkChildrenIsRun(step, s2, cs);
      EachMarkIsRun(step, s3, n.marks, false);
      RunContainerVia(step, s, n, s1, s2, s3, s4);
  }

  lemma WalkLeafIsRun<S>(step: (S, Event) -> S, s: S, n: Node)
    requires n.content.Absent?
    ensures Walk(step, s, n) == Run(step, s, Events(n))
  {
    var opens, closes := MarkOpens(n.marks), MarkCloses(n.marks);
    var s2 := EachMark(step, s, n.marks, true);
    EachMarkIsRun(step, s, n.marks, true);
    EachMarkIsRun(step, step(s2, Inline(n)), n.marks, false);
    RunAppend(step, s, opens, [Inline(n)]);
    RunAppend(step, s, opens + [Inline(n)], closes);
  }

  lemma {:induction false} WalkChildrenIsRun<S>(step: (S, Event) -> S, s: S, cs: seq<Node>)
    ensures WalkChildren(step, s, cs) == Run(step, s, ChildEvents(cs))
    decreases cs, 0
  {
    if |cs| > 0 {
      WalkIsRun(step, s, cs[0]);
      WalkChildrenIsRun(step, Walk(step, s, cs[0]), cs[1..]);
      RunAppend(step, s, Events(cs[0]), ChildEvents(cs[1..]));
    }
  }

  // ---- Independent descriptions of the walk order ----

  /** The leaves of a tree, left to right (pre-order). */
  function Leaves(n: Node): seq<Node>
    decreases n, 1
  {
    match n.content
    case Absent => [n]
    case Children(cs) => ChildLeaves(cs)
  }

  function ChildLeaves(cs: seq<Node>): seq<Node>
    decreases cs, 0
  {
    if |cs| == 0 then [] else Leaves(cs[0]) + ChildLeaves(cs[1..])
  }

  /** The nodes handed to `inline`, in the order they are handed over. */
  function Inlines(es: seq<Event>): seq<Node> {
    if |es| == 0 then []
    else (if es[0].Inline? then [es[0].node] else []) + Inlines(es[1..])
  }

  lemma {:induction false} InlinesAppend(a: seq<Event>, b: seq<Event>)
    ensures Inlines(a + b) == Inlines(a) + Inlines(b)
  {
    if |a| == 0 {
      assert a + b == b;
    } else {
      assert (a + b)[1..] == a[1..] + b;
      assert (a + b)[0] == a[0];
      InlinesAppend(a[1..], b);
    }
  }

  lemma {:induction false} InlinesOfMarks(ms: seq<Mark>)
    ensures Inlines(MarkOpens(ms)) == [] && Inlines(MarkCloses(ms)) == []
  {
    if |ms| > 0 {
      InlinesOfMarks(ms[1..]);
    }
  }

  /** Every leaf reaches `inline` exactly once, in document order, and
      no container does. */
  lemma {:induction false} InlinesAreLeaves(n: Node)
    ensures Inlines(Events(n)) == Leaves(n)
    decreases n, 1
  {
    InlinesOfMarks(n.marks);
    var opens, closes := MarkOpens(n.marks), MarkCloses(n.marks);
    match n.content
    case Absent =>
      InlinesAppend(opens, [Inline(n)]);
      InlinesAppend(opens + [Inline(n)], closes);
      assert Inlines([Inline(n)]) == [n];
    case Children(cs) =>
      ChildInlinesAreLeaves(cs);
      InlinesAppend([OpenNode(n)], opens);
      InlinesAppend([OpenNode(n)] + opens, ChildEvents(cs));
      InlinesAppend([OpenNode(n)] + opens + ChildEvents(cs), closes);
      InlinesAppend([OpenNode(n)] + opens + ChildEvents(cs) + closes, [CloseNode(n)]);
      assert Inlines([OpenNode(n)]) == [] && Inlines([CloseNode(n)]) == [];
  }

  lemma {:induction false} ChildInlinesAreLeaves(cs: seq<Node>)
    ensures Inlines(ChildEvents(cs)) == ChildLeaves(cs)
    decreases cs, 0
  {
    if |cs| > 0 {
      InlinesAreLeaves(cs[0]);
      ChildInlinesAreLeaves(cs[1..]);
      InlinesAppend(Events(cs[0]), ChildEvents(cs[1..]));
    }
  }

  /** Replays the open/close node calls against a stack of open nodes:
      `None` when a close does not match the innermost open node. */
  function NodeStack(st: seq<Node>, es: seq<Event>): Option<seq<Node>>
    decreases |es|
  {
    if |es| == 0 then Some(st)
    else match es[0]
      case OpenNode(n) => NodeStack(st + [n], es[1..])
      case CloseNode(n) =>
        if |st| > 0 && st[|st| - 1] == n then NodeStack(st[..|st| - 1], es[1..]) else None
      case _ => NodeStack(st, es[1..])
  }

  lemma {:induction false} NodeStackAppend(st: seq<Node>, a: seq<Event>, b: seq<Event>)
    ensures NodeStack(st, a + b) == match NodeStack(st, a) case None => None case Some(st') => NodeStack(st', b)
    decreases |a|
  {
    if |a| == 0 {
      assert a + b == b;
    } else {
      assert (a + b)[1..] == a[1..] + b;
      assert (a + b)[0] == a[0];
      match a[0]
      case OpenNode(n) => NodeStackAppend(st + [n], a[1..], b);
      case CloseNode(n) =>
        if |st| > 0 && st[|st| - 1] == n {
          NodeStackAppend(st[..|st| - 1], a[1..], b);
        }
      case _ => NodeStackAppend(st, a[1..], b);
    }
  }

  lemma {:induction false} NodeStackOfMarks(st: seq<Node>, ms: seq<Mark>)
    ensures NodeStack(st, MarkOpens(ms)) == Some(st)
    ensures NodeStack(st, MarkCloses(ms)) == Some(st)
  {
    if |ms| > 0 {
      NodeStackOfMarks(st, ms[1..]);
    }
  }

  /** `open_node` and `close_node` calls nest properly: every container
      is closed after all its descendants and before its next sibling,
      whatever stack of open nodes the walk starts from. */
  lemma {:induction false} NodesBalanced(st: seq<Node>, n: Node)
    ensures NodeStack(st, Events(n)) == Some(st)
    decreases n, 1
  {
    NodeStackOfMarks(st, n.marks);
    var opens, closes := MarkOpens(n.marks), MarkCloses(n.marks);
    match n.content
    case Absent =>
      NodeStackAppend(st, opens, [Inline(n)]);
      NodeStackAppend(st, opens + [Inline(n)], closes);
      assert NodeStack(st, [Inline(n)]) == Some(st);
    case Children(cs) =>
      var inner := st + [n];
      NodeStackOfMarks(inner, n.marks);
      ChildrenBalanced(inner, cs);
      NodeStackAppend(st, [OpenNode(n)], opens);
      NodeStackAppend(st, [OpenNode(n)] + opens, ChildEvents(cs));
      NodeStackAppend(st, [OpenNode(n)] + opens + ChildEvents(cs), closes);
      NodeStackAppend(st, [OpenNode(n)] + opens + ChildEvents(cs) + closes, [CloseNode(n)]);
      assert NodeStack(st, [OpenNode(n)]) == Some(inner);
      assert inner[..|inner| - 1] == st;
      assert NodeStack(inner, [CloseNode(n)]) == Some(st);
  }

  lemma {:induction false} ChildrenBalanced(st: seq<Node>, cs: seq<Node>)
    ensures NodeStack(st, ChildEvents(cs)) == Some(st)
    decreases cs, 0
  {
    if |cs| > 0 {
      NodesBalanced(st, cs[0]);
      ChildrenBalanced(st, cs[1..]);
      NodeStackAppend(st, Events(cs[0]), ChildEvents(cs[1..]));
    }
  }

  /** The marks of a leaf are closed in the order they were opened, not
      innermost first: for `marks: [strong, em]` the builder sees
      open strong, open em, the text, close strong, close em. */
  lemma MarksCloseInListedOrder(t: string)
    ensures Events(Node("text", Values.Null, Absent, [Strong, Em], Some(t)))
      == [OpenMark(Strong), OpenMark(Em), Inline(Node("text", Values.Null, Absent, [Strong, Em], Some(t))),
          CloseMark(Strong), CloseMark(Em)]
  {
  }

  /** What kind of hook an event calls, forgetting its argument. */
  datatype Hook = OpenNodeHook | OpenMarkHook | InlineHook | CloseMarkHook | CloseNodeHook

  function Hooks(es: seq<Event>): (hs: seq<Hook>)
    ensures |hs| == |es|
  {
    if |es| == 0 then []
    else
      var h := match es[0]
        case OpenNode(_) => OpenNodeHook
        case OpenMark(_) => OpenMarkHook
        case Inline(_) => InlineHook
        case CloseMark(_) => CloseMarkHook
        case CloseNode(_) => CloseNodeHook;
      [h] + Hooks(es[1..])
  }

  lemma {:induction false} HooksAppend(a: seq<Event>, b: seq<Event>)
    ensures Hooks(a + b) == Hooks(a) + Hooks(b)
    decreases |a|
  {
    if |a| == 0 {
      assert a + b == b;
    } else {
      assert (a + b)[1..] == a[1..] + b;
      assert (a + b)[0] == a[0];
      HooksAppend(a[1..], b);
    }
  }

  /** Two trees of the same shape: `content` present in the same places,
      the same number of children there, and the same number of marks on
      every node. Types, attributes and text may differ anywhere. */
  predicate SameShape(n: Node, m: Node)
    decreases n, 1
  {
    |n.marks| == |m.marks| &&
    match n.content
    case Absent => m.content.Absent?
    case Children(a) => m.content.Children? && SameShapes(a, m.content.nodes)
  }

  predicate SameShapes(a: seq<Node>, b: seq<Node>)
    decreases a, 0
  {
    |a| == |b| && (|a| == 0 || (SameShape(a[0], b[0]) && SameShapes(a[1..], b[1..])))
  }

  lemma {:induction false} MarkHooks(ms1: seq<Mark>, ms2: seq<Mark>)
    requires |ms1| == |ms2|
    ensures Hooks(MarkOpens(ms1)) == Hooks(MarkOpens(ms2))
    ensures Hooks(MarkCloses(ms1)) == Hooks(MarkCloses(ms2))
    decreases |ms1|
  {
    if |ms1| > 0 {
      MarkHooks(ms1[1..], ms2[1..]);
      HooksAppend([OpenMark(ms1[0])], MarkOpens(ms1[1..]));
      HooksAppend([OpenMark(ms2[0])], MarkOpens(ms2[1..]));
      HooksAppend([CloseMark(ms1[0])], MarkCloses(ms1[1..]));
      HooksAppend([CloseMark(ms2[0])], MarkCloses(ms2[1..]));
    }
  }

  /** Which hooks the walk calls, and in what order, depends only on the
      tree's shape: the routing of `walk_translate` never looks at a
      node's `type`, attributes or text, at any depth. */
  lemma {:induction false} RoutingFollowsShape(n: Node, m: Node)
    requires SameShape(n, m)
    ensures Hooks(Events(n)) == Hooks(Events(m))
    decreases n, 1
  {
    MarkHooks(n.marks, m.marks);
    match n.content
    case Absent =>
      LeafHooks(n);
      LeafHooks(m);
    case Children(a) =>
      var b := m.content.nodes;
      ContainerHooks(n);
      ContainerHooks(m);
      ChildRoutingFollowsShape(a, b);
      HooksAppend(MarkOpens(n.marks) + ChildEvents(a), MarkCloses(n.marks));
      HooksAppend(MarkOpens(n.marks), ChildEvents(a));
      HooksAppend(MarkOpens(m.marks) + ChildEvents(b), MarkCloses(m.marks));
      HooksAppend(MarkOpens(m.marks), ChildEvents(b));
  }

  lemma {:induction false} ChildRoutingFollowsShape(a: seq<Node>, b: seq<Node>)
    requires SameShapes(a, b)
    ensures Hooks(ChildEvents(a)) == Hooks(ChildEvents(b))
    decreases a, 0
  {
    if |a| > 0 {
      RoutingFollowsShape(a[0], b[0]);
      ChildRoutingFollowsShape(a[1..], b[1..]);
      HooksAppend(Events(a[0]), ChildEvents(a[1..]));
      HooksAppend(Events(b[0]), ChildEvents(b[1..]));
    }
  }

  lemma {:induction false} SameShapeRefl(n: Node)
    ensures SameShape(n, n)
    decreases n, 1
  {
    match n.content
    case Absent =>
    case Children(a) => SameShapesRefl(a);
  }

  lemma {:induction false} SameShapesRefl(a: seq<Node>)
    ensures SameShapes(a, a)
    decreases a, 0
  {
    if |a| > 0 {
      SameShapeRefl(a[0]);
      SameShapesRefl(a[1..]);
    }
  }

  /** In particular, retyping a node and replacing its attributes and text
      leaves the hook sequence of its whole walk unchanged. */
  lemma {:induction false} RoutingIgnoresType(n: Node, t: string, attrs: Values.Value, text: Option<string>)
    ensures Hooks(Events(n.(nodeType := t, attrs := attrs, text := text))) == Hooks(Events(n))
  {
    var m := n.(nodeType := t, attrs := attrs, text := text);
    match n.content {
      case Absent =>
      case Children(a) => SameShapesRefl(a);
    }
    RoutingFollowsShape(m, n);
  }

  lemma {:induction false} LeafHooks(n: Node)
    requires n.content.Absent?
    ensures Hooks(Events(n)) == Hooks(MarkOpens(n.marks)) + [InlineHook] + Hooks(MarkCloses(n.marks))
  {
    var opens, closes := MarkOpens(n.marks), MarkCloses(n.marks);
    HooksAppend(opens + [Inline(n)], closes);
    HooksAppend(opens, [Inline(n)]);
    assert Hooks([Inline(n)]) == [InlineHook] + Hooks([]);
  }

  lemma {:induction false} ContainerHooks(n: Node)
    requires n.content.Children?
    ensures Hooks(Events(n)) == [OpenNodeHook] + Hooks(MarkOpens(n.marks) + ChildEvents(n.content.nodes) + MarkCloses(n.marks)) + [CloseNodeHook]
  {
    var inner := MarkOpens(n.marks) + ChildEvents(n.content.nodes) + MarkCloses(n.marks);
    assert Events(n) == [OpenNode(n)] + inner + [CloseNode(n)];
    HooksAppend([OpenNode(n)] + inner, [CloseNode(n)]);
    HooksAppend([OpenNode(n)], inner);
    assert Hooks([OpenNode(n)]) == [OpenNodeHook] + Hooks([]);
    assert Hooks([CloseNode(n)]) == [CloseNodeHook] + Hooks([]);
  }
}

=== FILE: wrappers.dfy ===
/** Failure-compatible wrappers shared by every module of the model.
    Ruby's `nil` becomes `None`; a raised exception or an `exit 1`
    becomes `Err` carrying a module-specific error value. */
module Wrappers {

  datatype Option<+T> = None | Some(value: T) {

    predicate IsFailure() {
      None?
    }

    function PropagateFailure<U>(): Option<U>
      requires None?
    {
      None
    }

    function Extract(): T
      requires Some?
    {
      value
    }

    /** The value, or `default` when there is none (Ruby's `x || default`). */
    function GetOr(default: T): T {
      match this
      case Some(v) => v
      case None => default
    }
  }

  datatype Result<+R, +E> = Ok(value: R) | Err(error: E) {

    predicate IsFailure() {
      Err?
    }

    function PropagateFailure<U>(): Result<U, E>
      requires Err?
    {
      Err(error)
    }

    function Extract(): R
      requires Ok?
    {
      value
    }
  }
}
